=== FILE: README.md ===
# Currency converter client: session and store logic in Dafny

This project models the client side of a currency-converter web application. The original is an Angular application written in TypeScript. The model covers:

- **The session layer.** A session record is kept in session storage. Tokens expire according to the access token's `exp` claim. The role guards admit or redirect navigations.
- **The request interceptor.** A module-level `isRefreshing` flag decides whether an outgoing request starts a token refresh. The interceptor is modelled as a state machine.
- **The state stores.** There are four: authentication, conversions, currencies and UI. Each is a record, and each operation is a pure transition on that record. Transitions that write local storage also return local storage after the call.
- **The query parameters** the HTTP services build, and the error messages they produce.
- **The logic in three pages:**
  - the registration page's password meter;
  - the currency table's search, sort and paging;
  - the converter page's form, batch selection and requests.

Things outside the program become parameters:
- the clock is `now`, in milliseconds;
- `jwtDecode` is a `Decoder` returning the `exp` claim, or `None` when decoding throws;
- `toLowerCase` and `localeCompare` are `fold` and `collate`;
- the system colour-scheme preference is `prefersDark`;
- notification ids are inputs.

Network calls are not performed. Each transition takes the call's outcome (`Result<T, Failure>`) as an argument.

Modules:
- `Wrappers`: `Option` and `Result`.
- `Text`: JavaScript truthiness, `||`, `includes` and `String(n)`.
- `Seqs`: filtering out, `slice`, subsequence and reverse.
- `Storage`: browser storage of JSON text. An entry that does not parse reads as absent.
- `Models` and `Environment`: the datatypes, the initial states and the configuration constants.
- `Http`: `handleError`, how an `ApiResponse` envelope is opened, `HttpParams`, and navigation.
- One module per modelled source file:
  - `AuthService`, `AuthInterceptor`, `Guards`, `AuthStore`;
  - `ConversionService`, `AdminService`, `CurrencyService`;
  - `ConversionStore`, `CurrencyStore`, `UiStore`;
  - `Register`, `CurrencyList`, `Converter`.

Facts about the code that shape the model:
- `isAuthenticated` judges the token by its JWT `exp` claim. The stored `expiresAt` is never consulted.
- `expiresAt` is `now + expiresIn * 1000`: the lifetime in seconds, converted to milliseconds.
- The refresh check needs only a decodable token. It does not need the session to count as authenticated.
- The interceptor guards refreshes with a bare boolean flag. Waiting requests do not join the refresh in flight.
  - The model proves what the flag does guarantee: no second refresh starts while the flag is raised.
  - It also proves what the flag does not guarantee: two refresh calls can overlap, and the flag can stay raised for ever. That happens in two ways: a refresh that is due with no refresh token stored, or a refresh call whose subscriber unsubscribes before it settles (a newer request in a store's `switchMap`), since then neither handler that drops the flag runs.
- Navigation after a 401 or a failed refresh carries no reason tag. Only `forceLogout` adds `expired=true`.
- A failed refresh in the authentication store resets the store. The store itself does not clear session storage. A refresh rejected with status 401 does clear it, through the interceptor's 401 handling, which the store transitions do not include (see Left out).
- Derived views are Angular `computed` signals. They are recomputed only when a signal they read changes; reads of plain fields, form values and the clock are not tracked. The model keeps both forms of each such view: the cached view as written and a fresh evaluation (see Findings).

## Model

| member | source | states |
|---|---|---|
| AuthService.GetStoredAuthData | src/app/core/auth/services/auth.service.ts:194-207 | A record is found exactly when the key holds text that parses; a missing key, empty text or a parse failure all read as no record |
| AuthService.StoreAuthData | src/app/core/auth/services/auth.service.ts:92-124 | After storing a login response, the three getters return its access token, refresh token and user unchanged, `expiresAt` is `now + expiresIn*1000`, and no other key changes |
| AuthService.ClearAuthData | src/app/core/auth/services/auth.service.ts:187-189 | After clearing, every getter returns null and other keys are untouched |
| AuthService.NoRecordNoSession | src/app/core/auth/services/auth.service.ts:105-124 | With an absent or unparseable entry, every getter returns null |
| AuthService.IsTokenExpired | src/app/core/auth/services/auth.service.ts:138-146 | Expired iff `now >= exp*1000`; a token that cannot be decoded is expired |
| AuthService.ExpiryBoundary | src/app/core/auth/services/auth.service.ts:141-142 | A token whose expiry instant equals `now` is expired; one that expires a millisecond later is not |
| AuthService.ShouldRefreshToken | src/app/core/auth/services/auth.service.ts:151-163 | No token and an undecodable token both give false; otherwise true iff `now >= exp*1000 - 300*1000` |
| AuthService.IsAuthenticated | src/app/core/auth/services/auth.service.ts:129-133 | True iff a non-empty token is stored and it has not expired by its `exp` claim |
| AuthService.IsAuthenticatedIgnoresExpiresAt | src/app/core/auth/services/auth.service.ts:129-133 | Two session records that differ only in `expiresAt` get the same verdict |
| AuthService.ExpiredImpliesRefreshDue | src/app/core/auth/services/auth.service.ts:138-163 | For a decodable token, expired implies a refresh is due; an undecodable token is expired, never due for refresh, and not authenticated |
| AuthService.GetAccessToken | src/app/core/auth/services/auth.service.ts:105-108 | The stored record's access token, present exactly when a record is |
| AuthService.GetRefreshToken | src/app/core/auth/services/auth.service.ts:113-116 | The stored record's refresh token, present exactly when a record is |
| AuthService.GetStoredUser | src/app/core/auth/services/auth.service.ts:121-124 | The stored record's user, present exactly when a record is |
| AuthService.IsAdmin | src/app/core/auth/services/auth.service.ts:179-182 | True iff the stored user's role is exactly "Admin"; no stored record gives false |
| AuthService.Login | src/app/core/auth/services/auth.service.ts:28-39 | Succeeds iff the envelope has `success` and `data`, and then stores exactly that response; on any failure storage is unchanged and the message is the envelope's, or 'Login failed', or the normalised HTTP error |
| AuthService.RefreshToken | src/app/core/auth/services/auth.service.ts:59-71 | Like login, with 'Token refresh failed' as the fallback message |
| AuthService.Register | src/app/core/auth/services/auth.service.ts:44-54 | Succeeds iff the envelope has `success` and `data`; otherwise the message falls back to 'Registration failed' |
| AuthService.Logout | src/app/core/auth/services/auth.service.ts:76-88 | The session record is removed whether or not the call succeeds, and a failure is still reported, normalised |
| AuthService.LoginScenario | src/app/core/auth/services/auth.service.ts:92-182 | After logging in with a 900-second token for a "User", the session is authenticated, not admin, and not yet due for refresh |
| AuthInterceptor.AddAuthHeader | src/app/core/auth/interceptors/auth.interceptor.ts:59-69 | Without a non-empty token the request is unchanged; otherwise only the `Authorization: Bearer <token>` header is set |
| AuthInterceptor.Intercept | src/app/core/auth/interceptors/auth.interceptor.ts:9-47 | Login and register requests pass untouched. A refresh starts iff one is due, the flag is down and a refresh token is stored, and the flag is then raised. No request lowers the flag. A due refresh without a refresh token raises the flag and sends anyway |
| AuthInterceptor.OnRefreshSettled | src/app/core/auth/interceptors/auth.interceptor.ts:26-37 | The flag is always dropped. Success stores the new session and re-sends the request with the new bearer token. Failure clears the session, navigates to login and rethrows |
| AuthInterceptor.OnResendFailed | src/app/core/auth/interceptors/auth.interceptor.ts:31-36 | Whatever its status, a failed re-sent request drops the flag, clears the session and navigates to login |
| AuthInterceptor.OnSendFailed | src/app/core/auth/interceptors/auth.interceptor.ts:47-56 | Only a 401 clears the session and navigates; the flag is untouched and the error is rethrown unchanged |
| AuthInterceptor.Step | src/app/core/auth/interceptors/auth.interceptor.ts:7-56 | A refresh call is issued only from a lowered flag and raises it; only the settle handlers lower it. An unsubscription runs no handler and leaves the flag and the session as they are |
| AuthInterceptor.RefreshCallsBoundedByFlagDrops | src/app/core/auth/interceptors/auth.interceptor.ts:21-33 | Over any run, refresh calls never outnumber the flag drops, plus one if the flag started down |
| AuthInterceptor.NoRefreshWhileFlagged | src/app/core/auth/interceptors/auth.interceptor.ts:21-22 | From a raised flag, a run in which no handler drops it issues no refresh call |
| AuthInterceptor.StuckFlagArises | src/app/core/auth/interceptors/auth.interceptor.ts:21-25 | A due refresh with no stored refresh token raises the flag and issues no refresh call |
| AuthInterceptor.StuckFlagStaysStuck | src/app/core/auth/interceptors/auth.interceptor.ts:21-56 | Once raised with nothing outstanding, the flag never drops again and no refresh is ever issued, whatever follows |
| AuthInterceptor.CancelledRefreshSticksTheFlag | src/app/core/auth/interceptors/auth.interceptor.ts:21-37 | A refresh that starts and is then unsubscribed before it settles leaves the flag raised with nothing outstanding; afterwards no refresh is ever issued and the flag never drops |
| AuthInterceptor.RefreshPathsDropTheFlag | src/app/core/auth/interceptors/auth.interceptor.ts:27-33 | Every handler that ends a refresh path, success or failure, drops the flag. A path cancelled by unsubscription runs neither handler (`CancelledRefreshSticksTheFlag`) |
| AuthInterceptor.TwoRefreshCallsCanOverlap | src/app/core/auth/interceptors/auth.interceptor.ts:7-37 | The flag is not a single-flight lock: a concrete run ends with two refresh calls outstanding at once |
| Guards.AdminGuard | src/app/core/auth/guards/admin.guard.ts:8-33 | An unauthenticated user is denied and sent to login with `returnUrl`. Entry is allowed iff the user is authenticated and an admin. An authenticated non-admin is sent to `/dashboard?error=unauthorized` |
| Guards.RoleGuard | src/app/core/auth/guards/admin.guard.ts:38-60 | Entry is allowed iff the user is authenticated and a stored user's role is among the allowed roles; the redirects are as for the admin guard |
| Guards.AdminGuardIsRoleGuard | src/app/core/auth/guards/admin.guard.ts:8-60 | The admin guard decides and redirects exactly as the role guard with `["Admin"]` |
| Guards.RoleGuardMonotone | src/app/core/auth/guards/admin.guard.ts:50-53 | Allowing more roles never turns away a user who was admitted |
| Guards.RoleGuardEmptyDeniesAll | src/app/core/auth/guards/admin.guard.ts:50-58 | With no allowed roles nobody is admitted |
| AuthStore.InitializeAuth | src/app/store/auth.store.ts:37-51 | The store mirrors the stored user and tokens and the service's authentication verdict, with loading and error cleared; authenticated implies a token is held |
| AuthStore.InitializedAdminAgrees | src/app/store/auth.store.ts:27 | After initialisation the store's admin view equals the service's |
| AuthStore.Login | src/app/store/auth.store.ts:54-80 | On success the store is authenticated, holds the response's user and tokens, and navigates to `returnUrl` or `/dashboard`. On failure only loading and the error change, with 'Login failed' as the fallback |
| AuthStore.LoginMirrorsStorage | src/app/store/auth.store.ts:37-68 | After a successful login, re-initialising from storage gives the same user and tokens the store holds |
| AuthStore.Register | src/app/store/auth.store.ts:83-104 | No authentication field changes. Success navigates to login with `registered=true`; failure records the message or 'Registration failed' |
| AuthStore.Logout | src/app/store/auth.store.ts:107-125 | On success and on failure alike, the state is the initial state, the session record is gone and login is shown |
| AuthStore.LogoutIdempotent | src/app/store/auth.store.ts:107-125 | Logging out twice ends where logging out once does |
| AuthStore.RefreshToken | src/app/store/auth.store.ts:128-151 | Without a refresh token, nothing changes. Success replaces only the tokens and user and leaves `isAuthenticated` alone. Failure resets to the initial state and navigates to login; the store itself leaves session storage as it was |
| AuthStore.ForceLogout | src/app/store/auth.store.ts:164-170 | Storage cleared, initial state, nobody logged in, navigation to login with `expired=true` |
| AuthStore.IsLoggedIn | src/app/store/auth.store.ts:25 | Logged in iff authenticated and a user with a role is held |
| AuthStore.UserRole | src/app/store/auth.store.ts:26 | The user's role, or null exactly when there is no user |
| AuthStore.IsAdmin | src/app/store/auth.store.ts:27 | Admin iff the role is exactly "Admin" |
| AuthStore.Username | src/app/store/auth.store.ts:28 | The user's name, or empty text without a user |
| AuthStore.UserEmail | src/app/store/auth.store.ts:29 | The user's e-mail, or empty text without a user |
| AuthStore.UpdateUser | src/app/store/auth.store.ts:154-156 | Only the user changes |
| AuthStore.ClearError | src/app/store/auth.store.ts:159-161 | Only the error changes |
| AuthStore.LoggedInHoldsToken | src/app/store/auth.store.ts:25 | A logged-in store holds a user and, in a consistent store, an access token |
| AuthStore.ViewsFollowTransitions | src/app/store/auth.store.ts:25-27 | A successful login logs the user in, as admin iff the role is "Admin"; after logout or forced logout nobody is logged in and nobody is admin |
| Http.HandleError | src/app/core/services/conversion.service.ts:126-133 | An `Error` passes through. Otherwise the message is the nested message if non-empty, else the top-level message, else 'An error occurred', so it is never empty |
| Http.HandleErrorIdempotent | src/app/core/auth/services/auth.service.ts:212-219 | Normalising an already normalised error changes nothing |
| Http.OpenEnvelope | src/app/core/auth/services/auth.service.ts:30-35 | An envelope opens iff it has `success` and `data`; otherwise the error is its message or the fallback |
| Http.CallAuthEndpoint | src/app/core/auth/services/auth.service.ts:28-39 | An authentication call succeeds iff the response arrived and opened, and it yields the envelope's data |
| Http.Rethrow | src/app/core/services/conversion.service.ts:26-29 | A response passes through unchanged; a failure is normalised by `handleError` |
| Http.Set | src/app/core/services/conversion.service.ts:48-76 | After `set`, the key reads back the new value, every other key keeps its value, and the list grows by at most one |
| Http.SetIf | src/app/core/services/conversion.service.ts:51-76 | A guarded `set` either sets the key or leaves the parameters exactly as they were |
| Http.PagingParams | src/app/core/services/conversion.service.ts:50-56 | Page number and page size are sent only when truthy, so 0 is omitted; no other key is sent |
| ConversionService.FilterParams | src/app/core/services/conversion.service.ts:58-70 | Dates are sent whenever given; currencies only when non-empty; other keys keep their values |
| ConversionService.AmountParams | src/app/core/services/conversion.service.ts:71-76 | Each amount bound is sent whenever it is defined, 0 included; no other key changes |
| ConversionService.HistoryParams | src/app/core/services/conversion.service.ts:44-83 | Pagination and currencies are sent only when truthy, dates whenever given, and amount bounds whenever defined, including 0; no other key is sent |
| ConversionService.ExportParams | src/app/core/services/conversion.service.ts:99-114 | Only the four filter keys can be sent |
| ConversionService.ExportIsRestrictionOfHistory | src/app/core/services/conversion.service.ts:44-114 | The export sends what the history call sends under the filter keys, and never pagination or amount bounds |
| ConversionService.ZeroPageDroppedZeroAmountSent | src/app/core/services/conversion.service.ts:51-76 | A zero page number and page size are dropped while a zero minimum amount is sent |
| ConversionService.RecentParams | src/app/core/services/conversion.service.ts:88-94 | `limit` is 5 only when omitted; an explicit value, 0 included, is sent as given |
| AdminService.LogsParams | src/app/core/services/admin.service.ts:79-113 | Every pagination and filter field is sent only when truthy (a date always is); no other key is sent |
| AdminService.ExportLogsParams | src/app/core/services/admin.service.ts:118-137 | Only level and the two dates can be sent |
| AdminService.ExportLogsIsRestriction | src/app/core/services/admin.service.ts:79-137 | The export agrees with the log query on level and dates, and never sends endpoint or search |
| CurrencyService.CurrenciesParams | src/app/core/services/currency.service.ts:24-36 | Only the pagination block, each field only when truthy |
| CurrencyService.RatesParams | src/app/core/services/currency.service.ts:59-65 | The base is sent as `base`, and is 'USD' only when the argument is omitted |
| CurrencyService.RatesDefaultIsUsd | src/app/core/services/currency.service.ts:59-62 | Omitting the base and passing 'USD' ask for the same rates; an empty base does not |
| ConversionStore.LoadSlot | src/app/store/conversion.store.ts:54-76 | A stored list is read back only when its text parses; anything else gives the empty list |
| ConversionStore.LastConversion | src/app/store/conversion.store.ts:32 | Present iff the recent list is non-empty, and then it is the newest entry |
| ConversionStore.IsFavorite | src/app/store/conversion.store.ts:34-36 | True iff the exact pair (from, to) is stored |
| ConversionStore.IsFavoriteIsDirected | src/app/store/conversion.store.ts:34-36 | Storing (A, B) does not make (B, A) a favourite |
| ConversionStore.CeilDiv | src/app/store/conversion.store.ts:42-46 | `Math.ceil(a/b)`: the least multiple count that covers `a`, for either sign of `b` |
| ConversionStore.TotalPages | src/app/store/conversion.store.ts:42 | No finite page count for a page size of 0; otherwise the least count whose pages cover the total |
| ConversionStore.HasMoreHistory | src/app/store/conversion.store.ts:45-48 | With a page size of 0, more history iff the total is positive (`Infinity` versus `NaN`); with no history, never more from a non-negative page |
| ConversionStore.HasMoreHistoryIff | src/app/store/conversion.store.ts:45-48 | With a positive page size there are more pages iff `currentPage * pageSize < total` |
| ConversionStore.RecordConversion | src/app/store/conversion.store.ts:99 | The response is newest, the list holds at most 10, and the rest is the old list cut to 9 |
| ConversionStore.RecordAllKeepsLatest | src/app/store/conversion.store.ts:99 | Recording conversions one by one keeps the latest ten, newest first |
| ConversionStore.Initialize | src/app/store/conversion.store.ts:85-90 | Favourites and recent conversions are what local storage gives back; nothing else changes |
| ConversionStore.Convert | src/app/store/conversion.store.ts:93-117 | Success records the response and saves the list. Failure changes only the flag and the error ('Conversion failed'). In-memory lists keep mirroring storage |
| ConversionStore.BatchConvert | src/app/store/conversion.store.ts:120-144 | Success puts all results, in response order, ahead of the old list, cut to 10. Failure changes only the flag and the error ('Batch conversion failed') |
| ConversionStore.BatchIsReversedSuccession | src/app/store/conversion.store.ts:99-126 | A batch leaves the list that converting its results one by one in reverse order would leave |
| ConversionStore.LoadHistory | src/app/store/conversion.store.ts:147-172 | Success replaces the history and paging fields; failure sets only the flag and the error ('Failed to load history'); local lists are untouched |
| ConversionStore.AddFavorite | src/app/store/conversion.store.ts:175-185 | An absent pair is appended and saved; a present pair changes nothing; no duplicate is ever created |
| ConversionStore.RemoveFavorite | src/app/store/conversion.store.ts:188-194 | Every copy of the pair is removed, the others keep their order, and storage is rewritten |
| ConversionStore.ToggleFavorite | src/app/store/conversion.store.ts:197-213 | Membership of the pair flips and every other pair is unaffected; an added pair goes last; no duplicates arise |
| ConversionStore.ToggleFavoriteTwice | src/app/store/conversion.store.ts:197-213 | Toggling twice restores membership, and restores the exact list for a pair that was absent |
| ConversionStore.SetPage | src/app/store/conversion.store.ts:216-218 | Only the current page changes |
| ConversionStore.SetPageSize | src/app/store/conversion.store.ts:221-223 | The page size changes and the page resets to 1 |
| ConversionStore.ClearError | src/app/store/conversion.store.ts:226-228 | Only the error changes |
| ConversionStore.ClearRecent | src/app/store/conversion.store.ts:231-234 | The recent list is emptied in memory and removed from storage |
| CurrencyStore.GetCurrencyByCode | src/app/store/currency.store.ts:26-28 | Found iff some currency has the code, and then it is the first such currency |
| CurrencyStore.GetRateForCurrency | src/app/store/currency.store.ts:30-32 | Null without a rate table or an entry for the code, else the stored rate |
| CurrencyStore.RatesArray | src/app/store/currency.store.ts:34-42 | Empty without a table; otherwise exactly one row per rate key with its rate and the table's base |
| CurrencyStore.RatesArrayAgreesWithLookup | src/app/store/currency.store.ts:30-42 | A row exists for a code exactly when a rate does, and it carries that rate |
| CurrencyStore.IsStaleMonotone | src/app/store/currency.store.ts:44-49 | Once stale, stale at every later instant |
| CurrencyStore.CurrencyOptions | src/app/store/currency.store.ts:51-57 | One option per currency, in order, labelled "code - name" |
| CurrencyStore.LoadCurrencies | src/app/store/currency.store.ts:64-86 | Success stores the list; failure sets the error ('Failed to load currencies') and keeps the list |
| CurrencyStore.LoadRates | src/app/store/currency.store.ts:89-114 | Asks for the argument if non-empty, else the stored base. Success stores the table, that base and `now`. Failure keeps table, base and time |
| CurrencyStore.PollTick | src/app/store/currency.store.ts:141-160 | Asks for the stored base; success replaces only the table and the time; failure changes nothing |
| CurrencyStore.IsStale | src/app/store/currency.store.ts:44-49 | A fresh evaluation at `now`: stale without a recorded update, else iff more than an hour has passed since it |
| CurrencyStore.FreshForAnHour | src/app/store/currency.store.ts:44-49 | Judged by a fresh evaluation, rates fetched at `now` are fresh up to and including one hour later, and stale after |
| CurrencyStore.StaleAsWritten | src/app/store/currency.store.ts:44-49 | The staleness view as cached: reused while `lastUpdated` is unchanged, however much time passes; re-evaluated at the current time once it changes |
| CurrencyStore.StaleStuckAsWritten | src/app/store/currency.store.ts:44-49 | Rates loaded at t0 and read a second later stay shown as fresh two hours later when the poll fails, although a fresh evaluation says stale |
| CurrencyStore.SetBaseCurrency | src/app/store/currency.store.ts:117-119 | Only the base changes; the rate table is kept |
| CurrencyStore.ToggleSelectedCurrency | src/app/store/currency.store.ts:122-128 | The code's membership flips, other codes are unaffected, and an added code goes last |
| CurrencyStore.ToggleSelectedTwice | src/app/store/currency.store.ts:122-128 | Toggling twice restores membership, and restores the exact list for an absent code |
| CurrencyStore.SetSelectedCurrencies | src/app/store/currency.store.ts:131-133 | Only the selection changes |
| CurrencyStore.ClearError | src/app/store/currency.store.ts:136-138 | Only the error changes |
| UiStore.IsDarkMode | src/app/store/ui.store.ts:43 | Dark mode iff the theme's stored name is "dark" |
| UiStore.HasNotifications | src/app/store/ui.store.ts:44 | True iff the list is non-empty |
| UiStore.LoadSidebarState | src/app/store/ui.store.ts:66-73 | Collapsed iff the stored text is exactly what `setSidebarCollapsed(true)` writes; a missing key is expanded |
| UiStore.DefaultDuration | src/app/store/ui.store.ts:174-256 | Every default is at least 5000 ms, and only errors get 8000 |
| UiStore.LatestNotification | src/app/store/ui.store.ts:44-45 | Present iff there are notifications, and then it is the first |
| UiStore.LoadTheme | src/app/store/ui.store.ts:49-63 | A stored "dark" or "light" is returned as is; anything else defers to the system preference |
| UiStore.Initialize | src/app/store/ui.store.ts:84-89 | Theme and sidebar come from storage; nothing else changes |
| UiStore.SetTheme | src/app/store/ui.store.ts:100-104 | The theme written is read back by `loadTheme`, whatever the system preference |
| UiStore.ToggleTheme | src/app/store/ui.store.ts:92-97 | Light becomes dark and dark becomes light, and the new theme survives a reload |
| UiStore.ToggleThemeTwice | src/app/store/ui.store.ts:92-97 | Toggling twice restores the state |
| UiStore.SetSidebarCollapsed | src/app/store/ui.store.ts:114-117 | The flag written is read back by `loadSidebarState` |
| UiStore.ToggleSidebar | src/app/store/ui.store.ts:107-111 | The flag flips and survives a reload |
| UiStore.ReloadAfterWrite | src/app/store/ui.store.ts:66-117 | After either toggle, `initialize` reloads exactly what the store holds |
| UiStore.ShowLoading | src/app/store/ui.store.ts:120-125 | Loading is on, and the message is the argument or null |
| UiStore.HideLoading | src/app/store/ui.store.ts:128-133 | Loading is off and the message is null |
| UiStore.RemoveById | src/app/store/ui.store.ts:162-166 | Exactly the notifications with another id remain, each as often as before; with no match the list is unchanged |
| UiStore.RemoveByIdIsSubsequence | src/app/store/ui.store.ts:164 | The remaining notifications keep their order |
| UiStore.AddNotification | src/app/store/ui.store.ts:136-159 | The notification goes first with duration 5000 and dismissible true by default; a dismissal is scheduled iff the duration is positive |
| UiStore.RemoveNotification | src/app/store/ui.store.ts:162-166 | Exactly the notifications with another id remain; nothing else changes |
| UiStore.DismissUndoesAdd | src/app/store/ui.store.ts:150-155 | The scheduled dismissal of a notification with a fresh id restores the previous state |
| UiStore.ClearNotifications | src/app/store/ui.store.ts:169-171 | No notifications remain |
| UiStore.Show | src/app/store/ui.store.ts:174-256 | Each typed helper adds an always-dismissible notification whose duration defaults per type |
| UiStore.DefaultDurationOrder | src/app/store/ui.store.ts:174-256 | Errors 8000 ms, warnings 6000, successes and information 5000 |
| Register.PasswordStrength | src/app/features/auth/register/register.component.ts:34-46 | The score lies in 0..100 and is 0 exactly for the empty password |
| Register.NonEmptyScoresAtLeast15 | src/app/features/auth/register/register.component.ts:40-43 | Any non-empty password scores at least 15 |
| Register.CapNeverBinds | src/app/features/auth/register/register.component.ts:37-45 | The score of a non-empty password is the plain sum of the six weights |
| Register.StrengthMonotone | src/app/features/auth/register/register.component.ts:34-46 | Typing more characters never lowers the score |
| Register.ClassColorFollowLabel | src/app/features/auth/register/register.component.ts:80-101 | The class is the label in lower case; the colour is warn exactly for Weak, primary exactly for Strong, accent otherwise |
| Register.LabelMonotone | src/app/features/auth/register/register.component.ts:80-86 | A higher score never shows a lower label |
| Register.LabelExamples | src/app/features/auth/register/register.component.ts:34-86 | The empty password is Weak; eight characters with all four classes are Strong |
| Register.StrengthLabel | src/app/features/auth/register/register.component.ts:80-86 | One of four labels: Weak exactly below 30, Fair exactly from 30 to below 50, Strong exactly from 75 |
| Register.StrengthColor | src/app/features/auth/register/register.component.ts:88-93 | One of three colours: warn exactly below 30, primary exactly from 75 |
| Register.StrengthClass | src/app/features/auth/register/register.component.ts:95-101 | One of four classes: weak exactly below 30, strong exactly from 75 |
| Register.StrengthAsWritten | src/app/features/auth/register/register.component.ts:75-78 | The meter's score as cached: with no tracked input it keeps the score of its first reading, whatever the password becomes |
| Register.MeterFrozenAsWritten | src/app/features/auth/register/register.component.ts:75-86 | Read first while the field is empty, the meter says Weak for anything typed later, including "Abcdef1!", which scores Strong |
| Register.PasswordMismatch | src/app/features/auth/register/register.component.ts:22-31 | The validator returns a mismatch to the group iff both controls exist and their values differ |
| Register.ConfirmErrorsFor | src/app/features/auth/register/register.component.ts:22-31 | The confirmation errors the current values call for: a mismatch iff the two differ, none iff they agree and are non-empty (the `required` error is the control's own validator, line 116) |
| Register.ConfirmErrorsAsWritten | src/app/features/auth/register/register.component.ts:22-31 | As written, any edit that leaves the two values different marks the confirmation with a mismatch, and an edit of the confirmation sets the errors its values call for. A password edit that makes the two agree leaves the old errors in place |
| Register.ConfirmErrorsFresh | src/app/features/auth/register/register.component.ts:22-31 | As intended, after any edit the confirmation's errors are those its current values call for |
| Register.RunAsWrittenReachable | src/app/features/auth/register/register.component.ts:22-31 | As written, every reachable form carries the errors its values call for, or a leftover mismatch on two equal values |
| Register.AsWrittenValidIsSound | src/app/features/auth/register/register.component.ts:104-129 | As written, after any edits from the initial form, a valid form has equal, non-empty passwords and valid other controls |
| Register.FreshValidIff | src/app/features/auth/register/register.component.ts:104-129 | As intended, after any edits the form is valid iff the other controls are valid and the passwords agree and are non-empty |
| Register.StuckMismatchAsWritten | src/app/features/auth/register/register.component.ts:22-31 | Password "Abc", confirmation "Abd", then password "Abd": the group validator passes, yet the form stays invalid until the confirmation is retyped. The intended form is valid |
| CurrencyList.Matches | src/app/features/currencies/currency-list/currency-list.component.ts:56-61 | An empty folded term matches every currency; without a country only code and name are searched |
| CurrencyList.FilterMatching | src/app/features/currencies/currency-list/currency-list.component.ts:54-62 | A currency is kept iff code, name or country contains the folded term (a missing country never matches), with its multiplicity |
| CurrencyList.FilterIsSubsequence | src/app/features/currencies/currency-list/currency-list.component.ts:56-61 | The kept currencies are in their original order |
| CurrencyList.Search | src/app/features/currencies/currency-list/currency-list.component.ts:54-62 | An empty term keeps every currency |
| CurrencyList.FieldText | src/app/features/currencies/currency-list/currency-list.component.ts:68-70 | The text of the five table columns; any other column name, and a missing country, read as empty text |
| CurrencyList.Compare | src/app/features/currencies/currency-list/currency-list.component.ts:67-71 | Ties are exactly the collation's ties in either direction; descending negates the collation |
| CurrencyList.SortCurrencies | src/app/features/currencies/currency-list/currency-list.component.ts:65-72 | The sorted list is a permutation of its input |
| CurrencyList.SortIsStable | src/app/features/currencies/currency-list/currency-list.component.ts:65-72 | With a consistent collation, the currencies that compare equal to any given one come out in their input order |
| CurrencyList.SortIsSorted | src/app/features/currencies/currency-list/currency-list.component.ts:65-72 | With a consistent collation, the result is ordered by the comparator, ascending or (negated) descending |
| CurrencyList.InsertSorted | src/app/features/currencies/currency-list/currency-list.component.ts:67-71 | Inserting into an ordered list keeps it ordered |
| CurrencyList.FilteredCurrencies | src/app/features/currencies/currency-list/currency-list.component.ts:50-75 | The displayed list is a permutation of the search result: exactly the matching currencies, or all when the term is empty |
| CurrencyList.FilteredAsWritten | src/app/features/currencies/currency-list/currency-list.component.ts:50-75 | The cached list is reused whenever the currencies and sort are unchanged, even when the search term has changed |
| CurrencyList.FilteredTracked | src/app/features/currencies/currency-list/currency-list.component.ts:50-75 | With the search term tracked, a sound cache always shows the current search result |
| CurrencyList.SearchIgnoredAsWritten | src/app/features/currencies/currency-list/currency-list.component.ts:50-92 | After `onSearch("EUR")`, the cached view still shows a currency that does not match; the tracked view does not |
| CurrencyList.Page | src/app/features/currencies/currency-list/currency-list.component.ts:77-81 | The page is the slice starting at `pageIndex*pageSize`, at most `pageSize` long, and empty past the end |
| CurrencyList.PagesCoverPrefix | src/app/features/currencies/currency-list/currency-list.component.ts:77-81 | The first k pages together are exactly the first `k*pageSize` entries: nothing lost, nothing repeated |
| CurrencyList.OnSearch | src/app/features/currencies/currency-list/currency-list.component.ts:89-92 | The term changes and the page resets to 0 |
| CurrencyList.SortChange | src/app/features/currencies/currency-list/currency-list.component.ts:94-97 | An empty column becomes 'code' and an empty direction 'asc' |
| CurrencyList.OnPageChange | src/app/features/currencies/currency-list/currency-list.component.ts:99-102 | Only page index and page size change |
| Converter.OnInit | src/app/features/convert/converter/converter.component.ts:65-82 | The form starts at USD, EUR and 100, with non-empty `from`/`to` query parameters applied; currencies are loaded iff none are held |
| Converter.OnConvert | src/app/features/convert/converter/converter.component.ts:84-88 | A request is sent iff the form is valid, and it carries the form's pair and an amount of at least 0.01 |
| Converter.LastResult | src/app/features/convert/converter/converter.component.ts:90-95 | The newest recent conversion, or the previous result while there is none |
| Converter.ConvertShowsResponse | src/app/features/convert/converter/converter.component.ts:87-95 | When the response arrives before the 500 ms read-back, the page shows that conversion after a successful call |
| Converter.ShownAfterConvert | src/app/features/convert/converter/converter.component.ts:84-97 | Covers both orders of response and read-back. If the response arrives first and succeeds, the page shows it. If the read-back comes first or the call fails, the page shows what the store held before the call, or the previous result |
| Converter.LateResponseNotShown | src/app/features/convert/converter/converter.component.ts:90-95 | With nothing converted before, a success that lands after the read-back leaves the result panel empty |
| Converter.SwapCurrencies | src/app/features/convert/converter/converter.component.ts:99-106 | Origin and target trade places; the amount stays |
| Converter.SwapTwice | src/app/features/convert/converter/converter.component.ts:99-106 | Swapping twice restores the form, and swapping preserves validity |
| Converter.IsFavorite | src/app/features/convert/converter/converter.component.ts:58-63 | One fresh evaluation of the star: false whenever either currency is empty; otherwise whether the exact pair is a favourite |
| Converter.EvaluateStar | src/app/features/convert/converter/converter.component.ts:58-63 | One run of the computed's body: its answer is the fresh star; it tracks the favourites list exactly when both currencies are set, and tracks nothing after the early return |
| Converter.StarAsWritten | src/app/features/convert/converter/converter.component.ts:58-63 | The star as the page caches it: reused while the tracked favourites list is unchanged, whatever the form shows, and re-evaluated from the current form once that list changes. A star whose last run returned early tracked nothing and is reused for ever |
| Converter.FormEditsKeepStarAsWritten | src/app/features/convert/converter/converter.component.ts:99-168 | With the favourites list unchanged, or with a star that tracked nothing, picking a favourite, swapping or repeating a conversion leaves the cached star as it was |
| Converter.SelectFavoriteStarStaysOff | src/app/features/convert/converter/converter.component.ts:58-63 | With GBP to JPY saved and the form at USD to EUR, picking the saved pair leaves the cached star off although the pair is a favourite |
| Converter.EmptyFieldStarDiesAsWritten | src/app/features/convert/converter/converter.component.ts:58-63 | A star first read with the form at empty to EUR and no favourites stays off after picking GBP to JPY and saving it, although the pair on the form is then a favourite |
| Converter.ToggleFavoriteFlipsStar | src/app/features/convert/converter/converter.component.ts:108-112 | With both currencies set, a fresh evaluation after the toggle is the opposite of a fresh evaluation before. The toggle always changes the list, so a cached star that tracked the list shows that opposite too, even when the star shown before was stale; a cached star that tracked nothing is unchanged |
| Converter.ToggleBatchCurrency | src/app/features/convert/converter/converter.component.ts:124-131 | Membership of the code flips, others are unaffected, order is kept, and a duplicate-free selection stays duplicate-free |
| Converter.ToggleBatchTwice | src/app/features/convert/converter/converter.component.ts:124-131 | Toggling twice restores membership, and the exact selection for an unselected code |
| Converter.RequestsFor | src/app/features/convert/converter/converter.component.ts:139-143 | One request per selected code, in selection order |
| Converter.BatchRequests | src/app/features/convert/converter/converter.component.ts:133-145 | Requests are sent iff the amount is truthy, the origin is non-empty and something is selected; then one per selected code, in order, with the same origin and amount |
| Converter.BatchSkipsValidation | src/app/features/convert/converter/converter.component.ts:133-143 | A batch goes out for a form that `onConvert` would reject |
| Converter.BatchResults | src/app/features/convert/converter/converter.component.ts:148-151 | The results shown are a prefix of the recent list, no longer than the selection |
| Converter.BatchResultsShowResponse | src/app/features/convert/converter/converter.component.ts:145-151 | When the batch settles before the 500 ms read-back, every selected conversion succeeds and at most ten were selected, the page shows exactly the batch's results |
| Converter.ShownAfterBatch | src/app/features/convert/converter/converter.component.ts:145-151 | The batch results are read from the store after the batch when it settles first, and from the store before it otherwise |
| Converter.LateBatchNotShown | src/app/features/convert/converter/converter.component.ts:148-151 | With nothing converted before, a batch settling after the read-back leaves the results panel empty |
| Converter.RepeatConversion | src/app/features/convert/converter/converter.component.ts:155-161 | The form takes the earlier conversion's pair and original amount |
| Converter.RepeatReissuesRequest | src/app/features/convert/converter/converter.component.ts:155-161 | Repeating a conversion that passed validation issues the same request again |
| Converter.SelectFavorite | src/app/features/convert/converter/converter.component.ts:163-168 | The form takes the pair and keeps its amount |
| Converter.SelectFavoriteIsFavorite | src/app/features/convert/converter/converter.component.ts:163-168 | After picking a stored favourite with both currencies set, a fresh evaluation of the star is on. This is the intended behaviour; the cached star as written does not follow (see Findings) |
| Storage.Write | src/app/store/conversion.store.ts:64-66 | The value written is read back; other keys are untouched |
| Storage.Remove | src/app/core/auth/services/auth.service.ts:187-189 | The key reads as absent afterwards; other keys are untouched |
| Seqs.Without | src/app/store/conversion.store.ts:189-191 | Filtering out a value removes every copy of it and keeps all other elements with their counts |
| Seqs.WithoutIsSubsequence | src/app/store/currency.store.ts:125 | Filtering out a value keeps the other elements in order |
| Seqs.Slice | src/app/features/currencies/currency-list/currency-list.component.ts:80 | `slice` with in-range bounds is the ordinary sub-sequence, never longer than the bounds allow |
| Seqs.Take | src/app/store/conversion.store.ts:79-81 | `slice(0, n)` is the first `min(n, length)` elements |

## Findings

| source | as written | input that shows it | evidently intended | confidence | as-written member | corrected member |
|---|---|---|---|---|---|---|
| src/app/features/currencies/currency-list/currency-list.component.ts:44, 50-62, 89-92 | `filteredCurrencies` is a `computed` signal that reads `this.searchTerm`, but `searchTerm` is a plain field, not a signal. `onSearch` changes it and sets only `pageIndex`, which the computed does not read. So the cached list is served again unfiltered until the currency list or the sort changes. | Show the list [USD, EUR] with an empty term, then call `onSearch("EUR")`: USD stays on screen | Each search shows only the matching currencies | medium (not executed; the page's template is not part of this model) | CurrencyList.FilteredAsWritten, CurrencyList.SearchIgnoredAsWritten | CurrencyList.FilteredTracked, CurrencyList.FilteredCurrencies |
| src/app/features/convert/converter/converter.component.ts:58-63 | `isFavorite` is a `computed` signal that reads the form's `fromCurrency` and `toCurrency` values, which are not signals; the only signal it can track is the store's favourites, and it reads that only when both currencies are set. `selectFavorite`, `swapCurrencies` and `repeatConversion` change the form only, so the star keeps its cached answer until the favourites list changes. If it last ran with a currency empty, it returned before reading any signal and never runs again. | Favourites [GBP to JPY], form at USD to EUR (star off); call `selectFavorite("GBP", "JPY")`: the star stays off. Or: first read with the form at empty to EUR, then pick and save GBP to JPY: the star stays off | The star reflects the pair on the form | medium (not executed; the page's template is not part of this model) | Converter.StarAsWritten, Converter.SelectFavoriteStarStaysOff, Converter.EmptyFieldStarDiesAsWritten | Converter.IsFavorite, Converter.SelectFavoriteIsFavorite |
| src/app/store/currency.store.ts:44-49 | `isStale` is a `computed` signal whose only tracked input is `lastUpdated`; `Date.now()` is not a signal. The answer is cached until `lastUpdated` changes, and a failed poll does not change it. | Load rates at t0, read `isStale` at t0 + 1 s (false); every later poll fails; at t0 + 2 h it still reads false | Rates older than an hour read as stale | medium (not executed) | CurrencyStore.StaleAsWritten, CurrencyStore.StaleStuckAsWritten | CurrencyStore.IsStale, CurrencyStore.FreshForAnHour |
| src/app/features/auth/register/register.component.ts:75-78 | `passwordStrength` is a `computed` signal whose body reads the password control's value, which is not a signal. Having no tracked input, it is evaluated once and never again, and the label, colour and class derived from it freeze with it. | Read the meter once with an empty field (Weak), then type `Abcdef1!`: the meter still says Weak | The meter follows the password as typed | medium (not executed; the page's template is not part of this model) | Register.StrengthAsWritten, Register.MeterFrozenAsWritten | Register.PasswordStrength, Register.StrengthLabel |
| src/app/features/auth/register/register.component.ts:22-31 | `passwordMatchValidator` marks the confirmation control with `setErrors({ passwordMismatch: true })` and never clears it. That control's own validators, which would replace the mark, re-run only when the confirmation itself changes. So a mismatch set while the password was wrong outlives correcting the password, and `registerForm.valid` stays false. | Password `Abc`, confirmation `Abd`, then password `Abd`: the group validator passes but the confirmation stays invalid, and `onSubmit` does nothing until the confirmation is retyped | The form is valid once the two passwords agree | medium (not executed; the control-status rules are Angular's, and Angular is not part of this model) | Register.ConfirmErrorsAsWritten, Register.StuckMismatchAsWritten | Register.ConfirmErrorsFresh, Register.FreshValidIff |
| src/app/features/convert/converter/converter.component.ts:90-95 | `onConvert` reads the newest recent conversion after a fixed 500 ms instead of when the call settles. A slower response never reaches `lastResult`; `batchConvert` (148-151) reads its results the same way. | No earlier conversions; a conversion whose response takes longer than 500 ms: the result panel stays empty | The result shown is the response of the call just made | medium (not executed) | Converter.ShownAfterConvert, Converter.LateResponseNotShown | Converter.ConvertShowsResponse |

## Left out

- JSON: parsing and stringifying are not modelled. A stored entry is either a parsed value of the expected shape or unparseable text. Text that parses to a value of another shape is not distinguished.
- `localStorage` and `sessionStorage` throwing on access: not modelled. The stores' `try/catch` fallbacks coincide with the "unparseable" case, except that `loadTheme` falls back to light without consulting the system preference.
- `jwtDecode`, `toLowerCase` and `localeCompare` are foreign library calls. They are the `Decoder`, `fold` and `collate` parameters, and the token's signature is never checked.
- `decodeToken` in the authentication service is not used by the modelled logic; it is not modelled.
- `Number.toString`, `Date.toISOString` and the rendering of numbers in text: query values keep the number or instant instead of its text (`Value`). `copyResult`'s clipboard text is not modelled.
- `NaN` amounts and rates, and a JWT without an `exp` claim, are not modelled.
- Timers and rxjs are not modelled as time: `switchMap` cancellation of an earlier call (modelled only where it reaches the interceptor, as the events `RefreshCancelled` and `ResendCancelled`), the 60-second `interval` of the rate poll, and the `setTimeout` auto-dismissal. Each callback's state patch is modelled. Transitions are applied in completion order. The dismissal delay is returned as `dismissAfter`. For the converter page's 500 ms read-back, only which of the response and the read-back comes first is modelled, as `responseFirst`.
- Cached views compare their tracked inputs by value. Angular compares signal values by identity, so a store write of an equal but new list also makes the program recompute, where the model reuses the cached answer.
- ConvertShowsResponse: holds only when the response arrives before the 500 ms read-back. The other order is `Converter.ShownAfterConvert`, which shows the older state (see Findings).
- BatchResultsShowResponse: holds only when the batch settles before the 500 ms read-back. The other order is `Converter.ShownAfterBatch`.
- ToggleFavoriteFlipsStar: the flip is stated against a fresh evaluation of the star before the toggle. The star the page showed before may be a stale cached answer (see Findings); the star after the toggle is freshly computed only if the star before it tracked the favourites list. A star last computed with a currency empty stays as it was.
- FreshForAnHour: judges staleness by a fresh evaluation. The page's cached `isStale` can keep saying fresh past the hour while polls fail (`CurrencyStore.StaleAsWritten`, see Findings).
- SelectFavoriteIsFavorite: states the intended star, a fresh evaluation. As written the cached star does not follow the form (`Converter.SelectFavoriteStarStaysOff`).
- AuthStore: the store's HTTP calls are modelled without the interceptor around them. A 401 on any of them, `/refresh-token` included, also clears session storage and navigates to login through `AuthInterceptor.OnSendFailed`. The store transitions do not include that.
- CurrencyStore.LoadRates: the source fixes the base when the call is made; the model reads it from the state passed in, so the state must be the one current at the call.
- CurrencyStore.GetRateForCurrency: the rate object is a map of its own keys only. In JavaScript an inherited key such as `constructor` is not null.
- `applyTheme` (document classes) and `window.matchMedia` are DOM access. The system preference is the `prefersDark` parameter.
- Notification ids built from `Date.now()` and `Math.random()` are nondeterministic. They are inputs.
- CurrencyStore.RatesArray: the order of `Object.entries` is not modelled, so the rows form a set. Inherited keys of the rate object are not modelled either.
- CurrencyList.FieldText: only the five table columns are looked up. Any other column name reads as missing, although `Object.prototype` members such as `constructor` would render as text in JavaScript.
- CurrencyList.SortCurrencies: modelled as a stable insertion sort; stability is `CurrencyList.SortIsStable`. With an inconsistent `localeCompare` the engine's order is unspecified, so only the permutation is claimed unconditionally.
- Register: the validators of the username, email and password controls are summed up by one `othersValid` flag. Only the confirmation control's errors are modelled, and only the `required` and mismatch errors of that control.
- String lengths and `includes` work on Dafny characters, not UTF-16 code units.
- ConversionStore: `historyPageInfo` is modelled only through `TotalPages`. The reactive `loadHistory` argument plumbing is not modelled.
- The logging interceptor is console output and random correlation ids, and is not part of this model.
- AuthInterceptor: the refresh call the interceptor issues goes through the interceptor chain again. The model treats it as a direct call.
- Routing, application configuration and the remaining UI components hold no state logic of this core. The admin pages, history, login, dashboard and rate pages are not part of this model.

=== FILE: admin_guard.dfy ===
/** The route guards: `adminGuard` and `roleGuard(roles)` decide from the
    session whether a navigation may proceed, and where to send the user
    otherwise. */
module Guards {
  import opened Wrappers
  import opened Models
  import opened Http
  import AuthService

  /** The guard's return value together with the redirect it issues. */
  datatype Decision = Decision(allow: bool, redirect: Option<Nav>)

  /** The redirect for a visitor who is not signed in. */
  function LoginRedirect(url: string): Nav {
    Nav(LoginPath, [("returnUrl", url)])
  }

  const Unauthorized := Nav("/dashboard", [("error", "unauthorized")])

  /** `adminGuard`: sign-in first, then the "Admin" role. */
  function AdminGuard(session: AuthService.SessionStorage, now: int, decode: AuthService.Decoder, url: string)
    : (r: Decision)
    ensures !AuthService.IsAuthenticated(session, now, decode) ==> r == Decision(false, Some(LoginRedirect(url)))
    ensures r.allow <==> AuthService.IsAuthenticated(session, now, decode) && AuthService.IsAdmin(session)
    ensures r.allow ==> r.redirect.None?
    ensures AuthService.IsAuthenticated(session, now, decode) && !r.allow ==> r.redirect == Some(Unauthorized)
  {
    if !AuthService.IsAuthenticated(session, now, decode) then Decision(false, Some(LoginRedirect(url)))
    else if AuthService.IsAdmin(session) then Decision(true, None)
    else Decision(false, Some(Unauthorized))
  }

  /** `roleGuard(allowedRoles)`: sign-in first, then a stored user whose role
      is one of `allowedRoles`. */
  function RoleGuard(allowedRoles: seq<string>, session: AuthService.SessionStorage, now: int,
                     decode: AuthService.Decoder, url: string): (r: Decision)
    ensures !AuthService.IsAuthenticated(session, now, decode) ==> r == Decision(false, Some(LoginRedirect(url)))
    ensures r.allow <==> AuthService.IsAuthenticated(session, now, decode) &&
                         AuthService.GetStoredUser(session).Some? &&
                         AuthService.GetStoredUser(session).value.role in allowedRoles
    ensures r.allow ==> r.redirect.None?
    ensures AuthService.IsAuthenticated(session, now, decode) && !r.allow ==> r.redirect == Some(Unauthorized)
  {
    if !AuthService.IsAuthenticated(session, now, decode) then Decision(false, Some(LoginRedirect(url)))
    else match AuthService.GetStoredUser(session)
      case Some(user) =>
        if user.role in allowedRoles then Decision(true, None) else Decision(false, Some(Unauthorized))
      case None => Decision(false, Some(Unauthorized))
  }

  /** `adminGuard` is `roleGuard(['Admin'])`. */
  lemma AdminGuardIsRoleGuard(session: AuthService.SessionStorage, now: int, decode: AuthService.Decoder, url: string)
    ensures AdminGuard(session, now, decode, url) == RoleGuard(["Admin"], session, now, decode, url)
  {
  }

  /** Widening the allowed roles never turns an admitted user away. */
  lemma RoleGuardMonotone(small: seq<string>, large: seq<string>, session: AuthService.SessionStorage, now: int,
                          decode: AuthService.Decoder, url: string)
    requires forall role :: role in small ==> role in large
    ensures RoleGuard(small, session, now, decode, url).allow ==> RoleGuard(large, session, now, decode, url).allow
  {
  }

  /** With no allowed roles, `roleGuard` admits nobody. */
  lemma RoleGuardEmptyDeniesAll(session: AuthService.SessionStorage, now: int, decode: AuthService.Decoder, url: string)
    ensures !RoleGuard([], session, now, decode, url).allow
  {
  }
}

=== FILE: admin_service.dfy ===
/** The admin endpoints' query parameters. An absent `params` or `filters`
    argument is the record with every field `None`. */
module AdminService {
  import opened Wrappers
  import opened Models
  import opened Http

  const LogsKeys: set<string> := {"pageNumber", "pageSize", "level", "startDate", "endDate", "endpoint", "search"}

  /** `getLogs(params, filters)`: every field only when truthy (a `Date` is
      always truthy). */
  function LogsParams(p: PaginationParams, f: LogFilter): (r: Params)
    ensures Lookup(r, "pageNumber") == TruthyNumberParam(p.pageNumber)
    ensures Lookup(r, "pageSize") == TruthyNumberParam(p.pageSize)
    ensures Lookup(r, "level") == TruthyTextParam(f.level)
    ensures Lookup(r, "startDate") == DateParam(f.startDate)
    ensures Lookup(r, "endDate") == DateParam(f.endDate)
    ensures Lookup(r, "endpoint") == TruthyTextParam(f.endpoint)
    ensures Lookup(r, "search") == TruthyTextParam(f.search)
    ensures forall k :: k !in LogsKeys ==> Lookup(r, k) == None
  {
    var ps := PagingParams(p);
    var ps := SetIf(ps, TruthyText(f.level), "level", Text(f.level.GetOr("")));
    var ps := SetIf(ps, f.startDate.Some?, "startDate", Instant(f.startDate.GetOr(0)));
    var ps := SetIf(ps, f.endDate.Some?, "endDate", Instant(f.endDate.GetOr(0)));
    var ps := SetIf(ps, TruthyText(f.endpoint), "endpoint", Text(f.endpoint.GetOr("")));
    forall k | k !in LogsKeys
      ensures Lookup(ps, k) == None
    {
      assert k != "pageNumber" && k != "pageSize" && k != "level";
      assert k != "startDate" && k != "endDate" && k != "endpoint";
    }
    // the only two keys of equal length
    assert "pageSize"[0] != "endpoint"[0];
    SetIf(ps, TruthyText(f.search), "search", Text(f.search.GetOr("")))
  }

  /** `exportLogs(filters)`: level and dates only. */
  function ExportLogsParams(f: LogFilter): (r: Params)
    ensures Lookup(r, "level") == TruthyTextParam(f.level)
    ensures Lookup(r, "startDate") == DateParam(f.startDate)
    ensures Lookup(r, "endDate") == DateParam(f.endDate)
    ensures forall k :: k !in {"level", "startDate", "endDate"} ==> Lookup(r, k) == None
  {
    var ps := SetIf([], TruthyText(f.level), "level", Text(f.level.GetOr("")));
    var ps := SetIf(ps, f.startDate.Some?, "startDate", Instant(f.startDate.GetOr(0)));
    SetIf(ps, f.endDate.Some?, "endDate", Instant(f.endDate.GetOr(0)))
  }

  /** The export agrees with the log query on level and dates, and never
      sends the endpoint or search filters, whatever they hold. */
  lemma ExportLogsIsRestriction(p: PaginationParams, f: LogFilter, k: string)
    ensures Lookup(ExportLogsParams(f), k) ==
            if k in {"level", "startDate", "endDate"} then Lookup(LogsParams(p, f), k) else None
    ensures Lookup(ExportLogsParams(f), "endpoint") == None && Lookup(ExportLogsParams(f), "search") == None
  {
  }
}

=== FILE: auth_interceptor.dfy ===
/** The request interceptor, as a state machine over its module-level
    `isRefreshing` flag and session storage. Each outgoing request is either
    forwarded untouched (login and register), held behind a token refresh,
    or sent with whatever access token is stored. */
module AuthInterceptor {
  import opened Wrappers
  import opened Text
  import opened Models
  import opened Storage
  import opened Http
  import opened AuthService

  /** The flag, shared by every request, and the storage it consults. */
  datatype Pipeline = Pipeline(isRefreshing: bool, session: SessionStorage)

  /** What the interceptor does with a request. */
  datatype Dispatch =
    | Forward(req: HttpRequest)
      // `next(req)` untouched: no header, no refresh, no error handling
    | RefreshThenSend(refreshToken: string, req: HttpRequest)
      // a refresh call is issued; the request is sent once it settles
    | Send(req: HttpRequest)
      // `next(req)`, with a 401 clearing the session

  /** What a settled refresh path does next. */
  datatype Continuation =
    | Resend(req: HttpRequest)
    | Abort(error: Failure, nav: Nav)

  /** A rejected request on the normal path: the error goes to the caller
      unchanged, possibly after a navigation. */
  datatype Rejection = Rejection(error: Failure, nav: Option<Nav>)

  predicate IsAuthEndpoint(url: string) {
    Contains(url, "/auth/login") || Contains(url, "/auth/register")
  }

  /** `addAuthHeader`: sets `Authorization: Bearer <token>` when a truthy
      token is stored, and otherwise leaves the request as it is. */
  function AddAuthHeader(req: HttpRequest, session: SessionStorage): (r: HttpRequest)
    ensures !TruthyText(GetAccessToken(session)) ==> r == req
    ensures TruthyText(GetAccessToken(session)) ==>
              r.url == req.url &&
              r.headers == req.headers["Authorization" := "Bearer " + GetAccessToken(session).value]
  {
    match GetAccessToken(session)
    case Some(token) =>
      if Truthy(token) then req.(headers := req.headers["Authorization" := "Bearer " + token]) else req
    case None => req
  }

  /** `authInterceptor` up to the point where it hands the request on. */
  function Intercept(p: Pipeline, req: HttpRequest, now: int, decode: Decoder): (r: (Pipeline, Dispatch))
    ensures r.0.session == p.session
    ensures IsAuthEndpoint(req.url) ==> r == (p, Forward(req))
    // a refresh starts exactly when one is due, none is flagged, and a refresh token is stored
    ensures r.1.RefreshThenSend? <==>
              !IsAuthEndpoint(req.url) && !p.isRefreshing &&
              ShouldRefreshToken(p.session, now, decode) && TruthyText(GetRefreshToken(p.session))
    ensures r.1.RefreshThenSend? ==>
              r.0.isRefreshing && Some(r.1.refreshToken) == GetRefreshToken(p.session) && r.1.req == req
    // no request ever lowers the flag
    ensures p.isRefreshing ==> r.0.isRefreshing
    ensures r.1.Send? ==> r.1.req == AddAuthHeader(req, p.session)
    // a refresh that is due without a refresh token raises the flag and sends anyway
    ensures !IsAuthEndpoint(req.url) && !p.isRefreshing && ShouldRefreshToken(p.session, now, decode) &&
            !TruthyText(GetRefreshToken(p.session)) ==>
              r.0.isRefreshing && r.1 == Send(AddAuthHeader(req, p.session))
    ensures !(ShouldRefreshToken(p.session, now, decode) && !p.isRefreshing) ==> r.0 == p
  {
    if IsAuthEndpoint(req.url) then (p, Forward(req))
    else
      var p' := if ShouldRefreshToken(p.session, now, decode) && !p.isRefreshing
                then p.(isRefreshing := true) else p;
      if ShouldRefreshToken(p.session, now, decode) && !p.isRefreshing && TruthyText(GetRefreshToken(p.session))
      then (p', RefreshThenSend(GetRefreshToken(p.session).value, req))
      else (p', Send(AddAuthHeader(req, p.session)))
  }

  /** The refresh call issued by `RefreshThenSend` settles. On success the new
      session is stored, the flag dropped and the request re-sent with the new
      token; on any failure the flag is dropped, the session cleared and the
      user sent to the login page, and the error rethrown. */
  function OnRefreshSettled(p: Pipeline, outcome: Result<ApiResponse<LoginResponse>, Failure>,
                            req: HttpRequest, now: int): (r: (Pipeline, Continuation))
    ensures !r.0.isRefreshing
    ensures r.1.Resend? <==> RefreshToken(p.session, outcome, now).result.Success?
    ensures r.1.Resend? ==>
              var response := RefreshToken(p.session, outcome, now).result.value;
              && r.0.session == StoreAuthData(p.session, response, now)
              && (Truthy(response.accessToken) ==>
                    r.1.req.headers == req.headers["Authorization" := "Bearer " + response.accessToken])
    ensures r.1.Abort? ==>
              && r.0.session == ClearAuthData(p.session)
              && r.1.nav == Nav(LoginPath, [])
              && r.1.error == ErrorObject(RefreshToken(p.session, outcome, now).result.error.message)
  {
    var reply := RefreshToken(p.session, outcome, now);
    match reply.result
    case Success(_) => (Pipeline(false, reply.session), Resend(AddAuthHeader(req, reply.session)))
    case Failure(e) => (Pipeline(false, ClearAuthData(p.session)), Abort(ErrorObject(e.message), Nav(LoginPath, [])))
  }

  /** The request re-sent after a refresh fails, whatever its status: the same
      handler drops the flag, clears the session and navigates. */
  function OnResendFailed(p: Pipeline, f: Failure): (r: (Pipeline, Continuation))
    ensures !r.0.isRefreshing
    ensures r.0.session == ClearAuthData(p.session)
    ensures r.1 == Abort(f, Nav(LoginPath, []))
  {
    (Pipeline(false, ClearAuthData(p.session)), Abort(f, Nav(LoginPath, [])))
  }

  /** A request sent on the normal path fails: only a 401 clears the session
      and navigates; the flag is untouched and the error is rethrown as is. */
  function OnSendFailed(p: Pipeline, f: Failure): (r: (Pipeline, Rejection))
    ensures r.0.isRefreshing == p.isRefreshing
    ensures r.1.error == f
    ensures r.1.nav.Some? <==> f.HttpErrorResponse? && f.status == 401
    ensures r.1.nav.Some? ==> r.1.nav.value == Nav(LoginPath, []) && r.0.session == ClearAuthData(p.session)
    ensures r.1.nav.None? ==> r.0 == p
  {
    if f.HttpErrorResponse? && f.status == 401 then
      (p.(session := ClearAuthData(p.session)), Rejection(f, Some(Nav(LoginPath, []))))
    else
      (p, Rejection(f, None))
  }

  // ---- traces ----

  /** The pipeline together with how many refresh calls and re-sent requests
      are outstanding. The two counters are bookkeeping of this model only;
      the interceptor keeps nothing but the flag. */
  datatype Machine = Machine(pipe: Pipeline, refreshCalls: nat, resends: nat)

  /** Things that can happen to the pipeline, in completion order. */
  datatype Event =
    | Request(req: HttpRequest, now: int)
    | RefreshSettles(outcome: Result<ApiResponse<LoginResponse>, Failure>, req: HttpRequest, now: int)
    | ResendSucceeds
    | ResendFails(failure: Failure)
    | SendFails(failure: Failure)
    | SessionWritten(session: SessionStorage)
      // any other writer of session storage: login, logout, another store
    | RefreshCancelled
      // the subscriber unsubscribes while a refresh call is out (a newer
      // request in a store's `switchMap`): neither settle handler runs
    | ResendCancelled
      // the subscriber unsubscribes from a re-sent request: its error
      // handler never runs

  /** One step: the next machine, whether the step issued a refresh call and
      whether it ran one of the handlers that drop the flag. Settlement events
      with nothing outstanding change nothing. */
  datatype StepResult = StepResult(next: Machine, started: bool, reset: bool)

  function Step(m: Machine, e: Event, decode: Decoder): (r: StepResult)
    ensures r.started ==> !m.pipe.isRefreshing && r.next.pipe.isRefreshing && !r.reset
    ensures r.reset ==> !r.next.pipe.isRefreshing && !r.started
    ensures !r.reset && m.pipe.isRefreshing ==> r.next.pipe.isRefreshing
    ensures r.started ==> r.next.refreshCalls == m.refreshCalls + 1
    // an unsubscription runs no handler: the flag and the session stay as they are
    ensures (e.RefreshCancelled? || e.ResendCancelled?) ==> r.next.pipe == m.pipe && !r.started && !r.reset
    ensures e.RefreshCancelled? && m.refreshCalls > 0 ==> r.next.refreshCalls == m.refreshCalls - 1
  {
    match e
    case Request(req, now) =>
      var (p, d) := Intercept(m.pipe, req, now, decode);
      if d.RefreshThenSend? then StepResult(Machine(p, m.refreshCalls + 1, m.resends), true, false)
      else StepResult(m.(pipe := p), false, false)
    case RefreshSettles(outcome, req, now) =>
      if m.refreshCalls == 0 then StepResult(m, false, false)
      else
        var (p, c) := OnRefreshSettled(m.pipe, outcome, req, now);
        var resends := if c.Resend? then m.resends + 1 else m.resends;
        StepResult(Machine(p, m.refreshCalls - 1, resends), false, true)
    case ResendSucceeds =>
      if m.resends == 0 then StepResult(m, false, false)
      else StepResult(m.(resends := m.resends - 1), false, false)
    case ResendFails(f) =>
      if m.resends == 0 then StepResult(m, false, false)
      else
        var (p, _) := OnResendFailed(m.pipe, f);
        StepResult(Machine(p, m.refreshCalls, m.resends - 1), false, true)
    case SendFails(f) =>
      StepResult(m.(pipe := OnSendFailed(m.pipe, f).0), false, false)
    case SessionWritten(s) =>
      StepResult(m.(pipe := m.pipe.(session := s)), false, false)
    case RefreshCancelled =>
      if m.refreshCalls == 0 then StepResult(m, false, false)
      else StepResult(m.(refreshCalls := m.refreshCalls - 1), false, false)
    case ResendCancelled =>
      if m.resends == 0 then StepResult(m, false, false)
      else StepResult(m.(resends := m.resends - 1), false, false)
  }

  /** A run: the final machine, how many refresh calls were issued and how
      many flag-dropping handlers ran. */
  datatype RunResult = RunResult(final: Machine, starts: nat, resets: nat)

  function Run(m: Machine, events: seq<Event>, decode: Decoder): RunResult
    decreases |events|
  {
    if events == [] then RunResult(m, 0, 0)
    else
      var s := Step(m, events[0], decode);
      var rest := Run(s.next, events[1..], decode);
      RunResult(rest.final, rest.starts + (if s.started then 1 else 0), rest.resets + (if s.reset then 1 else 0))
  }

  function Indicator(b: bool): nat {
    if b then 1 else 0
  }

  /** Between two refresh calls some handler has dropped the flag: over any
      run, the refresh calls issued number at most the flag drops, plus one
      if the flag started lowered. */
  lemma {:induction false} RefreshCallsBoundedByFlagDrops(m: Machine, events: seq<Event>, decode: Decoder)
    ensures var r := Run(m, events, decode);
            r.starts + Indicator(!r.final.pipe.isRefreshing) <= r.resets + Indicator(!m.pipe.isRefreshing)
    decreases |events|
  {
    if events != [] {
      RefreshCallsBoundedByFlagDrops(Step(m, events[0], decode).next, events[1..], decode);
    }
  }

  /** Hence no second refresh is issued while the flag is up: from a raised
      flag, a run that runs no flag-dropping handler issues no refresh call. */
  lemma NoRefreshWhileFlagged(m: Machine, events: seq<Event>, decode: Decoder)
    requires m.pipe.isRefreshing
    requires Run(m, events, decode).resets == 0
    ensures Run(m, events, decode).starts == 0
  {
    RefreshCallsBoundedByFlagDrops(m, events, decode);
  }

  /** The stuck flag: once raised with no refresh call and no re-sent request
      outstanding, nothing lowers it again and no refresh is ever issued,
      whatever requests, failures and session writes follow. */
  lemma {:induction false} StuckFlagStaysStuck(m: Machine, events: seq<Event>, decode: Decoder)
    requires m.pipe.isRefreshing && m.refreshCalls == 0 && m.resends == 0
    ensures var r := Run(m, events, decode);
            && r.starts == 0 && r.resets == 0
            && r.final.pipe.isRefreshing && r.final.refreshCalls == 0 && r.final.resends == 0
    decreases |events|
  {
    if events != [] {
      var s := Step(m, events[0], decode);
      assert !s.started && !s.reset;
      assert s.next.pipe.isRefreshing && s.next.refreshCalls == 0 && s.next.resends == 0;
      StuckFlagStaysStuck(s.next, events[1..], decode);
    }
  }

  /** The flag gets stuck this way: a refresh is due, none is flagged, and no
      refresh token is stored. */
  lemma StuckFlagArises(m: Machine, req: HttpRequest, now: int, decode: Decoder)
    requires m.refreshCalls == 0 && m.resends == 0 && !m.pipe.isRefreshing
    requires !IsAuthEndpoint(req.url)
    requires ShouldRefreshToken(m.pipe.session, now, decode)
    requires !TruthyText(GetRefreshToken(m.pipe.session))
    ensures var s := Step(m, Request(req, now), decode);
            && s.next.pipe.isRefreshing && s.next.refreshCalls == 0 && s.next.resends == 0
            && !s.started
  {
  }

  /** The flag also gets stuck when the only refresh call out is cancelled:
      a refresh starts, the caller unsubscribes before it settles, and from
      then on no refresh is ever issued, whatever follows. */
  lemma CancelledRefreshSticksTheFlag(m: Machine, req: HttpRequest, now: int, decode: Decoder, later: seq<Event>)
    requires m.refreshCalls == 0 && m.resends == 0 && !m.pipe.isRefreshing
    requires !IsAuthEndpoint(req.url)
    requires ShouldRefreshToken(m.pipe.session, now, decode)
    requires TruthyText(GetRefreshToken(m.pipe.session))
    ensures var first := Step(m, Request(req, now), decode);
            var cancelled := Step(first.next, RefreshCancelled, decode).next;
            && first.started
            && cancelled.pipe.isRefreshing && cancelled.refreshCalls == 0 && cancelled.resends == 0
            && Run(cancelled, later, decode).starts == 0
            && Run(cancelled, later, decode).final.pipe.isRefreshing
  {
    var first := Step(m, Request(req, now), decode);
    var cancelled := Step(first.next, RefreshCancelled, decode).next;
    StuckFlagStaysStuck(cancelled, later, decode);
  }

  /** Every handler that ends a refresh path drops the flag. */
  lemma RefreshPathsDropTheFlag(m: Machine, e: Event, decode: Decoder)
    requires (e.RefreshSettles? && m.refreshCalls > 0) || (e.ResendFails? && m.resends > 0)
    ensures !Step(m, e, decode).next.pipe.isRefreshing
    ensures Step(m, e, decode).reset
  {
  }

  // ---- a run in which two refresh calls overlap ----

  const DemoDecode: Decoder := (t: string) => Some(0)
  const DemoUser := User("1", "alice", "alice@example.com", "User", true)
  const DemoSession: SessionStorage := map[AuthStorageKey := Parsed(AuthData("a", "r", DemoUser, 0))]
  const DemoRequest := HttpRequest("/rates", map[])
  const DemoRenewed := LoginResponse("b", "r2", "Bearer", 900, DemoUser)
  const DemoEvents := [ Request(DemoRequest, 0),
                        RefreshSettles(Success(ApiResponse(true, Some(DemoRenewed), None)), DemoRequest, 0),
                        Request(DemoRequest, 0),
                        ResendFails(HttpErrorResponse(500, None, None)),
                        SessionWritten(DemoSession),
                        Request(DemoRequest, 0) ]

  lemma DemoRequestNeedsRefresh(session: SessionStorage, token: string, refresh: string)
    requires GetAccessToken(session) == Some(token) && token != ""
    requires GetRefreshToken(session) == Some(refresh) && refresh != ""
    ensures Intercept(Pipeline(false, session), DemoRequest, 0, DemoDecode).1.RefreshThenSend?
  {
    assert !IsAuthEndpoint(DemoRequest.url) by {
      if Contains(DemoRequest.url, "/auth/login") { ContainsShorter(DemoRequest.url, "/auth/login"); }
      if Contains(DemoRequest.url, "/auth/register") { ContainsShorter(DemoRequest.url, "/auth/register"); }
    }
    assert DemoDecode(token) == Some(0);
  }

  lemma {:induction false} RunSuffix(m: Machine, events: seq<Event>, k: nat, decode: Decoder)
    requires k < |events|
    ensures Run(m, events[k..], decode).final ==
            Run(Step(m, events[k], decode).next, events[k + 1..], decode).final
  {
    assert events[k..][1..] == events[k + 1..];
  }

  /** The flag is not a single-flight lock. A re-sent request that fails
      drops the flag while a later refresh call may still be out, so after a
      fresh login a third request issues a second concurrent refresh call. */
  lemma TwoRefreshCallsCanOverlap()
    ensures Run(Machine(Pipeline(false, DemoSession), 0, 0), DemoEvents, DemoDecode).final.refreshCalls == 2
  {
    var events := DemoEvents;
    var m0 := Machine(Pipeline(false, DemoSession), 0, 0);
    DemoRequestNeedsRefresh(DemoSession, "a", "r");
    var m1 := Step(m0, events[0], DemoDecode).next;
    assert m1.refreshCalls == 1 && m1.resends == 0 && m1.pipe.isRefreshing;
    var m2 := Step(m1, events[1], DemoDecode).next;
    assert m2.refreshCalls == 0 && m2.resends == 1 && !m2.pipe.isRefreshing;
    DemoRequestNeedsRefresh(m2.pipe.session, "b", "r2");
    var m3 := Step(m2, events[2], DemoDecode).next;
    assert m3.refreshCalls == 1 && m3.resends == 1 && m3.pipe.isRefreshing;
    var m4 := Step(m3, events[3], DemoDecode).next;
    assert m4.refreshCalls == 1 && m4.resends == 0 && !m4.pipe.isRefreshing;
    var m5 := Step(m4, events[4], DemoDecode).next;
    assert m5 == Machine(Pipeline(false, DemoSession), 1, 0);
    var m6 := Step(m5, events[5], DemoDecode).next;
    assert m6.refreshCalls == 2;
    assert events[6..] == [];
    RunSuffix(m5, events, 5, DemoDecode);
    RunSuffix(m4, events, 4, DemoDecode);
    RunSuffix(m3, events, 3, DemoDecode);
    RunSuffix(m2, events, 2, DemoDecode);
    RunSuffix(m1, events, 1, DemoDecode);
    RunSuffix(m0, events, 0, DemoDecode);
    assert events[0..] == events;
  }
}

=== FILE: auth_service.dfy ===
/** The session layer: the session record kept in session storage, the
    token-expiry checks on the access token's `exp` claim, and the
    authentication endpoints' effect on storage. The clock is the `now`
    parameter (milliseconds) and `jwtDecode` is the `Decoder` parameter. */
module AuthService {
  import opened Wrappers
  import opened Text
  import opened Models
  import opened Storage
  import opened Http
  import Environment

  const AuthStorageKey := "auth_data"

  /** The record written to session storage. */
  datatype AuthData = AuthData(accessToken: string, refreshToken: string, user: User, expiresAt: int)

  type SessionStorage = Store<AuthData>

  /** `jwtDecode(token).exp`, in seconds since the epoch; `None` when decoding
      throws. The signature is never checked. */
  type Decoder = string -> Option<int>

  /** A service call's observable outcome together with session storage
      after the call. */
  datatype Reply<T> = Reply(result: Result<T, JsError>, session: SessionStorage)

  // ---- credential store ----

  /** `getStoredAuthData`: a missing key, empty text or text that does not
      parse all give `null`. */
  function GetStoredAuthData(session: SessionStorage): (r: Option<AuthData>)
    ensures r.Some? <==> AuthStorageKey in session && session[AuthStorageKey].Parsed?
    ensures r.Some? ==> r.value == session[AuthStorageKey].value
  {
    Read(session, AuthStorageKey)
  }

  /** The `accessToken` of the stored record, or null without one. */
  function GetAccessToken(session: SessionStorage): (r: Option<string>)
    ensures r.Some? <==> GetStoredAuthData(session).Some?
    ensures r.Some? ==> r.value == GetStoredAuthData(session).value.accessToken
  {
    match GetStoredAuthData(session)
    case Some(d) => Some(d.accessToken)
    case None => None
  }

  /** The `refreshToken` of the stored record, or null without one. */
  function GetRefreshToken(session: SessionStorage): (r: Option<string>)
    ensures r.Some? <==> GetStoredAuthData(session).Some?
    ensures r.Some? ==> r.value == GetStoredAuthData(session).value.refreshToken
  {
    match GetStoredAuthData(session)
    case Some(d) => Some(d.refreshToken)
    case None => None
  }

  /** The `user` of the stored record, or null without one. */
  function GetStoredUser(session: SessionStorage): (r: Option<User>)
    ensures r.Some? <==> GetStoredAuthData(session).Some?
    ensures r.Some? ==> r.value == GetStoredAuthData(session).value.user
  {
    match GetStoredAuthData(session)
    case Some(d) => Some(d.user)
    case None => None
  }

  /** `storeAuthData`: the response's tokens and user are written unchanged,
      with `expiresAt` the response's lifetime (seconds) after `now` (ms);
      reading back gives exactly what was written. */
  function StoreAuthData(session: SessionStorage, response: LoginResponse, now: int): (r: SessionStorage)
    ensures GetStoredAuthData(r) ==
              Some(AuthData(response.accessToken, response.refreshToken, response.user,
                            now + response.expiresIn * 1000))
    ensures GetAccessToken(r) == Some(response.accessToken)
    ensures GetRefreshToken(r) == Some(response.refreshToken)
    ensures GetStoredUser(r) == Some(response.user)
    ensures forall k :: k != AuthStorageKey ==> Read(r, k) == Read(session, k)
  {
    Write(session, AuthStorageKey,
          AuthData(response.accessToken, response.refreshToken, response.user,
                   now + response.expiresIn * 1000))
  }

  /** `clearAuthData`: afterwards every getter gives `null`. */
  function ClearAuthData(session: SessionStorage): (r: SessionStorage)
    ensures GetStoredAuthData(r) == None
    ensures GetAccessToken(r) == None && GetRefreshToken(r) == None && GetStoredUser(r) == None
    ensures forall k :: k != AuthStorageKey ==> Read(r, k) == Read(session, k)
  {
    Remove(session, AuthStorageKey)
  }

  /** Without a readable session record, no getter finds anything. */
  lemma NoRecordNoSession(session: SessionStorage)
    requires AuthStorageKey !in session || session[AuthStorageKey].Unparseable?
    ensures GetAccessToken(session) == None
    ensures GetRefreshToken(session) == None
    ensures GetStoredUser(session) == None
  {
  }

  // ---- expiry ----

  /** `isTokenExpired`: expired from the `exp` instant on, inclusive, and
      always when the token cannot be decoded. */
  function IsTokenExpired(token: string, now: int, decode: Decoder): (r: bool)
    ensures decode(token).None? ==> r
    ensures decode(token).Some? ==> (r <==> now >= decode(token).value * 1000)
  {
    match decode(token)
    case None => true
    case Some(exp) => now >= exp * 1000
  }

  /** A token whose `exp` instant is exactly `now` has expired; one that
      expires a millisecond later has not. */
  lemma ExpiryBoundary(token: string, now: int, decode: Decoder)
    requires decode(token).Some?
    ensures decode(token).value * 1000 == now ==> IsTokenExpired(token, now, decode)
    ensures decode(token).value * 1000 == now + 1 ==> !IsTokenExpired(token, now, decode)
  {
  }

  /** `shouldRefreshToken`: a refresh is due from `threshold` seconds before
      `exp`. No token, or an undecodable one, is never due. */
  function ShouldRefreshToken(session: SessionStorage, now: int, decode: Decoder): (r: bool)
    ensures !TruthyText(GetAccessToken(session)) ==> !r
    ensures TruthyText(GetAccessToken(session)) && decode(GetAccessToken(session).value).None? ==> !r
    ensures TruthyText(GetAccessToken(session)) && decode(GetAccessToken(session).value).Some? ==>
              (r <==> now >= decode(GetAccessToken(session).value).value * 1000
                             - Environment.TokenRefreshThreshold * 1000)
  {
    match GetAccessToken(session)
    case None => false
    case Some(token) =>
      if !Truthy(token) then false
      else
        match decode(token)
        case None => false
        case Some(exp) => now >= exp * 1000 - Environment.TokenRefreshThreshold * 1000
  }

  /** `isAuthenticated`: a truthy token that has not expired by its `exp`
      claim. */
  function IsAuthenticated(session: SessionStorage, now: int, decode: Decoder): (r: bool)
    ensures r <==> TruthyText(GetAccessToken(session)) &&
                   !IsTokenExpired(GetAccessToken(session).value, now, decode)
  {
    match GetAccessToken(session)
    case None => false
    case Some(token) => Truthy(token) && !IsTokenExpired(token, now, decode)
  }

  /** The stored `expiresAt` plays no part in `isAuthenticated`: two records
      that differ only there are judged alike. */
  lemma IsAuthenticatedIgnoresExpiresAt(session: SessionStorage, d: AuthData, expiresAt: int,
                                        now: int, decode: Decoder)
    ensures IsAuthenticated(session[AuthStorageKey := Parsed(d)], now, decode) ==
            IsAuthenticated(session[AuthStorageKey := Parsed(d.(expiresAt := expiresAt))], now, decode)
  {
  }

  /** For a decodable token, being expired implies a refresh is due; an
      undecodable token is expired yet never due. */
  lemma ExpiredImpliesRefreshDue(session: SessionStorage, now: int, decode: Decoder)
    requires TruthyText(GetAccessToken(session))
    ensures decode(GetAccessToken(session).value).Some? &&
            IsTokenExpired(GetAccessToken(session).value, now, decode) ==>
              ShouldRefreshToken(session, now, decode)
    ensures decode(GetAccessToken(session).value).None? ==>
              IsTokenExpired(GetAccessToken(session).value, now, decode) &&
              !ShouldRefreshToken(session, now, decode) &&
              !IsAuthenticated(session, now, decode)
  {
  }

  /** `isAdmin`: the stored user's role is exactly "Admin". */
  function IsAdmin(session: SessionStorage): (r: bool)
    ensures r <==> GetStoredUser(session).Some? && GetStoredUser(session).value.role == "Admin"
    ensures GetStoredAuthData(session).None? ==> !r
  {
    match GetStoredUser(session)
    case None => false
    case Some(u) => u.role == "Admin"
  }

  // ---- endpoints ----

  /** The common shape of `login` and `refreshToken`: open the envelope and,
      on success only, store the session record. */
  function Authenticate(session: SessionStorage, outcome: Result<ApiResponse<LoginResponse>, Failure>,
                        now: int, fallback: string): Reply<LoginResponse>
  {
    var r := CallAuthEndpoint(outcome, fallback);
    match r
    case Success(response) => Reply(r, StoreAuthData(session, response, now))
    case Failure(_) => Reply(r, session)
  }

  /** `login`: a successful envelope is stored and returned; any failure
      stores nothing and reports the envelope's message or 'Login failed'. */
  function Login(session: SessionStorage, outcome: Result<ApiResponse<LoginResponse>, Failure>, now: int)
    : (r: Reply<LoginResponse>)
    ensures r.result.Success? <==> outcome.Success? && outcome.value.success && outcome.value.data.Some?
    ensures r.result.Success? ==> outcome.value.data == Some(r.result.value) &&
                                  r.session == StoreAuthData(session, r.result.value, now)
    ensures r.result.Failure? ==> r.session == session
    ensures outcome.Success? && r.result.Failure? ==>
              r.result.error.message == MessageOr(outcome.value.message, "Login failed")
    ensures outcome.Failure? ==> r.result.error == HandleError(outcome.error)
  {
    Authenticate(session, outcome, now, "Login failed")
  }

  /** `refreshToken`: as `login`, with 'Token refresh failed' as the
      fallback message. */
  function RefreshToken(session: SessionStorage, outcome: Result<ApiResponse<LoginResponse>, Failure>, now: int)
    : (r: Reply<LoginResponse>)
    ensures r.result.Success? <==> outcome.Success? && outcome.value.success && outcome.value.data.Some?
    ensures r.result.Success? ==> outcome.value.data == Some(r.result.value) &&
                                  r.session == StoreAuthData(session, r.result.value, now)
    ensures r.result.Failure? ==> r.session == session
    ensures outcome.Success? && r.result.Failure? ==>
              r.result.error.message == MessageOr(outcome.value.message, "Token refresh failed")
    ensures outcome.Failure? ==> r.result.error == HandleError(outcome.error)
  {
    Authenticate(session, outcome, now, "Token refresh failed")
  }

  /** `register`: never touches session storage. */
  function Register(outcome: Result<ApiResponse<User>, Failure>): (r: Result<User, JsError>)
    ensures r.Success? <==> outcome.Success? && outcome.value.success && outcome.value.data.Some?
    ensures outcome.Success? && r.Failure? ==>
              r.error.message == MessageOr(outcome.value.message, "Registration failed")
  {
    CallAuthEndpoint(outcome, "Registration failed")
  }

  /** The body `logout` posts: the stored refresh token, or `null`. */
  function LogoutBody(session: SessionStorage): Option<string> {
    GetRefreshToken(session)
  }

  /** `logout`: the session record is removed whether or not the call
      succeeds; a failure is still reported. */
  function Logout(session: SessionStorage, outcome: Result<(), Failure>): (r: Reply<()>)
    ensures GetStoredAuthData(r.session) == None
    ensures r.session == ClearAuthData(session)
    ensures r.result.Failure? <==> outcome.Failure?
    ensures outcome.Failure? ==> r.result.error == HandleError(outcome.error)
  {
    match outcome
    case Success(_) => Reply(Success(()), ClearAuthData(session))
    case Failure(f) => Reply(Failure(HandleError(f)), ClearAuthData(session))
  }

  /** Logging in with a token that the server issued for 900 seconds and a
      "User" role: authenticated, not an admin, and no refresh due yet. */
  lemma LoginScenario(session: SessionStorage, response: LoginResponse, now: int, decode: Decoder)
    requires response.accessToken != "" && response.user.role == "User"
    requires decode(response.accessToken) == Some((now + 900 * 1000) / 1000)
    requires now % 1000 == 0
    ensures var r := Login(session, Success(ApiResponse(true, Some(response), None)), now);
            && r.result == Success(response)
            && IsAuthenticated(r.session, now, decode)
            && !IsAdmin(r.session)
            && !ShouldRefreshToken(r.session, now, decode)
  {
    var r := Login(session, Success(ApiResponse(true, Some(response), None)), now);
    assert GetAccessToken(r.session) == Some(response.accessToken);
  }
}

=== FILE: auth_store.dfy ===
/** The authentication store: the in-memory mirror of the session and the
    transitions login, register, logout, refresh and forced logout apply to
    it. Each transition takes the network outcome as a parameter and returns
    the new state, session storage after the call, and the navigation issued. */
module AuthStore {
  import opened Wrappers
  import opened Text
  import opened Models
  import opened Storage
  import opened Http
  import AuthService

  type SessionStorage = AuthService.SessionStorage
  type Decoder = AuthService.Decoder

  datatype Transition = Transition(state: AuthState, session: SessionStorage, nav: Option<Nav>)

  /** An authenticated store always holds an access token. */
  predicate Consistent(st: AuthState) {
    st.isAuthenticated ==> st.accessToken.Some?
  }

  // ---- computed views ----

  /** `isLoggedIn`: authenticated with a user, hence with a role. */
  function IsLoggedIn(st: AuthState): (r: bool)
    ensures r <==> st.isAuthenticated && UserRole(st).Some?
  {
    st.isAuthenticated && st.user.Some?
  }

  /** `isAdmin`: the user's role is exactly "Admin". */
  function IsAdmin(st: AuthState): (r: bool)
    ensures r <==> UserRole(st) == Some("Admin")
  {
    st.user.Some? && st.user.value.role == "Admin"
  }

  /** `userRole`: the user's role, or null without a user. */
  function UserRole(st: AuthState): (r: Option<string>)
    ensures r.Some? <==> st.user.Some?
    ensures r.Some? ==> r.value == st.user.value.role
  {
    match st.user
    case Some(u) => Some(u.role)
    case None => None
  }

  /** `username`: empty text without a user. */
  function Username(st: AuthState): (r: string)
    ensures st.user.None? ==> r == ""
    ensures st.user.Some? ==> r == st.user.value.username
  {
    match st.user
    case Some(u) => u.username
    case None => ""
  }

  /** `userEmail`: empty text without a user. */
  function UserEmail(st: AuthState): (r: string)
    ensures st.user.None? ==> r == ""
    ensures st.user.Some? ==> r == st.user.value.email
  {
    match st.user
    case Some(u) => u.email
    case None => ""
  }

  // ---- transitions ----

  /** `initializeAuth`: copies the stored user and tokens and the service's
      verdict on the token, and clears loading and error. */
  function InitializeAuth(st: AuthState, session: SessionStorage, now: int, decode: Decoder): (r: AuthState)
    ensures r.user == AuthService.GetStoredUser(session)
    ensures r.accessToken == AuthService.GetAccessToken(session)
    ensures r.refreshToken == AuthService.GetRefreshToken(session)
    ensures r.isAuthenticated == AuthService.IsAuthenticated(session, now, decode)
    ensures !r.isLoading && r.error == None
    ensures Consistent(r)
  {
    AuthState(AuthService.GetStoredUser(session), AuthService.GetAccessToken(session),
              AuthService.GetRefreshToken(session), AuthService.IsAuthenticated(session, now, decode),
              false, None)
  }

  /** The store's admin view after initialisation agrees with the service's. */
  lemma InitializedAdminAgrees(st: AuthState, session: SessionStorage, now: int, decode: Decoder)
    ensures IsAdmin(InitializeAuth(st, session, now, decode)) == AuthService.IsAdmin(session)
  {
  }

  /** `login`: success copies the response into the state, marks it
      authenticated and navigates to `returnUrl`, or '/dashboard' when that is
      falsy; failure only records the error, leaving user, tokens and
      `isAuthenticated` as they were. */
  function Login(st: AuthState, session: SessionStorage, outcome: Result<ApiResponse<LoginResponse>, Failure>,
                 now: int, returnUrl: Option<string>): (r: Transition)
    ensures var reply := AuthService.Login(session, outcome, now);
            && r.session == reply.session
            && (reply.result.Success? ==>
                  && r.state.isAuthenticated
                  && r.state.user == Some(reply.result.value.user)
                  && r.state.accessToken == Some(reply.result.value.accessToken)
                  && r.state.refreshToken == Some(reply.result.value.refreshToken)
                  && !r.state.isLoading && r.state.error == None
                  && r.nav == Some(Nav(OrElse(returnUrl.GetOr(""), "/dashboard"), [])))
            && (reply.result.Failure? ==>
                  && r.state == st.(isLoading := false, error := Some(OrElse(reply.result.error.message, "Login failed")))
                  && r.nav.None?)
    ensures Consistent(st) ==> Consistent(r.state)
  {
    var started := st.(isLoading := true, error := None);
    var reply := AuthService.Login(session, outcome, now);
    match reply.result
    case Success(response) =>
      Transition(started.(user := Some(response.user), accessToken := Some(response.accessToken),
                          refreshToken := Some(response.refreshToken), isAuthenticated := true,
                          isLoading := false, error := None),
                 reply.session, Some(Nav(OrElse(returnUrl.GetOr(""), "/dashboard"), [])))
    case Failure(e) =>
      Transition(started.(isLoading := false, error := Some(OrElse(e.message, "Login failed"))),
                 reply.session, None)
  }

  /** After a successful login the store mirrors exactly what a fresh
      `initializeAuth` would read back from storage. */
  lemma LoginMirrorsStorage(st: AuthState, session: SessionStorage, outcome: Result<ApiResponse<LoginResponse>, Failure>,
                            now: int, returnUrl: Option<string>, decode: Decoder)
    requires AuthService.Login(session, outcome, now).result.Success?
    ensures var r := Login(st, session, outcome, now, returnUrl);
            var reloaded := InitializeAuth(r.state, r.session, now, decode);
            reloaded.user == r.state.user && reloaded.accessToken == r.state.accessToken &&
            reloaded.refreshToken == r.state.refreshToken
  {
  }

  /** `register`: no auth field changes; success navigates to the login page
      with `registered=true`. */
  function Register(st: AuthState, outcome: Result<ApiResponse<User>, Failure>): (r: (AuthState, Option<Nav>))
    ensures r.0.user == st.user && r.0.accessToken == st.accessToken &&
            r.0.refreshToken == st.refreshToken && r.0.isAuthenticated == st.isAuthenticated
    ensures !r.0.isLoading
    ensures AuthService.Register(outcome).Success? ==>
              r.0.error == None && r.1 == Some(Nav(LoginPath, [("registered", "true")]))
    ensures AuthService.Register(outcome).Failure? ==>
              r.0.error == Some(OrElse(AuthService.Register(outcome).error.message, "Registration failed")) &&
              r.1.None?
  {
    var started := st.(isLoading := true, error := None);
    match AuthService.Register(outcome)
    case Success(_) => (started.(isLoading := false, error := None), Some(Nav(LoginPath, [("registered", "true")])))
    case Failure(e) => (started.(isLoading := false, error := Some(OrElse(e.message, "Registration failed"))), None)
  }

  /** `logout`: whatever the server answers, the state returns to its initial
      value, the session record is removed and the login page is shown. */
  function Logout(st: AuthState, session: SessionStorage, outcome: Result<(), Failure>): (r: Transition)
    ensures r.state == InitialAuthState
    ensures AuthService.GetStoredAuthData(r.session) == None
    ensures r.session == AuthService.ClearAuthData(session)
    ensures r.nav == Some(Nav(LoginPath, []))
  {
    var reply := AuthService.Logout(session, outcome);
    Transition(InitialAuthState, reply.session, Some(Nav(LoginPath, [])))
  }

  /** Logging out twice ends where logging out once does. */
  lemma LogoutIdempotent(st: AuthState, session: SessionStorage, first: Result<(), Failure>, second: Result<(), Failure>)
    ensures var once := Logout(st, session, first);
            Logout(once.state, once.session, second) == once
  {
    var once := Logout(st, session, first);
    assert Storage.Remove(once.session, AuthService.AuthStorageKey) == once.session;
  }

  /** `refreshToken` on the store: without a truthy stored refresh token
      nothing happens; success replaces tokens and user only; failure resets
      the state and navigates, but leaves session storage as it was. */
  function RefreshToken(st: AuthState, session: SessionStorage, outcome: Result<ApiResponse<LoginResponse>, Failure>,
                        now: int): (r: Transition)
    ensures !TruthyText(AuthService.GetRefreshToken(session)) ==> r == Transition(st, session, None)
    ensures TruthyText(AuthService.GetRefreshToken(session)) ==>
              var reply := AuthService.RefreshToken(session, outcome, now);
              && (reply.result.Success? ==>
                    && r.state == st.(accessToken := Some(reply.result.value.accessToken),
                                      refreshToken := Some(reply.result.value.refreshToken),
                                      user := Some(reply.result.value.user))
                    && r.session == reply.session && r.nav.None?)
              && (reply.result.Failure? ==>
                    r == Transition(InitialAuthState, session, Some(Nav(LoginPath, []))))
    ensures r.state.isAuthenticated ==> st.isAuthenticated
    ensures Consistent(st) ==> Consistent(r.state)
  {
    match AuthService.GetRefreshToken(session)
    case None => Transition(st, session, None)
    case Some(token) =>
      if !Truthy(token) then Transition(st, session, None)
      else
        var reply := AuthService.RefreshToken(session, outcome, now);
        match reply.result
        case Success(response) =>
          Transition(st.(accessToken := Some(response.accessToken), refreshToken := Some(response.refreshToken),
                         user := Some(response.user)),
                     reply.session, None)
        case Failure(_) =>
          Transition(InitialAuthState, reply.session, Some(Nav(LoginPath, [])))
  }

  /** `forceLogout`: clears storage, resets the state and navigates to the
      login page with `expired=true`. */
  function ForceLogout(st: AuthState, session: SessionStorage): (r: Transition)
    ensures r.state == InitialAuthState && !IsLoggedIn(r.state)
    ensures AuthService.GetStoredAuthData(r.session) == None
    ensures r.nav == Some(Nav(LoginPath, [("expired", "true")]))
  {
    Transition(InitialAuthState, AuthService.ClearAuthData(session), Some(Nav(LoginPath, [("expired", "true")])))
  }

  /** `updateUser` */
  function UpdateUser(st: AuthState, user: User): (r: AuthState)
    ensures r.user == Some(user) && r.(user := st.user) == st
    ensures Consistent(st) ==> Consistent(r)
  {
    st.(user := Some(user))
  }

  /** `clearError` */
  function ClearError(st: AuthState): (r: AuthState)
    ensures r.error == None && r.(error := st.error) == st
  {
    st.(error := None)
  }

  /** A logged-in store holds a user and an access token. */
  lemma LoggedInHoldsToken(st: AuthState)
    requires Consistent(st) && IsLoggedIn(st)
    ensures st.accessToken.Some? && st.user.Some?
  {
  }

  /** The computed views follow the transitions: a successful login logs
      the user in, with the admin view set by the response's role; logout
      and forced logout leave nobody logged in and no admin. */
  lemma ViewsFollowTransitions(st: AuthState, session: SessionStorage,
                               outcome: Result<ApiResponse<LoginResponse>, Failure>, now: int,
                               returnUrl: Option<string>, logoutOutcome: Result<(), Failure>)
    ensures var reply := AuthService.Login(session, outcome, now);
            var r := Login(st, session, outcome, now, returnUrl);
            reply.result.Success? ==>
              IsLoggedIn(r.state) && (IsAdmin(r.state) <==> reply.result.value.user.role == "Admin")
    ensures !IsLoggedIn(Logout(st, session, logoutOutcome).state) && !IsAdmin(Logout(st, session, logoutOutcome).state)
    ensures !IsLoggedIn(ForceLogout(st, session).state) && !IsAdmin(ForceLogout(st, session).state)
  {
  }
}

=== FILE: conversion_service.dfy ===
/** The conversion endpoints' query parameters. An absent `params` or
    `filters` argument is the record with every field `None`. */
module ConversionService {
  import opened Wrappers
  import opened Models
  import opened Http

  const NoFilter := HistoryFilter(None, None, None, None, None, None)

  /** The filter block shared by the history and export calls. */
  function FilterParams(ps: Params, f: HistoryFilter): (r: Params)
    requires forall k :: k in {"startDate", "endDate", "fromCurrency", "toCurrency"} ==> Lookup(ps, k) == None
    ensures Lookup(r, "startDate") == DateParam(f.startDate)
    ensures Lookup(r, "endDate") == DateParam(f.endDate)
    ensures Lookup(r, "fromCurrency") == TruthyTextParam(f.fromCurrency)
    ensures Lookup(r, "toCurrency") == TruthyTextParam(f.toCurrency)
    ensures forall k :: k !in {"startDate", "endDate", "fromCurrency", "toCurrency"} ==> Lookup(r, k) == Lookup(ps, k)
  {
    var ps := SetIf(ps, f.startDate.Some?, "startDate", Instant(f.startDate.GetOr(0)));
    var ps := SetIf(ps, f.endDate.Some?, "endDate", Instant(f.endDate.GetOr(0)));
    var ps := SetIf(ps, TruthyText(f.fromCurrency), "fromCurrency", Text(f.fromCurrency.GetOr("")));
    SetIf(ps, TruthyText(f.toCurrency), "toCurrency", Text(f.toCurrency.GetOr("")))
  }

  const HistoryKeys: set<string> :=
    {"pageNumber", "pageSize", "startDate", "endDate", "fromCurrency", "toCurrency", "minAmount", "maxAmount"}

  /** The amount bounds of `getHistory`: each is sent whenever it is
      defined, 0 included; every other key keeps its value. */
  function AmountParams(ps: Params, f: HistoryFilter): (r: Params)
    requires Lookup(ps, "minAmount") == None && Lookup(ps, "maxAmount") == None
    ensures Lookup(r, "minAmount") == DefinedNumberParam(f.minAmount)
    ensures Lookup(r, "maxAmount") == DefinedNumberParam(f.maxAmount)
    ensures forall k :: k != "minAmount" && k != "maxAmount" ==> Lookup(r, k) == Lookup(ps, k)
  {
    // the two keys have the same length and differ in one character
    assert "minAmount"[1] != "maxAmount"[1];
    var withMin := SetIf(ps, f.minAmount.Some?, "minAmount", Number(f.minAmount.GetOr(0.0)));
    SetIf(withMin, f.maxAmount.Some?, "maxAmount", Number(f.maxAmount.GetOr(0.0)))
  }

  /** `getHistory(params, filters)`: page numbers and currencies only when
      truthy, dates whenever given, amount bounds whenever defined, so a zero
      page is dropped but a zero bound is sent. */
  function HistoryParams(p: PaginationParams, f: HistoryFilter): (r: Params)
    ensures Lookup(r, "pageNumber") == TruthyNumberParam(p.pageNumber)
    ensures Lookup(r, "pageSize") == TruthyNumberParam(p.pageSize)
    ensures Lookup(r, "startDate") == DateParam(f.startDate)
    ensures Lookup(r, "endDate") == DateParam(f.endDate)
    ensures Lookup(r, "fromCurrency") == TruthyTextParam(f.fromCurrency)
    ensures Lookup(r, "toCurrency") == TruthyTextParam(f.toCurrency)
    ensures Lookup(r, "minAmount") == DefinedNumberParam(f.minAmount)
    ensures Lookup(r, "maxAmount") == DefinedNumberParam(f.maxAmount)
    ensures forall k :: k !in HistoryKeys ==> Lookup(r, k) == None
  {
    var paging := PagingParams(p);
    var filtered := FilterParams(paging, f);
    forall k | k !in HistoryKeys
      ensures Lookup(filtered, k) == None
    {
      assert k !in {"startDate", "endDate", "fromCurrency", "toCurrency"};
      assert k != "pageNumber" && k != "pageSize";
    }
    assert "startDate"[0] != "minAmount"[0] && "startDate"[0] != "maxAmount"[0];
    AmountParams(filtered, f)
  }

  /** `exportHistory(filters)`: the filter block alone. */
  function ExportParams(f: HistoryFilter): (r: Params)
    ensures Lookup(r, "startDate") == DateParam(f.startDate)
    ensures Lookup(r, "endDate") == DateParam(f.endDate)
    ensures Lookup(r, "fromCurrency") == TruthyTextParam(f.fromCurrency)
    ensures Lookup(r, "toCurrency") == TruthyTextParam(f.toCurrency)
    ensures forall k :: k !in {"startDate", "endDate", "fromCurrency", "toCurrency"} ==> Lookup(r, k) == None
  {
    FilterParams([], f)
  }

  /** The export sends exactly what the history call sends under the four
      filter keys and nothing else: never pagination, never amount bounds. */
  lemma ExportIsRestrictionOfHistory(p: PaginationParams, f: HistoryFilter, k: string)
    ensures Lookup(ExportParams(f), k) ==
            if k in {"startDate", "endDate", "fromCurrency", "toCurrency"} then Lookup(HistoryParams(p, f), k)
            else None
  {
  }

  /** A zero page number and page size are dropped while a zero amount bound
      is sent. */
  lemma ZeroPageDroppedZeroAmountSent()
    ensures var r := HistoryParams(PaginationParams(Some(0), Some(0)), NoFilter.(minAmount := Some(0.0)));
            Lookup(r, "pageNumber") == None && Lookup(r, "pageSize") == None &&
            Lookup(r, "minAmount") == Some(Number(0.0))
  {
  }

  const DefaultRecentLimit := 5

  /** `getRecentConversions(limit = 5)`: the default applies only when the
      argument is `undefined`; an explicit 0 is sent. */
  function RecentParams(limit: Option<int>): (r: Params)
    ensures Lookup(r, "limit") == Some(Number((if limit.None? then DefaultRecentLimit else limit.value) as real))
    ensures forall k :: k != "limit" ==> Lookup(r, k) == None
  {
    Set([], "limit", Number(limit.GetOr(DefaultRecentLimit) as real))
  }
}

=== FILE: conversion_store.dfy ===
/** The conversion store: recent conversions (newest first, at most ten),
    favourite currency pairs, and the history page. Favourites and recent
    conversions are also kept in local storage; every transition returns the
    new state together with local storage after it. */
module ConversionStore {
  import opened Wrappers
  import opened Text
  import opened Models
  import opened Storage
  import opened Http
  import opened Seqs

  const FavoritesKey := "currency_favorites"
  const RecentConversionsKey := "recent_conversions"
  const MaxRecent: nat := 10

  /** The store's two local-storage entries, under `FavoritesKey` and
      `RecentConversionsKey`; `None` is a missing key. */
  datatype Durable = Durable(
    favorites: Option<Stored<seq<FavoritePair>>>,
    recent: Option<Stored<seq<ConvertResponse>>>)

  datatype Step = Step(state: ConversionState, durable: Durable)

  /** `loadFavorites` / `loadRecentConversions`: a missing key, empty text or
      text that does not parse all give `[]`. */
  function LoadSlot<T>(slot: Option<Stored<seq<T>>>): (r: seq<T>)
    ensures slot.Some? && slot.value.Parsed? ==> r == slot.value.value
    ensures !(slot.Some? && slot.value.Parsed?) ==> r == []
  {
    match slot
    case Some(Parsed(v)) => v
    case _ => []
  }

  /** The in-memory lists are what local storage would give back. */
  predicate Mirrors(st: ConversionState, d: Durable) {
    LoadSlot(d.favorites) == st.favorites && LoadSlot(d.recent) == st.recentConversions
  }

  // ---- computed views ----

  /** `lastConversion` */
  function LastConversion(st: ConversionState): (r: Option<ConvertResponse>)
    ensures r.Some? <==> |st.recentConversions| > 0
    ensures r.Some? ==> r.value == st.recentConversions[0]
  {
    if |st.recentConversions| > 0 then Some(st.recentConversions[0]) else None
  }

  /** `isFavorite(from, to)`: some stored pair has exactly this origin and
      this target. */
  predicate IsFavorite(favorites: seq<FavoritePair>, from: string, to: string)
    ensures IsFavorite(favorites, from, to) <==> FavoritePair(from, to) in favorites
  {
    exists i | 0 <= i < |favorites| :: favorites[i].fromCurrency == from && favorites[i].toCurrency == to
  }

  /** A pair is directed: storing (A, B) does not make (B, A) a favourite. */
  lemma IsFavoriteIsDirected(a: string, b: string)
    requires a != b
    ensures IsFavorite([FavoritePair(a, b)], a, b)
    ensures !IsFavorite([FavoritePair(a, b)], b, a)
  {
  }

  /** `Math.ceil(a / b)` for a non-zero divisor. */
  function CeilDiv(a: int, b: int): (r: int)
    requires b != 0
    ensures b > 0 ==> (r - 1) * b < a <= r * b
    ensures b < 0 ==> r * b <= a < (r - 1) * b
  {
    if b > 0 then -((-a) / b) else -(a / (-b))
  }

  /** `Math.ceil(total / pageSize)`; `None` when it is not a finite number
      (a page size of 0). */
  function TotalPages(st: ConversionState): (r: Option<int>)
    ensures r.None? <==> st.pageSize == 0
    ensures r.Some? && st.pageSize > 0 ==>
              (r.value - 1) * st.pageSize < st.totalHistoryCount <= r.value * st.pageSize
  {
    if st.pageSize == 0 then None else Some(CeilDiv(st.totalHistoryCount, st.pageSize))
  }

  /** `hasMoreHistory`: the current page is below the page count. Dividing by
      a zero page size gives `Infinity` for a positive total, which every page
      is below, and `NaN` or `-Infinity` otherwise, which none is below. */
  function HasMoreHistory(st: ConversionState): (r: bool)
    ensures st.pageSize == 0 ==> (r <==> st.totalHistoryCount > 0)
    ensures st.totalHistoryCount <= 0 && st.currentPage >= 0 && st.pageSize > 0 ==> !r
  {
    match TotalPages(st)
    case Some(pages) => st.currentPage < pages
    case None => st.totalHistoryCount > 0
  }

  /** With a positive page size there is more history exactly when the
      entries before the end of the current page do not exhaust the total. */
  lemma HasMoreHistoryIff(st: ConversionState)
    requires st.pageSize > 0
    ensures HasMoreHistory(st) <==> st.currentPage * st.pageSize < st.totalHistoryCount
  {
    var pages := CeilDiv(st.totalHistoryCount, st.pageSize);
    if st.currentPage < pages {
      MulMonotone(st.currentPage, pages - 1, st.pageSize);
    } else {
      MulMonotone(pages, st.currentPage, st.pageSize);
    }
  }

  lemma MulMonotone(x: int, y: int, k: int)
    requires x <= y && k > 0
    ensures x * k <= y * k
  {
    assert y * k - x * k == (y - x) * k;
  }

  // ---- local lists ----

  /** Recording one conversion: the newest first, ten at most. */
  function RecordConversion(recent: seq<ConvertResponse>, response: ConvertResponse): (r: seq<ConvertResponse>)
    ensures |r| >= 1 && r[0] == response
    ensures |r| <= MaxRecent
    ensures r[1..] == Take(recent, MaxRecent - 1)
  {
    Take([response] + recent, MaxRecent)
  }

  /** Recording several conversions one after another. */
  function RecordAll(recent: seq<ConvertResponse>, responses: seq<ConvertResponse>): seq<ConvertResponse>
    decreases |responses|
  {
    if responses == [] then recent else RecordAll(RecordConversion(recent, responses[0]), responses[1..])
  }

  /** After a run of conversions, the recent list is the latest ten, newest
      first. */
  lemma {:induction false} RecordAllKeepsLatest(recent: seq<ConvertResponse>, responses: seq<ConvertResponse>)
    ensures RecordAll(recent, responses) ==
            if responses == [] then recent else Take(Reverse(responses) + recent, MaxRecent)
    decreases |responses|
  {
    if responses != [] {
      var head := responses[0];
      var tail := responses[1..];
      var once := Take([head] + recent, MaxRecent);
      RecordAllKeepsLatest(once, tail);
      assert Reverse(responses) == Reverse(tail) + [head];
      if tail == [] {
        assert Reverse(responses) + recent == [head] + recent;
      } else {
        TakeAppendTake(Reverse(tail), [head] + recent, MaxRecent);
        assert Reverse(tail) + ([head] + recent) == Reverse(responses) + recent;
      }
    }
  }

  // ---- transitions ----

  /** `initialize`: both lists come from local storage. */
  function Initialize(st: ConversionState, d: Durable): (r: ConversionState)
    ensures Mirrors(r, d)
    ensures r.(favorites := st.favorites, recentConversions := st.recentConversions) == st
  {
    st.(favorites := LoadSlot(d.favorites), recentConversions := LoadSlot(d.recent))
  }

  /** `convert`: on success the response becomes the newest of at most ten
      recent conversions and is saved; on failure only the flag and the
      error change. */
  function Convert(st: ConversionState, d: Durable, outcome: Result<ConvertResponse, Failure>): (r: Step)
    ensures outcome.Success? ==>
              && r.state.recentConversions == RecordConversion(st.recentConversions, outcome.value)
              && r.state == st.(recentConversions := r.state.recentConversions, isConverting := false, error := None)
              && r.durable == d.(recent := Some(Parsed(r.state.recentConversions)))
    ensures outcome.Failure? ==>
              && r.state == st.(isConverting := false,
                                error := Some(OrElse(HandleError(outcome.error).message, "Conversion failed")))
              && r.durable == d
    ensures Mirrors(st, d) ==> Mirrors(r.state, r.durable)
  {
    var started := st.(isConverting := true, error := None);
    match Rethrow(outcome)
    case Success(response) =>
      var recent := Take([response] + st.recentConversions, MaxRecent);
      Step(started.(recentConversions := recent, isConverting := false, error := None),
           d.(recent := Some(Parsed(Take(recent, MaxRecent)))))
    case Failure(e) =>
      Step(started.(isConverting := false, error := Some(OrElse(e.message, "Conversion failed"))), d)
  }

  /** `batchConvert`: every result, in response order, ahead of the old
      list, ten at most. */
  function BatchConvert(st: ConversionState, d: Durable, outcome: Result<BatchConvertResponse, Failure>): (r: Step)
    ensures outcome.Success? ==>
              && r.state.recentConversions == Take(outcome.value.conversions + st.recentConversions, MaxRecent)
              && r.state == st.(recentConversions := r.state.recentConversions, isConverting := false, error := None)
              && r.durable == d.(recent := Some(Parsed(r.state.recentConversions)))
    ensures outcome.Failure? ==>
              && r.state == st.(isConverting := false,
                                error := Some(OrElse(HandleError(outcome.error).message, "Batch conversion failed")))
              && r.durable == d
    ensures |r.state.recentConversions| <= MaxRecent || r.state.recentConversions == st.recentConversions
    ensures Mirrors(st, d) ==> Mirrors(r.state, r.durable)
  {
    var started := st.(isConverting := true, error := None);
    match Rethrow(outcome)
    case Success(response) =>
      var recent := Take(response.conversions + st.recentConversions, MaxRecent);
      Step(started.(recentConversions := recent, isConverting := false, error := None),
           d.(recent := Some(Parsed(Take(recent, MaxRecent)))))
    case Failure(e) =>
      Step(started.(isConverting := false, error := Some(OrElse(e.message, "Batch conversion failed"))), d)
  }

  /** A batch leaves the same recent list as converting its results one by
      one in reverse order, so its first result ends up newest. */
  lemma BatchIsReversedSuccession(st: ConversionState, d: Durable, response: BatchConvertResponse)
    requires response.conversions != [] || |st.recentConversions| <= MaxRecent
    ensures BatchConvert(st, d, Success(response)).state.recentConversions ==
            RecordAll(st.recentConversions, Reverse(response.conversions))
  {
    RecordAllKeepsLatest(st.recentConversions, Reverse(response.conversions));
    ReverseReverse(response.conversions);
  }

  /** `loadHistory`: the page replaces history and paging fields; a failure
      sets only the flag and the error. */
  function LoadHistory(st: ConversionState, outcome: Result<PagedResponse<HistoryEntry>, Failure>): (r: ConversionState)
    ensures outcome.Success? ==>
              r == st.(history := outcome.value.items, totalHistoryCount := outcome.value.totalCount,
                       currentPage := outcome.value.pageNumber, pageSize := outcome.value.pageSize,
                       isLoading := false, error := None)
    ensures outcome.Failure? ==>
              r == st.(isLoading := false,
                       error := Some(OrElse(HandleError(outcome.error).message, "Failed to load history")))
    ensures r.recentConversions == st.recentConversions && r.favorites == st.favorites
  {
    var started := st.(isLoading := true, error := None);
    match Rethrow(outcome)
    case Success(page) =>
      started.(history := page.items, totalHistoryCount := page.totalCount, currentPage := page.pageNumber,
               pageSize := page.pageSize, isLoading := false, error := None)
    case Failure(e) =>
      started.(isLoading := false, error := Some(OrElse(e.message, "Failed to load history")))
  }

  /** `addFavorite`: appends a pair that is not yet present; a present pair
      changes nothing, not even local storage. */
  function AddFavorite(st: ConversionState, d: Durable, from: string, to: string): (r: Step)
    ensures IsFavorite(st.favorites, from, to) ==> r == Step(st, d)
    ensures !IsFavorite(st.favorites, from, to) ==>
              && r.state == st.(favorites := st.favorites + [FavoritePair(from, to)])
              && r.durable == d.(favorites := Some(Parsed(r.state.favorites)))
    ensures IsFavorite(r.state.favorites, from, to)
    ensures NoDuplicates(st.favorites) ==> NoDuplicates(r.state.favorites)
    ensures Mirrors(st, d) ==> Mirrors(r.state, r.durable)
  {
    if IsFavorite(st.favorites, from, to) then Step(st, d)
    else
      var updated := st.favorites + [FavoritePair(from, to)];
      Step(st.(favorites := updated), d.(favorites := Some(Parsed(updated))))
  }

  /** `removeFavorite`: drops every entry for the pair and keeps the others in
      their order; local storage is always rewritten. */
  function RemoveFavorite(st: ConversionState, d: Durable, from: string, to: string): (r: Step)
    ensures r.state == st.(favorites := r.state.favorites)
    ensures r.durable == d.(favorites := Some(Parsed(r.state.favorites)))
    ensures !IsFavorite(r.state.favorites, from, to)
    ensures forall p :: p != FavoritePair(from, to) ==> (p in r.state.favorites <==> p in st.favorites)
    ensures Subsequence(r.state.favorites, st.favorites)
    ensures Mirrors(st, d) ==> Mirrors(r.state, r.durable)
  {
    WithoutIsSubsequence(st.favorites, FavoritePair(from, to));
    var updated := Without(st.favorites, FavoritePair(from, to));
    Step(st.(favorites := updated), d.(favorites := Some(Parsed(updated))))
  }

  /** `toggleFavorite`: removes a present pair (every copy of it), appends an
      absent one. */
  function ToggleFavorite(st: ConversionState, d: Durable, from: string, to: string): (r: Step)
    ensures IsFavorite(r.state.favorites, from, to) <==> !IsFavorite(st.favorites, from, to)
    ensures forall p :: p != FavoritePair(from, to) ==> (p in r.state.favorites <==> p in st.favorites)
    ensures !IsFavorite(st.favorites, from, to) ==>
              r.state.favorites == st.favorites + [FavoritePair(from, to)]
    ensures IsFavorite(st.favorites, from, to) ==>
              r.state.favorites == Without(st.favorites, FavoritePair(from, to))
    ensures r.state == st.(favorites := r.state.favorites)
    ensures r.durable == d.(favorites := Some(Parsed(r.state.favorites)))
    ensures NoDuplicates(st.favorites) ==> NoDuplicates(r.state.favorites)
  {
    var pair := FavoritePair(from, to);
    if IsFavorite(st.favorites, from, to) then
      WithoutNoDuplicatesIf(st.favorites, pair);
      var updated := Without(st.favorites, pair);
      Step(st.(favorites := updated), d.(favorites := Some(Parsed(updated))))
    else
      var updated := st.favorites + [pair];
      Step(st.(favorites := updated), d.(favorites := Some(Parsed(updated))))
  }

  lemma WithoutNoDuplicatesIf(s: seq<FavoritePair>, x: FavoritePair)
    ensures NoDuplicates(s) ==> NoDuplicates(Without(s, x))
  {
    if NoDuplicates(s) {
      WithoutNoDuplicates(s, x);
    }
  }

  /** Toggling a pair twice restores its membership and every other pair's;
      for a pair that was absent it restores the exact list. */
  lemma {:induction false} ToggleFavoriteTwice(st: ConversionState, d: Durable, from: string, to: string)
    ensures var once := ToggleFavorite(st, d, from, to);
            var twice := ToggleFavorite(once.state, once.durable, from, to);
            && (IsFavorite(twice.state.favorites, from, to) <==> IsFavorite(st.favorites, from, to))
            && (!IsFavorite(st.favorites, from, to) ==> twice.state == st)
  {
    var pair := FavoritePair(from, to);
    var once := ToggleFavorite(st, d, from, to);
    if !IsFavorite(st.favorites, from, to) {
      WithoutAppend(st.favorites, [pair], pair);
      assert Without([pair], pair) == [];
      assert st.favorites + [] == st.favorites;
    }
  }

  /** `setPage` */
  function SetPage(st: ConversionState, page: int): (r: ConversionState)
    ensures r.currentPage == page && r.(currentPage := st.currentPage) == st
  {
    st.(currentPage := page)
  }

  /** `setPageSize`: the page size changes and the first page is shown. */
  function SetPageSize(st: ConversionState, size: int): (r: ConversionState)
    ensures r.pageSize == size && r.currentPage == 1
    ensures r.(pageSize := st.pageSize, currentPage := st.currentPage) == st
  {
    st.(pageSize := size, currentPage := 1)
  }

  /** `clearError` */
  function ClearError(st: ConversionState): (r: ConversionState)
    ensures r.error == None && r.(error := st.error) == st
  {
    st.(error := None)
  }

  /** `clearRecent`: the list and its local-storage entry both go. */
  function ClearRecent(st: ConversionState, d: Durable): (r: Step)
    ensures r.state.recentConversions == [] && LastConversion(r.state).None?
    ensures r.durable.recent.None? && r.durable.favorites == d.favorites
    ensures Mirrors(st, d) ==> Mirrors(r.state, r.durable)
  {
    Step(st.(recentConversions := []), d.(recent := None))
  }
}

=== FILE: converter.dfy ===
/** The converter page: the conversion form, the batch selection and the
    requests the page hands to the conversion store. A cleared amount field
    is `None`; the currency fields are text, where "" is empty. The 500 ms
    delay before results are read back is not modelled; the read-back is. */
module Converter {
  import opened Wrappers
  import opened Models
  import opened Seqs
  import opened Http
  import ConversionStore

  datatype ConvertForm = ConvertForm(fromCurrency: string, toCurrency: string, amount: Option<real>)

  /** The form as `ngOnInit` builds it. */
  const InitialForm := ConvertForm("USD", "EUR", Some(100.0))

  /** Smallest amount the form's `min` validator accepts. */
  const MinAmount: real := 0.01

  /** `amount` is truthy: present and not zero. */
  predicate TruthyAmount(amount: Option<real>) {
    amount.Some? && amount.value != 0.0
  }

  /** `convertForm.valid`: both currencies required, the amount required and at
      least 0.01. */
  predicate Valid(form: ConvertForm) {
    form.fromCurrency != "" && form.toCurrency != "" && form.amount.Some? && form.amount.value >= MinAmount
  }

  /** What `ngOnInit` sets up: the form with any non-empty `from` and `to`
      query parameters applied, and whether the currency list must be
      loaded. */
  datatype Setup = Setup(form: ConvertForm, loadCurrencies: bool)

  function OnInit(currencies: seq<Currency>, queryFrom: Option<string>, queryTo: Option<string>): (r: Setup)
    ensures r.loadCurrencies <==> |currencies| == 0
    ensures r.form.fromCurrency == if TruthyText(queryFrom) then queryFrom.value else "USD"
    ensures r.form.toCurrency == if TruthyText(queryTo) then queryTo.value else "EUR"
    ensures r.form.amount == InitialForm.amount
  {
    var form := InitialForm;
    var form := if TruthyText(queryFrom) then form.(fromCurrency := queryFrom.value) else form;
    var form := if TruthyText(queryTo) then form.(toCurrency := queryTo.value) else form;
    Setup(form, |currencies| == 0)
  }

  /** `onConvert`: the request sent, if the form is valid. */
  function OnConvert(form: ConvertForm): (r: Option<ConvertRequest>)
    ensures r.Some? <==> Valid(form)
    ensures r.Some? ==> r.value.fromCurrency == form.fromCurrency && r.value.toCurrency == form.toCurrency &&
                        Some(r.value.amount) == form.amount && r.value.amount >= MinAmount
  {
    if Valid(form) then Some(ConvertRequest(form.fromCurrency, form.toCurrency, form.amount.value)) else None
  }

  /** The result `onConvert` shows once the store has answered: the newest
      recent conversion, or the previous result while the list is empty. */
  function LastResult(previous: Option<ConvertResponse>, recent: seq<ConvertResponse>): (r: Option<ConvertResponse>)
    ensures |recent| > 0 ==> r == Some(recent[0])
    ensures |recent| == 0 ==> r == previous
  {
    if |recent| > 0 then Some(recent[0]) else previous
  }

  /** When the response arrives before the 500 ms read-back, the page shows
      that conversion after a successful call. */
  lemma ConvertShowsResponse(st: ConversionState, d: ConversionStore.Durable, previous: Option<ConvertResponse>,
                             response: ConvertResponse)
    ensures LastResult(previous, ConversionStore.Convert(st, d, Success(response)).state.recentConversions) ==
            Some(response)
    ensures ShownAfterConvert(previous, st, d, Success(response), true) == Some(response)
  {
  }

  /** What `lastResult` holds once the 500 ms read-back of `onConvert` has
      run. `responseFirst` says whether the call settled before the timer
      fired; a response that settles later never reaches `lastResult`. */
  function ShownAfterConvert(previous: Option<ConvertResponse>, st: ConversionState, d: ConversionStore.Durable,
                             outcome: Result<ConvertResponse, Failure>, responseFirst: bool)
    : (r: Option<ConvertResponse>)
    ensures responseFirst && outcome.Success? ==> r == Some(outcome.value)
    ensures !responseFirst ==> r == LastResult(previous, st.recentConversions)
    ensures outcome.Failure? ==> r == LastResult(previous, st.recentConversions)
  {
    if responseFirst then LastResult(previous, ConversionStore.Convert(st, d, outcome).state.recentConversions)
    else LastResult(previous, st.recentConversions)
  }

  /** A slow response is lost to the page: with no earlier conversion on
      record, a call that succeeds after the read-back leaves the result
      panel empty, while the same call settling first would have filled it. */
  lemma LateResponseNotShown(st: ConversionState, d: ConversionStore.Durable, response: ConvertResponse)
    requires st.recentConversions == []
    ensures ShownAfterConvert(None, st, d, Success(response), false) == None
    ensures ShownAfterConvert(None, st, d, Success(response), true) == Some(response)
  {
  }

  /** `swapCurrencies`: origin and target trade places; the amount stays. */
  function SwapCurrencies(form: ConvertForm): (r: ConvertForm)
    ensures r.fromCurrency == form.toCurrency && r.toCurrency == form.fromCurrency
    ensures r.amount == form.amount
  {
    form.(fromCurrency := form.toCurrency, toCurrency := form.fromCurrency)
  }

  /** Swapping twice restores the form, and swapping keeps it valid or
      invalid. */
  lemma SwapTwice(form: ConvertForm)
    ensures SwapCurrencies(SwapCurrencies(form)) == form
    ensures Valid(SwapCurrencies(form)) <==> Valid(form)
  {
  }

  /** One evaluation of the page's `isFavorite`: false while either currency
      is empty, otherwise the store's answer for the pair. The page caches it
      (see `StarAsWritten`). */
  function IsFavorite(form: ConvertForm, favorites: seq<FavoritePair>): (r: bool)
    ensures r <==> form.fromCurrency != "" && form.toCurrency != "" &&
                   FavoritePair(form.fromCurrency, form.toCurrency) in favorites
  {
    if form.fromCurrency == "" || form.toCurrency == "" then false
    else ConversionStore.IsFavorite(favorites, form.fromCurrency, form.toCurrency)
  }

  // ---- the cached star ----

  /** The cache of the page's `isFavorite` computed signal: the favourites
      list it read when it last ran, and the answer it gave. When either
      currency was empty the body returned before reading the store, so it
      tracked no signal at all (`None`). */
  datatype StarMemo = StarMemo(tracked: Option<seq<FavoritePair>>, value: bool)

  /** One run of the computed's body, recording what it read. */
  function EvaluateStar(form: ConvertForm, favorites: seq<FavoritePair>): (r: StarMemo)
    ensures r.value == IsFavorite(form, favorites)
    ensures r.tracked.None? <==> form.fromCurrency == "" || form.toCurrency == ""
    ensures r.tracked.Some? ==> r.tracked.value == favorites
  {
    if form.fromCurrency == "" || form.toCurrency == "" then StarMemo(None, false)
    else StarMemo(Some(favorites), IsFavorite(form, favorites))
  }

  /** `isFavorite` as written: the form's values are plain reads, not
      signals. The cached answer is served until the favourites list it
      tracked changes, whatever the form now shows; a run that tracked
      nothing is never repeated. */
  function StarAsWritten(memo: Option<StarMemo>, form: ConvertForm, favorites: seq<FavoritePair>): (r: StarMemo)
    ensures memo.None? ==> r.value == IsFavorite(form, favorites)
    // a run that read no signal has nothing to invalidate it
    ensures memo.Some? && memo.value.tracked.None? ==> r == memo.value
    ensures memo.Some? && memo.value.tracked == Some(favorites) ==> r == memo.value
    ensures memo.Some? && memo.value.tracked.Some? && memo.value.tracked.value != favorites ==>
              r.value == IsFavorite(form, favorites)
    ensures r.tracked.Some? ==> r.tracked.value == favorites
  {
    match memo
    case Some(m) =>
      if m.tracked.None? || m.tracked.value == favorites then m else EvaluateStar(form, favorites)
    case None => EvaluateStar(form, favorites)
  }

  /** As written, picking a favourite, swapping or repeating a conversion
      leaves the star as it was while the favourites list stays the same. */
  lemma FormEditsKeepStarAsWritten(m: StarMemo, favorites: seq<FavoritePair>, form: ConvertForm,
                                   conversion: ConvertResponse, from: string, to: string)
    requires m.tracked.None? || m.tracked == Some(favorites)
    ensures StarAsWritten(Some(m), SelectFavorite(form, from, to), favorites) == m
    ensures StarAsWritten(Some(m), SwapCurrencies(form), favorites) == m
    ensures StarAsWritten(Some(m), RepeatConversion(form, conversion), favorites) == m
  {
  }

  const SavedPair := FavoritePair("GBP", "JPY")

  /** With GBP to JPY saved and the form at USD to EUR, the star is off.
      Picking the saved pair does not light it as written, although the
      pair now on the form is a favourite. */
  lemma SelectFavoriteStarStaysOff()
    ensures var shown := StarAsWritten(None, InitialForm, [SavedPair]);
            var picked := SelectFavorite(InitialForm, SavedPair.fromCurrency, SavedPair.toCurrency);
            && !StarAsWritten(Some(shown), picked, [SavedPair]).value
            && IsFavorite(picked, [SavedPair])
  {
    assert FavoritePair("USD", "EUR") != SavedPair by {
      assert "USD"[0] != "GBP"[0];
    }
  }

  /** A star first read while a currency field was empty is dead: it
      tracked nothing, so neither picking the saved pair nor saving it as a
      favourite lights it, although both make the pair on the form one. */
  lemma EmptyFieldStarDiesAsWritten(st: ConversionState, d: ConversionStore.Durable)
    requires st.favorites == []
    ensures var blank := ConvertForm("", "EUR", Some(100.0));
            var shown := StarAsWritten(None, blank, st.favorites);
            var picked := SelectFavorite(blank, SavedPair.fromCurrency, SavedPair.toCurrency);
            var after := ConversionStore.ToggleFavorite(st, d, SavedPair.fromCurrency, SavedPair.toCurrency).state;
            && !StarAsWritten(Some(shown), picked, after.favorites).value
            && IsFavorite(picked, after.favorites)
  {
    var after := ConversionStore.ToggleFavorite(st, d, SavedPair.fromCurrency, SavedPair.toCurrency).state;
    assert SavedPair in after.favorites;
  }

  /** The star follows the toggle: after `toggleFavorite` on a form with both
      currencies set, a fresh evaluation reports the opposite of a fresh
      evaluation before. The toggle always changes the favourites list, so a
      cached star that tracked the list is recomputed and shows that
      opposite too, even when the star shown before the toggle was stale. A
      cached star that tracked nothing keeps its answer. */
  lemma ToggleFavoriteFlipsStar(form: ConvertForm, st: ConversionState, d: ConversionStore.Durable, m: StarMemo)
    requires form.fromCurrency != "" && form.toCurrency != ""
    ensures var after := ConversionStore.ToggleFavorite(st, d, form.fromCurrency, form.toCurrency).state;
            IsFavorite(form, after.favorites) <==> !IsFavorite(form, st.favorites)
    ensures var after := ConversionStore.ToggleFavorite(st, d, form.fromCurrency, form.toCurrency).state;
            m.tracked == Some(st.favorites) ==>
              StarAsWritten(Some(m), form, after.favorites).value == !IsFavorite(form, st.favorites)
    ensures var after := ConversionStore.ToggleFavorite(st, d, form.fromCurrency, form.toCurrency).state;
            m.tracked.None? ==> StarAsWritten(Some(m), form, after.favorites) == m
  {
    var after := ConversionStore.ToggleFavorite(st, d, form.fromCurrency, form.toCurrency).state;
    assert after.favorites != st.favorites;
  }

  /** `toggleBatchCurrency`: removes a selected code, appends an unselected
      one. */
  function ToggleBatchCurrency(selected: seq<string>, currency: string): (r: seq<string>)
    ensures currency in r <==> currency !in selected
    ensures forall c :: c != currency ==> (c in r <==> c in selected)
    ensures currency !in selected ==> r == selected + [currency]
    ensures currency in selected ==> Subsequence(r, selected)
    ensures NoDuplicates(selected) ==> NoDuplicates(r)
  {
    if currency in selected then
      WithoutIsSubsequence(selected, currency);
      assert NoDuplicates(selected) ==> NoDuplicates(Without(selected, currency)) by {
        if NoDuplicates(selected) {
          WithoutNoDuplicates(selected, currency);
        }
      }
      Without(selected, currency)
    else
      assert NoDuplicates(selected) ==> NoDuplicates(selected + [currency]) by {
        if NoDuplicates(selected) {
          AppendNoDuplicates(selected, currency);
        }
      }
      selected + [currency]
  }

  /** Toggling a code twice restores the selection when the code was not
      selected, and restores membership of every code always. */
  lemma {:induction false} ToggleBatchTwice(selected: seq<string>, currency: string)
    ensures forall c :: c in ToggleBatchCurrency(ToggleBatchCurrency(selected, currency), currency) <==> c in selected
    ensures currency !in selected ==> ToggleBatchCurrency(ToggleBatchCurrency(selected, currency), currency) == selected
  {
    if currency !in selected {
      WithoutAppend(selected, [currency], currency);
      assert Without([currency], currency) == [];
      assert selected + [] == selected;
    }
  }

  /** `selected.map(to => ({ fromCurrency, toCurrency: to, amount }))` */
  function RequestsFor(fromCurrency: string, selected: seq<string>, amount: real): (r: seq<ConvertRequest>)
    ensures |r| == |selected|
    ensures forall i | 0 <= i < |r| :: r[i] == ConvertRequest(fromCurrency, selected[i], amount)
  {
    if selected == [] then [] else [ConvertRequest(fromCurrency, selected[0], amount)] + RequestsFor(fromCurrency, selected[1..], amount)
  }

  /** `batchConvert`: the requests sent, if any. Nothing is sent without a
      truthy amount, an origin, or a selected target; the form's validators
      are not consulted. */
  function BatchRequests(form: ConvertForm, selected: seq<string>): (r: Option<seq<ConvertRequest>>)
    ensures r.Some? <==> TruthyAmount(form.amount) && form.fromCurrency != "" && |selected| > 0
    ensures r.Some? ==> |r.value| == |selected|
    ensures r.Some? ==> forall i | 0 <= i < |r.value| ::
                          r.value[i] == ConvertRequest(form.fromCurrency, selected[i], form.amount.value)
  {
    if TruthyAmount(form.amount) && form.fromCurrency != "" && |selected| > 0 then
      Some(RequestsFor(form.fromCurrency, selected, form.amount.value))
    else None
  }

  /** Unlike `onConvert`, a batch goes out with an amount the form calls
      invalid: a negative amount or an empty target field do not stop it. */
  lemma BatchSkipsValidation()
    ensures var form := ConvertForm("USD", "", Some(-5.0));
            !Valid(form) && BatchRequests(form, ["EUR"]) == Some([ConvertRequest("USD", "EUR", -5.0)])
  {
    var form := ConvertForm("USD", "", Some(-5.0));
    var sent := BatchRequests(form, ["EUR"]);
    assert |sent.value| == 1 && sent.value[0] == ConvertRequest("USD", "EUR", -5.0);
    assert sent.value == [ConvertRequest("USD", "EUR", -5.0)];
  }

  /** The batch results the page shows: the first as many recent conversions
      as currencies were selected. */
  function BatchResults(recent: seq<ConvertResponse>, selectedCount: nat): (r: seq<ConvertResponse>)
    ensures |r| <= selectedCount && |r| <= |recent|
    ensures r == recent[..|r|]
  {
    Take(recent, selectedCount)
  }

  /** What `batchResults` holds once the 500 ms read-back of `batchConvert`
      has run: the first `selectedCount` recent conversions, read after the
      batch settled when `responseFirst`, and before it otherwise. */
  function ShownAfterBatch(st: ConversionState, d: ConversionStore.Durable,
                           outcome: Result<BatchConvertResponse, Failure>, selectedCount: nat, responseFirst: bool)
    : (r: seq<ConvertResponse>)
    ensures !responseFirst || outcome.Failure? ==> r == BatchResults(st.recentConversions, selectedCount)
    ensures responseFirst ==>
              r == BatchResults(ConversionStore.BatchConvert(st, d, outcome).state.recentConversions, selectedCount)
  {
    if responseFirst then BatchResults(ConversionStore.BatchConvert(st, d, outcome).state.recentConversions, selectedCount)
    else BatchResults(st.recentConversions, selectedCount)
  }

  /** When the batch settles before the read-back, every selected
      conversion succeeds and at most ten were selected, the page shows
      exactly the batch's results, in response order. */
  lemma BatchResultsShowResponse(st: ConversionState, d: ConversionStore.Durable, response: BatchConvertResponse,
                                 selectedCount: nat)
    requires |response.conversions| == selectedCount <= ConversionStore.MaxRecent
    ensures BatchResults(ConversionStore.BatchConvert(st, d, Success(response)).state.recentConversions,
                         selectedCount) == response.conversions
    ensures ShownAfterBatch(st, d, Success(response), selectedCount, true) == response.conversions
  {
    var all := response.conversions + st.recentConversions;
    var recent := Take(all, ConversionStore.MaxRecent);
    assert recent[..selectedCount] == all[..selectedCount];
    assert all[..selectedCount] == response.conversions;
  }

  /** A batch that settles after the read-back is lost to the page: with no
      earlier conversions on record, the results panel stays empty. */
  lemma LateBatchNotShown(st: ConversionState, d: ConversionStore.Durable, response: BatchConvertResponse)
    requires st.recentConversions == []
    ensures ShownAfterBatch(st, d, Success(response), |response.conversions|, false) == []
  {
  }

  /** `repeatConversion`: the form takes the pair and the original amount of
      an earlier conversion. */
  function RepeatConversion(form: ConvertForm, conversion: ConvertResponse): (r: ConvertForm)
    ensures r == ConvertForm(conversion.fromCurrency, conversion.toCurrency, Some(conversion.originalAmount))
  {
    form.(fromCurrency := conversion.fromCurrency, toCurrency := conversion.toCurrency,
          amount := Some(conversion.originalAmount))
  }

  /** Repeating a conversion whose currencies are set and whose amount passed
      the form's minimum produces the same request again. */
  lemma RepeatReissuesRequest(form: ConvertForm, conversion: ConvertResponse)
    requires conversion.fromCurrency != "" && conversion.toCurrency != "" && conversion.originalAmount >= MinAmount
    ensures OnConvert(RepeatConversion(form, conversion)) ==
            Some(ConvertRequest(conversion.fromCurrency, conversion.toCurrency, conversion.originalAmount))
  {
  }

  /** `selectFavorite`: the form takes the pair; the amount stays. */
  function SelectFavorite(form: ConvertForm, from: string, to: string): (r: ConvertForm)
    ensures r.fromCurrency == from && r.toCurrency == to && r.amount == form.amount
  {
    form.(fromCurrency := from, toCurrency := to)
  }

  /** Selecting a stored favourite with non-empty currencies makes a fresh
      evaluation of the star light up; the cached star as written does not
      follow (see `SelectFavoriteStarStaysOff`). */
  lemma SelectFavoriteIsFavorite(form: ConvertForm, favorites: seq<FavoritePair>, i: int)
    requires 0 <= i < |favorites|
    requires favorites[i].fromCurrency != "" && favorites[i].toCurrency != ""
    ensures IsFavorite(SelectFavorite(form, favorites[i].fromCurrency, favorites[i].toCurrency), favorites)
  {
  }
}

=== FILE: currency_list.dfy ===
/** The currency table: search filter, column sort and page slice.
    `toLowerCase` is the `fold` parameter and `localeCompare` the `collate`
    parameter (negative, zero or positive, as JavaScript returns it). */
module CurrencyList {
  import opened Wrappers
  import opened Text
  import opened Models
  import opened Seqs

  datatype Direction = Asc | Desc

  datatype ListState = ListState(
    searchTerm: string,
    pageSize: int,
    pageIndex: int,
    sortField: string,
    sortDirection: Direction)

  const InitialListState := ListState("", 20, 0, "code", Asc)

  type Fold = string -> string
  type Collate = (string, string) -> int

  // ---- filter ----

  /** A currency matches when its code, name or country, folded, includes the
      folded term; a missing country never matches. */
  function Matches(c: Currency, term: string, fold: Fold): (r: bool)
    ensures fold(term) == "" ==> r
    ensures c.country.None? ==> (r <==> Contains(fold(c.code), fold(term)) || Contains(fold(c.name), fold(term)))
  {
    ContainsSelfAndEmpty(fold(c.code));
    var t := fold(term);
    Contains(fold(c.code), t) || Contains(fold(c.name), t) ||
    (c.country.Some? && Contains(fold(c.country.value), t))
  }

  /** `currencies.filter(matches)` */
  function FilterMatching(cs: seq<Currency>, term: string, fold: Fold): (r: seq<Currency>)
    ensures forall c :: c in r <==> c in cs && Matches(c, term, fold)
    ensures forall c :: Matches(c, term, fold) ==> multiset(r)[c] == multiset(cs)[c]
    ensures |r| <= |cs|
  {
    if cs == [] then []
    else
      assert cs == [cs[0]] + cs[1..];
      if Matches(cs[0], term, fold) then [cs[0]] + FilterMatching(cs[1..], term, fold)
      else FilterMatching(cs[1..], term, fold)
  }

  /** Filtering keeps the survivors in their original order. */
  lemma {:induction false} FilterIsSubsequence(cs: seq<Currency>, term: string, fold: Fold)
    ensures Subsequence(FilterMatching(cs, term, fold), cs)
  {
    if cs != [] {
      FilterIsSubsequence(cs[1..], term, fold);
      if Matches(cs[0], term, fold) {
        assert FilterMatching(cs, term, fold)[1..] == FilterMatching(cs[1..], term, fold);
      } else {
        SubsequenceDropHead(FilterMatching(cs[1..], term, fold), cs);
      }
    }
  }

  /** The search step: an empty term keeps everything. */
  function Search(cs: seq<Currency>, term: string, fold: Fold): (r: seq<Currency>)
    ensures term == "" ==> r == cs
    ensures term != "" ==> r == FilterMatching(cs, term, fold)
  {
    if Truthy(term) then FilterMatching(cs, term, fold) else cs
  }

  // ---- sort ----

  /** `String(c[field] ?? '')` for the table's columns; any other field
      name reads as missing. */
  function FieldText(c: Currency, field: string): (r: string)
    ensures field !in {"code", "symbol", "name", "country", "decimalPlaces"} ==> r == ""
    ensures field == "country" && c.country.None? ==> r == ""
    ensures field in {"code", "symbol", "name"} ==> r == (if field == "code" then c.code
                                                           else if field == "symbol" then c.symbol else c.name)
  {
    if field == "code" then c.code
    else if field == "symbol" then c.symbol
    else if field == "name" then c.name
    else if field == "country" then c.country.GetOr("")
    else if field == "decimalPlaces" then IntToString(c.decimalPlaces)
    else ""
  }

  /** The sort comparator: `localeCompare` on the field's text, negated for a
      descending sort. */
  function Compare(a: Currency, b: Currency, field: string, dir: Direction, collate: Collate): (r: int)
    ensures r == 0 <==> collate(FieldText(a, field), FieldText(b, field)) == 0
    ensures dir == Desc ==> r == -collate(FieldText(a, field), FieldText(b, field))
  {
    var c := collate(FieldText(a, field), FieldText(b, field));
    if dir == Asc then c else -c
  }

  /** Places `x` before the first element it does not sort after. */
  function Insert(x: Currency, s: seq<Currency>, field: string, dir: Direction, collate: Collate): (r: seq<Currency>)
    ensures multiset(r) == multiset(s) + multiset{x}
    ensures |r| == |s| + 1
  {
    if s == [] then [x]
    else if Compare(x, s[0], field, dir, collate) <= 0 then [x] + s
    else
      assert s == [s[0]] + s[1..];
      [s[0]] + Insert(x, s[1..], field, dir, collate)
  }

  /** `currencies.sort(comparator)`, as an insertion sort that keeps equal
      elements in their original order. */
  function SortCurrencies(cs: seq<Currency>, field: string, dir: Direction, collate: Collate): (r: seq<Currency>)
    ensures multiset(r) == multiset(cs)
    ensures |r| == |cs|
  {
    if cs == [] then []
    else
      assert cs == [cs[0]] + cs[1..];
      Insert(cs[0], SortCurrencies(cs[1..], field, dir, collate), field, dir, collate)
  }

  /** `localeCompare` behaves as a consistent order: swapping the arguments
      negates the result, and "not after" is transitive. */
  ghost predicate ConsistentCollation(collate: Collate) {
    && (forall x, y :: collate(x, y) == -collate(y, x))
    && (forall x, y, z :: collate(x, y) <= 0 && collate(y, z) <= 0 ==> collate(x, z) <= 0)
  }

  ghost predicate SortedBy(s: seq<Currency>, field: string, dir: Direction, collate: Collate) {
    forall i, j :: 0 <= i < j < |s| ==> Compare(s[i], s[j], field, dir, collate) <= 0
  }

  /** Under a consistent collation the comparator is total and transitive,
      ascending or descending. */
  lemma CompareConsistent(a: Currency, b: Currency, c: Currency, field: string, dir: Direction, collate: Collate)
    requires ConsistentCollation(collate)
    ensures Compare(a, b, field, dir, collate) <= 0 || Compare(b, a, field, dir, collate) <= 0
    ensures Compare(a, b, field, dir, collate) <= 0 && Compare(b, c, field, dir, collate) <= 0 ==>
              Compare(a, c, field, dir, collate) <= 0
  {
    var ta, tb, tc := FieldText(a, field), FieldText(b, field), FieldText(c, field);
    assert collate(ta, tb) == -collate(tb, ta);
    assert collate(tb, tc) == -collate(tc, tb);
    assert collate(ta, tc) == -collate(tc, ta);
    if dir == Desc && collate(ta, tb) >= 0 && collate(tb, tc) >= 0 {
      assert collate(tc, tb) <= 0 && collate(tb, ta) <= 0;
      assert collate(tc, ta) <= 0;
    }
  }

  /** Every element of an insertion is the inserted one or an old one. */
  lemma InsertMembers(x: Currency, s: seq<Currency>, field: string, dir: Direction, collate: Collate, y: Currency)
    requires y in Insert(x, s, field, dir, collate)
    ensures y == x || y in s
  {
    assert y in multiset(Insert(x, s, field, dir, collate));
  }

  /** Inserting in front of a sorted list that `x` does not sort after. */
  lemma InsertInFront(x: Currency, s: seq<Currency>, field: string, dir: Direction, collate: Collate)
    requires ConsistentCollation(collate)
    requires SortedBy(s, field, dir, collate)
    requires s != [] && Compare(x, s[0], field, dir, collate) <= 0
    ensures SortedBy([x] + s, field, dir, collate)
  {
    var r := [x] + s;
    forall i, j | 0 <= i < j < |r|
      ensures Compare(r[i], r[j], field, dir, collate) <= 0
    {
      if i == 0 && j > 1 {
        CompareConsistent(x, s[0], s[j - 1], field, dir, collate);
      } else if i > 0 {
        assert r[i] == s[i - 1] && r[j] == s[j - 1];
      }
    }
  }

  /** Putting a head before a sorted list of elements it does not sort after. */
  lemma ConsSorted(y: Currency, rest: seq<Currency>, field: string, dir: Direction, collate: Collate)
    requires SortedBy(rest, field, dir, collate)
    requires forall k | 0 <= k < |rest| :: Compare(y, rest[k], field, dir, collate) <= 0
    ensures SortedBy([y] + rest, field, dir, collate)
  {
    var r := [y] + rest;
    forall i, j | 0 <= i < j < |r|
      ensures Compare(r[i], r[j], field, dir, collate) <= 0
    {
      if i > 0 {
        assert r[i] == rest[i - 1] && r[j] == rest[j - 1];
      } else {
        assert r[j] == rest[j - 1];
      }
    }
  }

  lemma {:induction false} InsertSorted(x: Currency, s: seq<Currency>, field: string, dir: Direction, collate: Collate)
    requires ConsistentCollation(collate)
    requires SortedBy(s, field, dir, collate)
    ensures SortedBy(Insert(x, s, field, dir, collate), field, dir, collate)
  {
    if s == [] {
    } else if Compare(x, s[0], field, dir, collate) <= 0 {
      InsertInFront(x, s, field, dir, collate);
    } else {
      var rest := Insert(x, s[1..], field, dir, collate);
      assert SortedBy(s[1..], field, dir, collate) by {
        forall i, j | 0 <= i < j < |s[1..]|
          ensures Compare(s[1..][i], s[1..][j], field, dir, collate) <= 0
        {
          assert s[1..][i] == s[i + 1] && s[1..][j] == s[j + 1];
        }
      }
      InsertSorted(x, s[1..], field, dir, collate);
      forall k | 0 <= k < |rest|
        ensures Compare(s[0], rest[k], field, dir, collate) <= 0
      {
        InsertMembers(x, s[1..], field, dir, collate, rest[k]);
        if rest[k] == x {
          CompareConsistent(x, s[0], x, field, dir, collate);
        } else {
          var m :| 0 <= m < |s[1..]| && s[1..][m] == rest[k];
          assert s[m + 1] == rest[k];
        }
      }
      ConsSorted(s[0], rest, field, dir, collate);
      assert Insert(x, s, field, dir, collate) == [s[0]] + rest;
    }
  }

  /** With a consistent collation the sorted list is ordered by the
      comparator, ascending or descending. */
  lemma {:induction false} SortIsSorted(cs: seq<Currency>, field: string, dir: Direction, collate: Collate)
    requires ConsistentCollation(collate)
    ensures SortedBy(SortCurrencies(cs, field, dir, collate), field, dir, collate)
  {
    if cs != [] {
      SortIsSorted(cs[1..], field, dir, collate);
      InsertSorted(cs[0], SortCurrencies(cs[1..], field, dir, collate), field, dir, collate);
    }
  }

  /** The elements of `s` that compare equal to `k`, in their order in `s`. */
  function Ties(s: seq<Currency>, k: Currency, field: string, dir: Direction, collate: Collate): seq<Currency>
    decreases |s|
  {
    if s == [] then []
    else (if Compare(s[0], k, field, dir, collate) == 0 then [s[0]] else []) + Ties(s[1..], k, field, dir, collate)
  }

  /** Two elements that both compare equal to a third do not sort strictly
      apart. */
  lemma TiesDoNotSortApart(x: Currency, y: Currency, k: Currency, field: string, dir: Direction, collate: Collate)
    requires ConsistentCollation(collate)
    requires Compare(x, k, field, dir, collate) == 0 && Compare(y, k, field, dir, collate) == 0
    ensures Compare(x, y, field, dir, collate) <= 0
  {
    var tk, ty := FieldText(k, field), FieldText(y, field);
    assert collate(tk, ty) == -collate(ty, tk);
    assert Compare(k, y, field, dir, collate) <= 0;
    CompareConsistent(x, k, y, field, dir, collate);
  }

  /** Whatever ties with `k` does not sort strictly before `x`, when `x`
      itself ties with `k`. */
  ghost predicate TiesCompatible(x: Currency, k: Currency, field: string, dir: Direction, collate: Collate) {
    Compare(x, k, field, dir, collate) == 0 ==>
      forall y :: Compare(y, k, field, dir, collate) == 0 ==> Compare(x, y, field, dir, collate) <= 0
  }

  lemma ConsistentTiesCompatible(x: Currency, k: Currency, field: string, dir: Direction, collate: Collate)
    requires ConsistentCollation(collate)
    ensures TiesCompatible(x, k, field, dir, collate)
  {
    if Compare(x, k, field, dir, collate) == 0 {
      forall y | Compare(y, k, field, dir, collate) == 0
        ensures Compare(x, y, field, dir, collate) <= 0
      {
        TiesDoNotSortApart(x, y, k, field, dir, collate);
      }
    }
  }

  /** Elements that sort strictly apart do not both tie with `k`. */
  lemma TiesApartAreDisjoint(x: Currency, y: Currency, k: Currency, field: string, dir: Direction, collate: Collate)
    requires TiesCompatible(x, k, field, dir, collate)
    requires Compare(x, y, field, dir, collate) > 0
    ensures Ties([x], k, field, dir, collate) == [] || Ties([y], k, field, dir, collate) == []
  {
    assert [x][1..] == [] && [y][1..] == [];
  }

  /** `Ties` of a non-empty sequence splits at its head. */
  lemma TiesUnfold(s: seq<Currency>, k: Currency, field: string, dir: Direction, collate: Collate)
    requires s != []
    ensures Ties(s, k, field, dir, collate) == Ties([s[0]], k, field, dir, collate) + Ties(s[1..], k, field, dir, collate)
  {
    assert [s[0]][1..] == [];
  }

  lemma SwapPastEmpty(a: seq<Currency>, b: seq<Currency>, rest: seq<Currency>)
    requires a == [] || b == []
    ensures a + (b + rest) == b + (a + rest)
  {
    if a == [] {
      assert a + (b + rest) == b + rest;
    } else {
      assert b + (a + rest) == a + rest;
    }
  }

  /** Inserting `x` puts it ahead of every old element that ties with it. */
  lemma {:induction false} InsertKeepsTies(x: Currency, s: seq<Currency>, k: Currency, field: string, dir: Direction,
                                           collate: Collate)
    requires TiesCompatible(x, k, field, dir, collate)
    ensures Ties(Insert(x, s, field, dir, collate), k, field, dir, collate) ==
            Ties([x], k, field, dir, collate) + Ties(s, k, field, dir, collate)
    decreases |s|
  {
    var r := Insert(x, s, field, dir, collate);
    var tx := Ties([x], k, field, dir, collate);
    if s == [] {
      assert r == [x];
    } else if Compare(x, s[0], field, dir, collate) <= 0 {
      assert r[0] == x && r[1..] == s;
      TiesUnfold(r, k, field, dir, collate);
    } else {
      var t0 := Ties([s[0]], k, field, dir, collate);
      var rest := Ties(s[1..], k, field, dir, collate);
      assert r[0] == s[0] && r[1..] == Insert(x, s[1..], field, dir, collate);
      TiesUnfold(r, k, field, dir, collate);
      InsertKeepsTies(x, s[1..], k, field, dir, collate);
      TiesUnfold(s, k, field, dir, collate);
      // so far: Ties(r) == t0 + (tx + rest) and Ties(s) == t0 + rest
      TiesApartAreDisjoint(x, s[0], k, field, dir, collate);
      SwapPastEmpty(t0, tx, rest);
    }
  }

  /** The sort is stable: under a consistent collation, the elements that
      compare equal to any given one come out in their input order. */
  lemma {:induction false} SortIsStable(cs: seq<Currency>, k: Currency, field: string, dir: Direction,
                                        collate: Collate)
    requires ConsistentCollation(collate)
    ensures Ties(SortCurrencies(cs, field, dir, collate), k, field, dir, collate) == Ties(cs, k, field, dir, collate)
    decreases |cs|
  {
    if cs != [] {
      SortIsStable(cs[1..], k, field, dir, collate);
      ConsistentTiesCompatible(cs[0], k, field, dir, collate);
      InsertKeepsTies(cs[0], SortCurrencies(cs[1..], field, dir, collate), k, field, dir, collate);
    }
  }

  /** The search result for `term`, sorted by `field` in direction `dir`. */
  function Recompute(term: string, cs: seq<Currency>, field: string, dir: Direction, fold: Fold, collate: Collate)
    : seq<Currency>
  {
    SortCurrencies(Search(cs, term, fold), field, dir, collate)
  }

  /** `filteredCurrencies` as its definition intends it: the search result,
      sorted by the current field and direction. */
  function FilteredCurrencies(st: ListState, cs: seq<Currency>, fold: Fold, collate: Collate): (r: seq<Currency>)
    ensures multiset(r) == multiset(Search(cs, st.searchTerm, fold))
    ensures forall c :: c in r <==> c in cs && (st.searchTerm == "" || Matches(c, st.searchTerm, fold))
  {
    var found := Search(cs, st.searchTerm, fold);
    var r := Recompute(st.searchTerm, cs, st.sortField, st.sortDirection, fold, collate);
    assert forall c :: (c in r <==> c in multiset(r)) && (c in found <==> c in multiset(found));
    r
  }

  // ---- the cached view ----

  /** The cache of a `computed` signal: the inputs it read when it last ran
      and the list it produced. */
  datatype Memo = Memo(searchTerm: string, currencies: seq<Currency>, sortField: string, sortDirection: Direction,
                       value: seq<Currency>)

  /** The cache holds what its recorded inputs produce. */
  predicate MemoSound(m: Memo, fold: Fold, collate: Collate) {
    m.value == Recompute(m.searchTerm, m.currencies, m.sortField, m.sortDirection, fold, collate)
  }

  function Refresh(st: ListState, cs: seq<Currency>, fold: Fold, collate: Collate): (r: Memo)
    ensures MemoSound(r, fold, collate)
  {
    Memo(st.searchTerm, cs, st.sortField, st.sortDirection,
         Recompute(st.searchTerm, cs, st.sortField, st.sortDirection, fold, collate))
  }

  /** `filteredCurrencies` as written: the currency list and the two sort
      signals are tracked, but `searchTerm` is a plain field, so a cached
      list is reused after the search term alone has changed. */
  function FilteredAsWritten(memo: Option<Memo>, st: ListState, cs: seq<Currency>, fold: Fold, collate: Collate)
    : (r: Memo)
    ensures (memo.Some? && memo.value.currencies == cs && memo.value.sortField == st.sortField &&
             memo.value.sortDirection == st.sortDirection) ==> r == memo.value
    ensures (memo.None? || memo.value.currencies != cs || memo.value.sortField != st.sortField ||
             memo.value.sortDirection != st.sortDirection) ==> r.value == FilteredCurrencies(st, cs, fold, collate)
    ensures (memo.None? || MemoSound(memo.value, fold, collate)) ==> MemoSound(r, fold, collate)
  {
    match memo
    case Some(m) =>
      if m.currencies == cs && m.sortField == st.sortField && m.sortDirection == st.sortDirection then m
      else Refresh(st, cs, fold, collate)
    case None => Refresh(st, cs, fold, collate)
  }

  /** `filteredCurrencies` with the search term tracked as well: a cache that
      holds what its inputs produce always shows the current search. */
  function FilteredTracked(memo: Option<Memo>, st: ListState, cs: seq<Currency>, fold: Fold, collate: Collate)
    : (r: Memo)
    ensures (memo.None? || MemoSound(memo.value, fold, collate)) ==>
              r.value == FilteredCurrencies(st, cs, fold, collate) && MemoSound(r, fold, collate)
  {
    match memo
    case Some(m) =>
      if m.searchTerm == st.searchTerm && m.currencies == cs && m.sortField == st.sortField &&
         m.sortDirection == st.sortDirection then m
      else Refresh(st, cs, fold, collate)
    case None => Refresh(st, cs, fold, collate)
  }

  const Identity: Fold := (s: string) => s
  const Flat: Collate := (a: string, b: string) => 0
  const DollarRow := Currency("USD", "Dollar", "$", 2, None)
  const EuroRow := Currency("EUR", "Euro", "E", 2, None)

  lemma DollarMissesEur()
    ensures !Matches(DollarRow, "EUR", Identity)
  {
    assert !Contains("USD", "EUR") by {
      assert "USD"[0..3][0] == 'U';
    }
    assert !Contains("Dollar", "EUR") by {
      forall i | 0 <= i <= 6
        ensures !OccursAt("Dollar", "EUR", i)
      {
        if 0 <= i && i + 3 <= 6 {
          assert "Dollar"[i..i + 3][0] != 'E';
        }
      }
    }
  }

  lemma EuroMatchesEur()
    ensures Matches(EuroRow, "EUR", Identity)
  {
    assert Contains("EUR", "EUR") by {
      assert "EUR"[0..3] == "EUR";
      assert OccursAt("EUR", "EUR", 0);
    }
  }

  /** As written, typing a search term that excludes a currency leaves it on
      screen: after the list was shown once, `onSearch` changes no tracked
      input, so the cached unfiltered list comes back; the tracked version
      shows the filtered list. */
  lemma SearchIgnoredAsWritten()
    ensures var cs := [DollarRow, EuroRow];
            var shown := FilteredAsWritten(None, InitialListState, cs, Identity, Flat);
            var searched := OnSearch(InitialListState, "EUR");
            var stale := FilteredAsWritten(Some(shown), searched, cs, Identity, Flat).value;
            var fixed := FilteredTracked(Some(shown), searched, cs, Identity, Flat).value;
            && DollarRow in stale && !Matches(DollarRow, "EUR", Identity)
            && DollarRow !in fixed && EuroRow in fixed
  {
    var cs := [DollarRow, EuroRow];
    var shown := FilteredAsWritten(None, InitialListState, cs, Identity, Flat);
    var searched := OnSearch(InitialListState, "EUR");
    assert DollarRow in cs && EuroRow in cs;
    assert DollarRow in shown.value;
    assert FilteredAsWritten(Some(shown), searched, cs, Identity, Flat) == shown;
    DollarMissesEur();
    EuroMatchesEur();
    var fixed := FilteredTracked(Some(shown), searched, cs, Identity, Flat).value;
    assert fixed == FilteredCurrencies(searched, cs, Identity, Flat);
  }

  // ---- paging ----

  /** `paginatedCurrencies`: `slice(pageIndex * pageSize, pageIndex * pageSize + pageSize)`. */
  function Page<T>(s: seq<T>, pageIndex: int, pageSize: int): (r: seq<T>)
    ensures pageSize >= 0 ==> |r| <= pageSize
    ensures pageIndex >= 0 && pageSize >= 0 && pageIndex * pageSize <= |s| ==>
              r == s[pageIndex * pageSize .. if pageIndex * pageSize + pageSize < |s| then pageIndex * pageSize + pageSize else |s|]
    ensures pageIndex >= 0 && pageSize >= 0 && pageIndex * pageSize >= |s| ==> r == []
  {
    Slice(s, pageIndex * pageSize, pageIndex * pageSize + pageSize)
  }

  /** The first `k` pages, one after another. */
  function Pages<T>(s: seq<T>, k: nat, pageSize: int): seq<T> {
    if k == 0 then [] else Pages(s, k - 1, pageSize) + Page(s, k - 1, pageSize)
  }

  /** Paging loses and repeats nothing: the first `k` pages are exactly the
      first `k * pageSize` entries. */
  lemma {:induction false} PagesCoverPrefix<T>(s: seq<T>, k: nat, pageSize: nat)
    ensures Pages(s, k, pageSize) == Take(s, k * pageSize)
  {
    if k > 0 {
      PagesCoverPrefix(s, k - 1, pageSize);
      var start := (k - 1) * pageSize;
      assert k * pageSize == start + pageSize;
      assert start >= 0;
      if start <= |s| {
        var end := if start + pageSize < |s| then start + pageSize else |s|;
        assert Page(s, k - 1, pageSize) == s[start..end];
        assert Take(s, start) == s[..start];
        assert Take(s, k * pageSize) == s[..end];
        assert s[..start] + s[start..end] == s[..end];
      } else {
        assert Page(s, k - 1, pageSize) == [];
      }
    }
  }

  // ---- events ----

  /** `onSearch`: a new term always starts from the first page. */
  function OnSearch(st: ListState, term: string): (r: ListState)
    ensures r.searchTerm == term && r.pageIndex == 0
    ensures r.(searchTerm := st.searchTerm, pageIndex := st.pageIndex) == st
  {
    st.(searchTerm := term, pageIndex := 0)
  }

  /** `sortChange`: an empty column falls back to "code" and an empty
      direction (`None`) to ascending. */
  function SortChange(st: ListState, active: string, direction: Option<Direction>): (r: ListState)
    ensures r.sortField == (if active == "" then "code" else active)
    ensures r.sortDirection == direction.GetOr(Asc)
    ensures r.(sortField := st.sortField, sortDirection := st.sortDirection) == st
  {
    st.(sortField := OrElse(active, "code"), sortDirection := direction.GetOr(Asc))
  }

  /** `onPageChange` */
  function OnPageChange(st: ListState, pageIndex: int, pageSize: int): (r: ListState)
    ensures r.pageIndex == pageIndex && r.pageSize == pageSize
    ensures r.(pageIndex := st.pageIndex, pageSize := st.pageSize) == st
  {
    st.(pageIndex := pageIndex, pageSize := pageSize)
  }
}

=== FILE: currency_service.dfy ===
/** The currency endpoints' query parameters. */
module CurrencyService {
  import opened Wrappers
  import opened Models
  import opened Http

  /** `getCurrencies(params)`: the pagination block alone. */
  function CurrenciesParams(p: PaginationParams): (r: Params)
    ensures Lookup(r, "pageNumber") == TruthyNumberParam(p.pageNumber)
    ensures Lookup(r, "pageSize") == TruthyNumberParam(p.pageSize)
    ensures forall k :: k != "pageNumber" && k != "pageSize" ==> Lookup(r, k) == None
  {
    PagingParams(p)
  }

  const DefaultBase := "USD"

  /** `getRates(baseCurrency = 'USD')`: sent as `base`; the default applies
      only when the argument is `undefined`, so an empty string is sent. */
  function RatesParams(baseCurrency: Option<string>): (r: Params)
    ensures Lookup(r, "base") == Some(Text(if baseCurrency.None? then DefaultBase else baseCurrency.value))
    ensures forall k :: k != "base" ==> Lookup(r, k) == None
  {
    Set([], "base", Text(baseCurrency.GetOr(DefaultBase)))
  }

  /** `undefined` and an explicit "USD" ask for the same rates, while an
      explicit empty string does not. */
  lemma RatesDefaultIsUsd()
    ensures RatesParams(None) == RatesParams(Some("USD"))
    ensures RatesParams(Some("")) != RatesParams(None)
  {
    assert Lookup(RatesParams(Some("")), "base") != Lookup(RatesParams(None), "base");
  }
}

=== FILE: currency_store.dfy ===
/** The currency store: the currency list, the latest exchange-rate table
    and when it arrived, the base currency and the selected currencies. The
    clock is the `now` parameter (milliseconds). */
module CurrencyStore {
  import opened Wrappers
  import opened Text
  import opened Models
  import opened Http
  import opened Seqs
  import CurrencyService

  /** Rates older than this many milliseconds are stale. */
  const OneHour := 60 * 60 * 1000

  // ---- computed views ----

  /** `getCurrencyByCode(code)`: the first currency with that code. */
  function GetCurrencyByCode(currencies: seq<Currency>, code: string): (r: Option<Currency>)
    ensures r.Some? <==> exists i | 0 <= i < |currencies| :: currencies[i].code == code
    ensures r.Some? ==> r.value.code == code
    ensures r.Some? ==> exists i | 0 <= i < |currencies| ::
                          currencies[i] == r.value && forall j | 0 <= j < i :: currencies[j].code != code
  {
    if currencies == [] then None
    else if currencies[0].code == code then Some(currencies[0])
    else
      var r := GetCurrencyByCode(currencies[1..], code);
      assert r.Some? ==> exists i | 0 <= i < |currencies| ::
                           currencies[i] == r.value && forall j | 0 <= j < i :: currencies[j].code != code by {
        if r.Some? {
          var i :| 0 <= i < |currencies[1..]| && currencies[1..][i] == r.value &&
                   forall j | 0 <= j < i :: currencies[1..][j].code != code;
          assert currencies[i + 1] == r.value;
          assert forall j | 0 <= j < i + 1 :: currencies[j].code != code;
        }
      }
      r
  }

  /** `getRateForCurrency(code)`: `null` without a rate table or without an
      entry for the code; a rate of 0 is returned as it is. */
  function GetRateForCurrency(st: CurrencyState, code: string): (r: Option<real>)
    ensures r.Some? <==> st.rates.Some? && code in st.rates.value.rates
    ensures r.Some? ==> r.value == st.rates.value.rates[code]
  {
    match st.rates
    case None => None
    case Some(table) => if code in table.rates then Some(table.rates[code]) else None
  }

  /** One entry of `ratesArray`. */
  datatype RateRow = RateRow(code: string, rate: real, baseCurrency: string)

  /** `ratesArray`: one row per rate key, each tagged with the table's base.
      The order of `Object.entries` is not modelled, so the rows are a set. */
  function RatesArray(st: CurrencyState): (r: set<RateRow>)
    ensures st.rates.None? ==> r == {}
    ensures forall row :: row in r <==>
              st.rates.Some? && row.code in st.rates.value.rates &&
              row.rate == st.rates.value.rates[row.code] && row.baseCurrency == st.rates.value.baseCurrency
  {
    match st.rates
    case None => {}
    case Some(table) => set code | code in table.rates :: RateRow(code, table.rates[code], table.baseCurrency)
  }

  /** `ratesArray` and `getRateForCurrency` agree: a row exists for a code
      exactly when a rate does, and it carries that rate. */
  lemma RatesArrayAgreesWithLookup(st: CurrencyState, code: string)
    ensures GetRateForCurrency(st, code).Some? <==> exists row :: row in RatesArray(st) && row.code == code
    ensures forall row :: row in RatesArray(st) && row.code == code ==>
              GetRateForCurrency(st, code) == Some(row.rate)
  {
    if GetRateForCurrency(st, code).Some? {
      assert RateRow(code, st.rates.value.rates[code], st.rates.value.baseCurrency) in RatesArray(st);
    }
  }

  /** `isStale` evaluated at `now`: no recorded update is stale; otherwise
      stale once strictly more than an hour has passed since it. */
  function IsStale(st: CurrencyState, now: int): (r: bool)
    ensures st.lastUpdated.None? ==> r
    ensures st.lastUpdated.Some? ==> (r <==> now > st.lastUpdated.value + OneHour)
  {
    match st.lastUpdated
    case None => true
    case Some(at) => now - at > OneHour
  }

  /** Staleness only ever sets in: once stale, stale at every later instant. */
  lemma IsStaleMonotone(st: CurrencyState, earlier: int, later: int)
    requires earlier <= later
    ensures IsStale(st, earlier) ==> IsStale(st, later)
  {
  }

  /** One entry of `currencyOptions`; `labelText` is its `label`. */
  datatype CurrencyOption = CurrencyOption(value: string, labelText: string, symbol: string)

  /** `currencyOptions`: one option per currency, in order. */
  function CurrencyOptions(currencies: seq<Currency>): (r: seq<CurrencyOption>)
    ensures |r| == |currencies|
    ensures forall i | 0 <= i < |r| ::
              r[i] == CurrencyOption(currencies[i].code, currencies[i].code + " - " + currencies[i].name,
                                     currencies[i].symbol)
  {
    if currencies == [] then []
    else [CurrencyOption(currencies[0].code, currencies[0].code + " - " + currencies[0].name, currencies[0].symbol)]
         + CurrencyOptions(currencies[1..])
  }

  // ---- transitions ----

  /** A transition that issues a rate request: the new state and the query
      sent. */
  datatype RatesLoad = RatesLoad(state: CurrencyState, query: Params)

  /** `loadCurrencies` */
  function LoadCurrencies(st: CurrencyState, outcome: Result<seq<Currency>, Failure>): (r: CurrencyState)
    ensures outcome.Success? ==> r == st.(currencies := outcome.value, isLoading := false, error := None)
    ensures outcome.Failure? ==>
              r == st.(isLoading := false,
                       error := Some(OrElse(HandleError(outcome.error).message, "Failed to load currencies")))
  {
    var started := st.(isLoading := true, error := None);
    match Rethrow(outcome)
    case Success(currencies) => started.(currencies := currencies, isLoading := false, error := None)
    case Failure(e) => started.(isLoading := false, error := Some(OrElse(e.message, "Failed to load currencies")))
  }

  /** `loadRates(baseCurrency?)`: asks for the argument when it is a
      non-empty string, else for the stored base. Success stores the table,
      that base and `now`; failure keeps table, base and time. */
  function LoadRates(st: CurrencyState, baseCurrency: Option<string>, outcome: Result<RatesResponse, Failure>,
                     now: int): (r: RatesLoad)
    ensures var base := if TruthyText(baseCurrency) then baseCurrency.value else st.baseCurrency;
            && Lookup(r.query, "base") == Some(Text(base))
            && (outcome.Success? ==>
                  r.state == st.(rates := Some(outcome.value), baseCurrency := base, lastUpdated := Some(now),
                                 isLoading := false, error := None))
    ensures outcome.Failure? ==>
              r.state == st.(isLoading := false,
                             error := Some(OrElse(HandleError(outcome.error).message, "Failed to load exchange rates")))
  {
    var started := st.(isLoading := true, error := None);
    var base := OrElse(baseCurrency.GetOr(""), st.baseCurrency);
    var query := CurrencyService.RatesParams(Some(base));
    match Rethrow(outcome)
    case Success(table) =>
      RatesLoad(started.(rates := Some(table), baseCurrency := base, lastUpdated := Some(now),
                         isLoading := false, error := None), query)
    case Failure(e) =>
      RatesLoad(started.(isLoading := false, error := Some(OrElse(e.message, "Failed to load exchange rates"))), query)
  }

  /** A tick of the auto-refresh poll: asks for the stored base; success
      replaces only the table and the time, failure changes nothing. */
  function PollTick(st: CurrencyState, outcome: Result<RatesResponse, Failure>, now: int): (r: RatesLoad)
    ensures Lookup(r.query, "base") == Some(Text(st.baseCurrency))
    ensures outcome.Success? ==> r.state == st.(rates := Some(outcome.value), lastUpdated := Some(now))
    ensures outcome.Failure? ==> r.state == st
  {
    var query := CurrencyService.RatesParams(Some(st.baseCurrency));
    match outcome
    case Success(table) => RatesLoad(st.(rates := Some(table), lastUpdated := Some(now)), query)
    case Failure(_) => RatesLoad(st, query)
  }

  /** Rates fetched at `now`, by a load or a poll tick, stay fresh for
      exactly one hour. */
  lemma FreshForAnHour(st: CurrencyState, base: Option<string>, table: RatesResponse, now: int, later: int)
    ensures var loaded := LoadRates(st, base, Success(table), now).state;
            var polled := PollTick(st, Success(table), now).state;
            now <= later <= now + OneHour ==> !IsStale(loaded, later) && !IsStale(polled, later)
    ensures var loaded := LoadRates(st, base, Success(table), now).state;
            var polled := PollTick(st, Success(table), now).state;
            later > now + OneHour ==> IsStale(loaded, later) && IsStale(polled, later)
  {
  }

  // ---- the cached staleness view ----

  /** The cache of the `isStale` computed signal: the `lastUpdated` value it
      read when it last ran, which is the only signal it tracks, and the
      answer it gave. The clock is read inside but is not a signal. */
  datatype StaleMemo = StaleMemo(lastUpdated: Option<int>, value: bool)

  /** `isStale` as written: the answer is recomputed only when `lastUpdated`
      has changed since the last evaluation; otherwise the cached answer is
      served, however much time has passed. */
  function StaleAsWritten(memo: Option<StaleMemo>, st: CurrencyState, now: int): (r: StaleMemo)
    ensures r.lastUpdated == st.lastUpdated
    ensures (memo.Some? && memo.value.lastUpdated == st.lastUpdated) ==> r == memo.value
    ensures (memo.None? || memo.value.lastUpdated != st.lastUpdated) ==> r.value == IsStale(st, now)
  {
    match memo
    case Some(m) => if m.lastUpdated == st.lastUpdated then m else StaleMemo(st.lastUpdated, IsStale(st, now))
    case None => StaleMemo(st.lastUpdated, IsStale(st, now))
  }

  /** As written, rates read as fresh once keep reading as fresh while every
      poll fails: loaded at `t0` and read a second later, the view still
      says fresh two hours on, although the rates are then stale. */
  lemma StaleStuckAsWritten(st: CurrencyState, table: RatesResponse, failure: Failure, t0: int)
    ensures var loaded := LoadRates(st, None, Success(table), t0).state;
            var shown := StaleAsWritten(None, loaded, t0 + 1000);
            var polled := PollTick(loaded, Failure(failure), t0 + 2 * OneHour).state;
            && !shown.value
            && !StaleAsWritten(Some(shown), polled, t0 + 2 * OneHour).value
            && IsStale(polled, t0 + 2 * OneHour)
  {
  }

  /** `setBaseCurrency`: the rate table is left as it is. */
  function SetBaseCurrency(st: CurrencyState, base: string): (r: CurrencyState)
    ensures r.baseCurrency == base && r.(baseCurrency := st.baseCurrency) == st
  {
    st.(baseCurrency := base)
  }

  /** `toggleSelectedCurrency`: removes every copy of a selected code, appends
      an unselected one. */
  function ToggleSelectedCurrency(st: CurrencyState, code: string): (r: CurrencyState)
    ensures code in r.selectedCurrencies <==> code !in st.selectedCurrencies
    ensures forall c :: c != code ==> (c in r.selectedCurrencies <==> c in st.selectedCurrencies)
    ensures code !in st.selectedCurrencies ==> r.selectedCurrencies == st.selectedCurrencies + [code]
    ensures r == st.(selectedCurrencies := r.selectedCurrencies)
  {
    var current := st.selectedCurrencies;
    st.(selectedCurrencies := if code in current then Without(current, code) else current + [code])
  }

  /** Toggling a code twice restores membership of every code; for a code
      that was not selected it restores the exact list. */
  lemma {:induction false} ToggleSelectedTwice(st: CurrencyState, code: string)
    ensures var twice := ToggleSelectedCurrency(ToggleSelectedCurrency(st, code), code);
            && (forall c :: c in twice.selectedCurrencies <==> c in st.selectedCurrencies)
            && (code !in st.selectedCurrencies ==> twice == st)
  {
    if code !in st.selectedCurrencies {
      WithoutAppend(st.selectedCurrencies, [code], code);
      assert Without([code], code) == [];
      assert st.selectedCurrencies + [] == st.selectedCurrencies;
    }
  }

  /** `setSelectedCurrencies` */
  function SetSelectedCurrencies(st: CurrencyState, codes: seq<string>): (r: CurrencyState)
    ensures r.selectedCurrencies == codes && r.(selectedCurrencies := st.selectedCurrencies) == st
  {
    st.(selectedCurrencies := codes)
  }

  /** `clearError` */
  function ClearError(st: CurrencyState): (r: CurrencyState)
    ensures r.error == None && r.(error := st.error) == st
  {
    st.(error := None)
  }
}

=== FILE: http.dfy ===
/** What the services share: how a failed call is turned into an `Error`,
    how an `ApiResponse` envelope is opened, query parameters, outgoing
    requests and navigation commands. */
module Http {
  import opened Wrappers
  import opened Text
  import opened Models

  /** What an observable errors with: either an `Error` instance (thrown by
      the services themselves) or an `HttpErrorResponse`, which is not an
      `Error`. `bodyMessage` is `error.error?.message`, `topMessage` is `error.message`. */
  datatype Failure =
    | ErrorObject(message: string)
    | HttpErrorResponse(status: int, bodyMessage: Option<string>, topMessage: Option<string>)

  /** The `Error` a service rethrows. */
  datatype JsError = JsError(message: string)

  /** `x?.message` used under `||`: an absent message is as falsy as "". */
  function MessageOr(m: Option<string>, fallback: string): string {
    OrElse(m.GetOr(""), fallback)
  }

  const DefaultErrorMessage := "An error occurred"

  /** `handleError`, written identically in every service: an `Error` passes
      through; otherwise the nested message, then the top-level message, then
      a fixed fallback. */
  function HandleError(f: Failure): (e: JsError)
    ensures f.ErrorObject? ==> e == JsError(f.message)
    ensures f.HttpErrorResponse? ==> Truthy(e.message)
    ensures f.HttpErrorResponse? && f.bodyMessage.Some? && Truthy(f.bodyMessage.value) ==>
              e.message == f.bodyMessage.value
    ensures f.HttpErrorResponse? && !(f.bodyMessage.Some? && Truthy(f.bodyMessage.value)) ==>
              e.message == MessageOr(f.topMessage, DefaultErrorMessage)
  {
    match f
    case ErrorObject(m) => JsError(m)
    case HttpErrorResponse(_, body, m) =>
      JsError(OrElse(body.GetOr(""), MessageOr(m, DefaultErrorMessage)))
  }

  /** Normalising an error that was already normalised changes nothing, so a
      caller further up the chain sees the message the service produced. */
  lemma HandleErrorIdempotent(f: Failure)
    ensures HandleError(ErrorObject(HandleError(f).message)) == HandleError(f)
  {
  }

  /** The `map` step after an authentication endpoint: a response that is not
      `success` or has no `data` becomes `new Error(message || fallback)`. */
  function OpenEnvelope<T>(response: ApiResponse<T>, fallback: string): (r: Result<T, JsError>)
    ensures r.Success? <==> response.success && response.data.Some?
    ensures r.Success? ==> response.data == Some(r.value)
    ensures r.Failure? ==> r.error == JsError(MessageOr(response.message, fallback))
  {
    if !response.success || response.data.None? then Failure(JsError(MessageOr(response.message, fallback)))
    else Success(response.data.value)
  }

  /** `http.post(...).pipe(map(open envelope), catchError(handleError))`:
      what the caller of an authentication endpoint receives. */
  function CallAuthEndpoint<T>(outcome: Result<ApiResponse<T>, Failure>, fallback: string): (r: Result<T, JsError>)
    ensures r.Success? <==> outcome.Success? && outcome.value.success && outcome.value.data.Some?
    ensures r.Success? ==> outcome.value.data == Some(r.value)
    ensures outcome.Success? && r.Failure? ==> Truthy(r.error.message) || !Truthy(fallback)
  {
    match outcome
    case Failure(f) => Failure(HandleError(f))
    case Success(response) =>
      match OpenEnvelope(response, fallback)
      case Success(v) => Success(v)
      case Failure(e) => Failure(HandleError(ErrorObject(e.message)))
  }

  /** `http.get/post(...).pipe(catchError(e => throwError(() => handleError(e))))`:
      a response passes through, a failure is normalised. */
  function Rethrow<T>(outcome: Result<T, Failure>): (r: Result<T, JsError>)
    ensures r.Success? <==> outcome.Success?
    ensures r.Success? ==> r.value == outcome.value
    ensures r.Failure? ==> r.error == HandleError(outcome.error)
  {
    match outcome
    case Success(v) => Success(v)
    case Failure(f) => Failure(HandleError(f))
  }

  // ---- navigation ----

  /** `router.navigate([path], { queryParams })` */
  datatype Nav = Nav(path: string, query: seq<(string, string)>)

  const LoginPath := "/auth/login"

  // ---- outgoing requests ----

  datatype HttpRequest = HttpRequest(url: string, headers: map<string, string>)

  // ---- query parameters ----

  /** A query-parameter value before it is turned into text: `toString()` of a
      number and `toISOString()` of a date are kept abstract. */
  datatype Value = Text(s: string) | Number(x: real) | Instant(ms: int)

  /** `HttpParams` in insertion order. */
  type Params = seq<(string, Value)>

  /** `params.get(key)`: the first entry under `key`. */
  function Lookup(ps: Params, key: string): Option<Value> {
    if ps == [] then None
    else if ps[0].0 == key then Some(ps[0].1)
    else Lookup(ps[1..], key)
  }

  /** `params.set(key, value)`: replaces the entry under `key` in place, or
      appends one; every other key keeps its value. */
  function Set(ps: Params, key: string, value: Value): (r: Params)
    ensures Lookup(r, key) == Some(value)
    ensures forall k :: k != key ==> Lookup(r, k) == Lookup(ps, k)
    ensures |r| == |ps| || |r| == |ps| + 1
  {
    if ps == [] then [(key, value)]
    else if ps[0].0 == key then [(key, value)] + ps[1..]
    else [ps[0]] + Set(ps[1..], key, value)
  }

  /** `if (cond) params = params.set(key, value)` */
  function SetIf(ps: Params, cond: bool, key: string, value: Value): (r: Params)
    ensures cond ==> Lookup(r, key) == Some(value)
    ensures !cond ==> r == ps
    ensures forall k :: k != key ==> Lookup(r, k) == Lookup(ps, k)
  {
    if cond then Set(ps, key, value) else ps
  }

  /** JavaScript truthiness of an optional number: `undefined` and 0 are falsy. */
  predicate TruthyNumber(n: Option<int>) {
    n.Some? && n.value != 0
  }

  /** JavaScript truthiness of an optional string. */
  predicate TruthyText(s: Option<string>) {
    s.Some? && Truthy(s.value)
  }

  // ---- what each builder sends under a key ----

  /** A number added under `if (x)`: only when defined and non-zero. */
  function TruthyNumberParam(n: Option<int>): Option<Value> {
    if TruthyNumber(n) then Some(Number(n.value as real)) else None
  }

  /** A number added under `if (x !== undefined)`: zero included. */
  function DefinedNumberParam(x: Option<real>): Option<Value> {
    match x
    case Some(v) => Some(Number(v))
    case None => None
  }

  /** A string added under `if (x)`: only when defined and non-empty. */
  function TruthyTextParam(s: Option<string>): Option<Value> {
    if TruthyText(s) then Some(Text(s.value)) else None
  }

  /** A `Date` added under `if (x)`: a `Date` object is always truthy, so
      whenever it is defined. */
  function DateParam(d: Option<int>): Option<Value> {
    match d
    case Some(ms) => Some(Instant(ms))
    case None => None
  }

  /** The pagination block every paged service call starts with. */
  function PagingParams(p: PaginationParams): (r: Params)
    ensures Lookup(r, "pageNumber") == TruthyNumberParam(p.pageNumber)
    ensures Lookup(r, "pageSize") == TruthyNumberParam(p.pageSize)
    ensures forall k :: k != "pageNumber" && k != "pageSize" ==> Lookup(r, k) == None
  {
    var ps := SetIf([], TruthyNumber(p.pageNumber), "pageNumber", Number(p.pageNumber.GetOr(0) as real));
    SetIf(ps, TruthyNumber(p.pageSize), "pageSize", Number(p.pageSize.GetOr(0) as real))
  }
}

=== FILE: models.dfy ===
/** The records exchanged with the API and held by the stores, with their
    initial states. JavaScript numbers that are counts or instants are `int`
    (instants in milliseconds since the epoch), money amounts and rates `real`. */
module Models {
  import opened Wrappers

  // ---- api.models.ts ----

  /** Envelope of the authentication endpoints. */
  datatype ApiResponse<T> = ApiResponse(success: bool, data: Option<T>, message: Option<string>)

  datatype PagedResponse<T> = PagedResponse(
    items: seq<T>,
    pageNumber: int,
    pageSize: int,
    totalCount: int)

  /** Optional paging numbers; `None` is `undefined`. */
  datatype PaginationParams = PaginationParams(pageNumber: Option<int>, pageSize: Option<int>)

  // ---- auth.models.ts ----

  /** `UserDto`. The role is kept as the string the server sent. */
  datatype User = User(id: string, username: string, email: string, role: string, isActive: bool)

  datatype LoginResponse = LoginResponse(
    accessToken: string,
    refreshToken: string,
    tokenType: string,
    expiresIn: int,
    user: User)

  datatype AuthState = AuthState(
    user: Option<User>,
    accessToken: Option<string>,
    refreshToken: Option<string>,
    isAuthenticated: bool,
    isLoading: bool,
    error: Option<string>)

  const InitialAuthState := AuthState(None, None, None, false, false, None)

  // ---- conversion.models.ts ----

  datatype ConvertRequest = ConvertRequest(fromCurrency: string, toCurrency: string, amount: real)

  datatype ConvertResponse = ConvertResponse(
    fromCurrency: string,
    toCurrency: string,
    originalAmount: real,
    convertedAmount: real,
    exchangeRate: real,
    timestamp: int)

  datatype BatchConvertResponse = BatchConvertResponse(
    conversions: seq<ConvertResponse>,
    successCount: int,
    failedCount: int)

  /** `ConversionHistoryDto` */
  datatype HistoryEntry = HistoryEntry(
    id: string,
    fromCurrency: string,
    toCurrency: string,
    originalAmount: real,
    convertedAmount: real,
    exchangeRate: real,
    status: string,
    createdAt: int)

  datatype FavoritePair = FavoritePair(fromCurrency: string, toCurrency: string)

  datatype ConversionState = ConversionState(
    recentConversions: seq<ConvertResponse>,
    history: seq<HistoryEntry>,
    favorites: seq<FavoritePair>,
    isLoading: bool,
    isConverting: bool,
    error: Option<string>,
    totalHistoryCount: int,
    currentPage: int,
    pageSize: int)

  const InitialConversionState := ConversionState([], [], [], false, false, None, 0, 1, 10)

  /** `ConversionHistoryFilter`; dates are instants. */
  datatype HistoryFilter = HistoryFilter(
    startDate: Option<int>,
    endDate: Option<int>,
    fromCurrency: Option<string>,
    toCurrency: Option<string>,
    minAmount: Option<real>,
    maxAmount: Option<real>)

  // ---- currency.models.ts ----

  /** `CurrencyDto` */
  datatype Currency = Currency(
    code: string,
    name: string,
    symbol: string,
    decimalPlaces: int,
    country: Option<string>)

  /** `ExchangeRatesResponse`: rates keyed by target currency code. */
  datatype RatesResponse = RatesResponse(baseCurrency: string, lastUpdated: int, rates: map<string, real>)

  datatype CurrencyState = CurrencyState(
    currencies: seq<Currency>,
    rates: Option<RatesResponse>,
    baseCurrency: string,
    selectedCurrencies: seq<string>,
    isLoading: bool,
    error: Option<string>,
    lastUpdated: Option<int>)

  const InitialCurrencyState := CurrencyState([], None, "USD", [], false, None, None)

  // ---- admin.models.ts ----

  datatype LogFilter = LogFilter(
    level: Option<string>,
    startDate: Option<int>,
    endDate: Option<int>,
    endpoint: Option<string>,
    search: Option<string>)
}

/** The development environment's settings. */
module Environment {
  /** Seconds before the token's expiry at which a refresh becomes due. */
  const TokenRefreshThreshold: int := 300
  /** Milliseconds between two exchange-rate polls. */
  const RatePollInterval: int := 60000
}

=== FILE: register.dfy ===
/** The registration form's password meter and its password-match check.
    Character classes are the ASCII ranges of the regular expressions the
    meter tests; a character is any `char`. */
module Register {
  import opened Wrappers

  predicate IsLower(c: char) { 'a' <= c <= 'z' }
  predicate IsUpper(c: char) { 'A' <= c <= 'Z' }
  predicate IsDigit(c: char) { '0' <= c <= '9' }

  /** `/[a-z]/.test(s)` */
  predicate HasLower(s: string) { exists i | 0 <= i < |s| :: IsLower(s[i]) }
  /** `/[A-Z]/.test(s)` */
  predicate HasUpper(s: string) { exists i | 0 <= i < |s| :: IsUpper(s[i]) }
  /** `/[0-9]/.test(s)` */
  predicate HasDigit(s: string) { exists i | 0 <= i < |s| :: IsDigit(s[i]) }
  /** `/[^a-zA-Z0-9]/.test(s)` */
  predicate HasOther(s: string) { exists i | 0 <= i < |s| :: !IsLower(s[i]) && !IsUpper(s[i]) && !IsDigit(s[i]) }

  function Min(a: int, b: int): int { if a <= b then a else b }

  function Weight(holds: bool, w: int): int { if holds then w else 0 }

  /** `calculatePasswordStrength`: 0 for the empty password, otherwise 25 for
      eight characters, 10 more for twelve, and 15, 15, 20 and 15 for a
      lower-case letter, an upper-case letter, a digit and any other
      character, capped at 100. */
  function PasswordStrength(password: string): (r: int)
    ensures 0 <= r <= 100
    ensures r == 0 <==> password == ""
  {
    if password == "" then 0
    else
      assert IsLower(password[0]) || IsUpper(password[0]) || IsDigit(password[0]) ||
             (!IsLower(password[0]) && !IsUpper(password[0]) && !IsDigit(password[0]));
      Min(100, Weight(|password| >= 8, 25) + Weight(|password| >= 12, 10) + Weight(HasLower(password), 15) +
               Weight(HasUpper(password), 15) + Weight(HasDigit(password), 20) + Weight(HasOther(password), 15))
  }

  /** Every character belongs to one of the four classes, so any non-empty
      password scores at least 15. */
  lemma NonEmptyScoresAtLeast15(password: string)
    requires password != ""
    ensures PasswordStrength(password) >= 15
  {
    assert IsLower(password[0]) || IsUpper(password[0]) || IsDigit(password[0]) ||
           (!IsLower(password[0]) && !IsUpper(password[0]) && !IsDigit(password[0]));
  }

  /** The six weights add up to exactly 100, so the cap never lowers a score. */
  lemma CapNeverBinds(password: string)
    ensures password != "" ==>
              PasswordStrength(password) ==
              Weight(|password| >= 8, 25) + Weight(|password| >= 12, 10) + Weight(HasLower(password), 15) +
              Weight(HasUpper(password), 15) + Weight(HasDigit(password), 20) + Weight(HasOther(password), 15)
  {
  }

  /** Typing more characters never weakens a password. */
  lemma {:induction false} StrengthMonotone(password: string, more: string)
    ensures PasswordStrength(password) <= PasswordStrength(password + more)
  {
    var longer := password + more;
    if password != "" {
      assert longer != "";
      if HasLower(password) {
        var i :| 0 <= i < |password| && IsLower(password[i]);
        assert longer[i] == password[i];
      }
      if HasUpper(password) {
        var i :| 0 <= i < |password| && IsUpper(password[i]);
        assert longer[i] == password[i];
      }
      if HasDigit(password) {
        var i :| 0 <= i < |password| && IsDigit(password[i]);
        assert longer[i] == password[i];
      }
      if HasOther(password) {
        var i :| 0 <= i < |password| && !IsLower(password[i]) && !IsUpper(password[i]) && !IsDigit(password[i]);
        assert longer[i] == password[i];
      }
    }
  }

  /** `strengthLabel`: four bands, split at 30, 50 and 75. */
  function StrengthLabel(strength: int): (r: string)
    ensures r in {"Weak", "Fair", "Good", "Strong"}
    ensures r == "Weak" <==> strength < 30
    ensures r == "Strong" <==> strength >= 75
    ensures r == "Fair" <==> 30 <= strength < 50
  {
    if strength < 30 then "Weak"
    else if strength < 50 then "Fair"
    else if strength < 75 then "Good"
    else "Strong"
  }

  /** `strengthColor`: three bands, split at 30 and 75. */
  function StrengthColor(strength: int): (r: string)
    ensures r in {"warn", "accent", "primary"}
    ensures r == "warn" <==> strength < 30
    ensures r == "primary" <==> strength >= 75
  {
    if strength < 30 then "warn"
    else if strength < 75 then "accent"
    else "primary"
  }

  /** `strengthClass`: the same four bands as the label. */
  function StrengthClass(strength: int): (r: string)
    ensures r in {"weak", "fair", "good", "strong"}
    ensures r == "weak" <==> strength < 30
    ensures r == "strong" <==> strength >= 75
  {
    if strength < 30 then "weak"
    else if strength < 50 then "fair"
    else if strength < 75 then "good"
    else "strong"
  }

  /** ASCII lower-casing. */
  function ToLower(s: string): (r: string)
    ensures |r| == |s|
    ensures forall i | 0 <= i < |s| :: r[i] == if IsUpper(s[i]) then (s[i] as int + 32) as char else s[i]
  {
    if s == [] then []
    else [if IsUpper(s[0]) then (s[0] as int + 32) as char else s[0]] + ToLower(s[1..])
  }

  /** The class is the label in lower case, and the colour separates the
      same weak and strong bands as the label, merging "Fair" and "Good". */
  lemma ClassColorFollowLabel(strength: int)
    ensures StrengthClass(strength) == ToLower(StrengthLabel(strength))
    ensures StrengthColor(strength) == "warn" <==> StrengthLabel(strength) == "Weak"
    ensures StrengthColor(strength) == "primary" <==> StrengthLabel(strength) == "Strong"
    ensures StrengthColor(strength) == "accent" <==> StrengthLabel(strength) in {"Fair", "Good"}
  {
    var name := StrengthLabel(strength);
    var lowered := ToLower(name);
    assert lowered == StrengthClass(strength) by {
      assert |lowered| == |name|;
      forall i | 0 <= i < |name|
        ensures lowered[i] == StrengthClass(strength)[i]
      {
      }
    }
  }

  /** Position of a label on the meter. */
  function Rank(name: string): int {
    if name == "Weak" then 0 else if name == "Fair" then 1 else if name == "Good" then 2 else 3
  }

  /** A higher score never shows a lower label. */
  lemma LabelMonotone(low: int, high: int)
    requires low <= high
    ensures Rank(StrengthLabel(low)) <= Rank(StrengthLabel(high))
  {
  }

  /** An empty password shows as "Weak"; a password of eight or more
      characters with all four character classes shows as "Strong". */
  lemma LabelExamples(password: string)
    ensures StrengthLabel(PasswordStrength("")) == "Weak"
    ensures (|password| >= 8 && HasLower(password) && HasUpper(password) && HasDigit(password) &&
             HasOther(password)) ==> StrengthLabel(PasswordStrength(password)) == "Strong"
  {
  }

  // ---- the cached meter ----

  /** `passwordStrength` as written: a `computed` signal whose body reads the
      password control's value, which is not a signal. Having no tracked
      input, it is evaluated once, at its first read, and serves that score
      ever after. `first` is the score of that first read, if it happened. */
  function StrengthAsWritten(first: Option<int>, password: string): (r: int)
    ensures first.Some? ==> r == first.value
    ensures first.None? ==> r == PasswordStrength(password)
  {
    match first
    case Some(score) => score
    case None => PasswordStrength(password)
  }

  /** As written, the meter freezes at its first reading: read once while
      the field is empty, it shows "Weak" for whatever is typed afterwards,
      including a password that scores "Strong". */
  lemma MeterFrozenAsWritten(typed: string)
    ensures var first := StrengthAsWritten(None, "");
            StrengthLabel(StrengthAsWritten(Some(first), typed)) == "Weak"
    ensures StrengthLabel(PasswordStrength("Abcdef1!")) == "Strong"
  {
    var p := "Abcdef1!";
    assert IsUpper(p[0]) && IsLower(p[1]) && IsDigit(p[6]);
    assert !IsLower(p[7]) && !IsUpper(p[7]) && !IsDigit(p[7]);
    LabelExamples(p);
  }

  /** What `passwordMatchValidator` returns to the group: a mismatch exactly
      when both controls exist and their values differ; a missing control is
      never a mismatch. Its side effect on the confirmation control is
      `ConfirmErrorsAsWritten`. */
  function PasswordMismatch(password: Option<string>, confirmPassword: Option<string>): (r: bool)
    ensures r <==> password.Some? && confirmPassword.Some? && password.value != confirmPassword.value
    ensures password == confirmPassword ==> !r
  {
    match (password, confirmPassword)
    case (Some(p), Some(c)) => p != c
    case _ => false
  }

  // ---- the match check on the form ----

  /** The errors object of the confirmation control. `setErrors` replaces the
      whole object, so a mismatch hides a `required` error. */
  datatype ControlErrors = NoErrors | Required | Mismatch

  /** The two password controls and the confirmation control's errors. The
      other controls' validators are summed up by an `othersValid` flag. */
  datatype MatchForm = MatchForm(password: string, confirm: string, confirmErrors: ControlErrors)

  /** A user edit of one of the two controls. */
  datatype Edit = EditPassword(text: string) | EditConfirm(text: string)

  /** The errors the confirmation control ought to carry for these values. */
  function ConfirmErrorsFor(password: string, confirm: string): (r: ControlErrors)
    ensures r == Mismatch <==> PasswordMismatch(Some(password), Some(confirm))
    ensures r == NoErrors <==> password == confirm && confirm != ""
  {
    if PasswordMismatch(Some(password), Some(confirm)) then Mismatch
    else if confirm == "" then Required else NoErrors
  }

  /** The form as `ngOnInit` builds it: both fields empty, so the confirmation
      control fails `required` and the group validator finds no mismatch. */
  const InitialMatchForm := MatchForm("", "", Required)

  /** One edit as written. The edited control re-runs its own validators;
      then the group validator runs and, on a mismatch, overwrites the
      confirmation control's errors. Nothing ever clears a mismatch set by a
      password edit except the confirmation control's own validators, which
      re-run only when the confirmation itself is edited. */
  function ConfirmErrorsAsWritten(f: MatchForm, e: Edit): (r: MatchForm)
    ensures e.EditPassword? ==> r.password == e.text && r.confirm == f.confirm
    ensures e.EditConfirm? ==> r.confirm == e.text && r.password == f.password
    ensures PasswordMismatch(Some(r.password), Some(r.confirm)) ==> r.confirmErrors == Mismatch
    ensures e.EditConfirm? ==> r.confirmErrors == ConfirmErrorsFor(r.password, r.confirm)
    // a password edit that makes the two agree leaves the old errors in place
    ensures e.EditPassword? && e.text == f.confirm ==> r.confirmErrors == f.confirmErrors
  {
    match e
    case EditPassword(p) =>
      MatchForm(p, f.confirm, if PasswordMismatch(Some(p), Some(f.confirm)) then Mismatch else f.confirmErrors)
    case EditConfirm(c) =>
      var own := if c == "" then Required else NoErrors;
      MatchForm(f.password, c, if PasswordMismatch(Some(f.password), Some(c)) then Mismatch else own)
  }

  /** One edit as intended: the confirmation control's errors always follow
      the current values. */
  function ConfirmErrorsFresh(f: MatchForm, e: Edit): (r: MatchForm)
    ensures r.password == (if e.EditPassword? then e.text else f.password)
    ensures r.confirm == (if e.EditConfirm? then e.text else f.confirm)
    ensures r.confirmErrors == ConfirmErrorsFor(r.password, r.confirm)
  {
    match e
    case EditPassword(p) => MatchForm(p, f.confirm, ConfirmErrorsFor(p, f.confirm))
    case EditConfirm(c) => MatchForm(f.password, c, ConfirmErrorsFor(f.password, c))
  }

  function RunAsWritten(f: MatchForm, edits: seq<Edit>): MatchForm
    decreases |edits|
  {
    if edits == [] then f else RunAsWritten(ConfirmErrorsAsWritten(f, edits[0]), edits[1..])
  }

  function RunFresh(f: MatchForm, edits: seq<Edit>): MatchForm
    decreases |edits|
  {
    if edits == [] then f else RunFresh(ConfirmErrorsFresh(f, edits[0]), edits[1..])
  }

  /** `registerForm.valid`: the group validator passes, the confirmation
      control carries no error, and every other control is valid. */
  predicate FormValid(f: MatchForm, othersValid: bool) {
    othersValid && f.confirmErrors == NoErrors && !PasswordMismatch(Some(f.password), Some(f.confirm))
  }

  /** The states edits reach as written: the errors are the ones the values
      call for, or a mismatch left behind after the two came to agree. */
  predicate MatchReachable(f: MatchForm) {
    f.confirmErrors == ConfirmErrorsFor(f.password, f.confirm) ||
    (f.confirmErrors == Mismatch && f.password == f.confirm)
  }

  lemma {:induction false} RunAsWrittenReachable(f: MatchForm, edits: seq<Edit>)
    requires MatchReachable(f)
    ensures MatchReachable(RunAsWritten(f, edits))
    decreases |edits|
  {
    if edits != [] {
      RunAsWrittenReachable(ConfirmErrorsAsWritten(f, edits[0]), edits[1..]);
    }
  }

  /** As written the form is never valid with the wrong confirmation: a
      valid form has equal, non-empty passwords, whatever the edits were. */
  lemma AsWrittenValidIsSound(edits: seq<Edit>, othersValid: bool)
    ensures var f := RunAsWritten(InitialMatchForm, edits);
            FormValid(f, othersValid) ==> othersValid && f.password == f.confirm && f.confirm != ""
  {
    RunAsWrittenReachable(InitialMatchForm, edits);
  }

  /** As intended, the form is valid after any edits exactly when the other
      controls are valid and the two passwords agree and are non-empty. */
  lemma {:induction false} FreshValidIff(f: MatchForm, edits: seq<Edit>, othersValid: bool)
    requires f.confirmErrors == ConfirmErrorsFor(f.password, f.confirm)
    ensures var g := RunFresh(f, edits);
            && g.confirmErrors == ConfirmErrorsFor(g.password, g.confirm)
            && (FormValid(g, othersValid) <==> othersValid && g.password == g.confirm && g.confirm != "")
    decreases |edits|
  {
    if edits != [] {
      FreshValidIff(ConfirmErrorsFresh(f, edits[0]), edits[1..], othersValid);
    }
  }

  const StuckEdits := [EditPassword("Abc"), EditConfirm("Abd"), EditPassword("Abd")]

  /** As written, a mismatch set while the password was "Abc" and the
      confirmation "Abd" outlives correcting the password to "Abd": the
      group validator passes, yet the form stays invalid and `onSubmit`
      does nothing until the confirmation is retyped. The intended form is
      valid. */
  lemma StuckMismatchAsWritten()
    ensures var f := RunAsWritten(InitialMatchForm, StuckEdits);
            && !PasswordMismatch(Some(f.password), Some(f.confirm))
            && f.confirmErrors == Mismatch
            && !FormValid(f, true)
            && FormValid(ConfirmErrorsAsWritten(f, EditConfirm("Abd")), true)
    ensures FormValid(RunFresh(InitialMatchForm, StuckEdits), true)
  {
    var e := StuckEdits;
    assert "Abc" != "Abd" by { assert "Abc"[2] != "Abd"[2]; }
    var f1 := ConfirmErrorsAsWritten(InitialMatchForm, e[0]);
    var f2 := ConfirmErrorsAsWritten(f1, e[1]);
    assert f2 == MatchForm("Abc", "Abd", Mismatch);
    var f3 := ConfirmErrorsAsWritten(f2, e[2]);
    assert f3 == MatchForm("Abd", "Abd", Mismatch);
    assert RunAsWritten(f3, e[3..]) == f3 by { assert e[3..] == []; }
    assert RunAsWritten(f2, e[2..]) == f3 by { assert e[2..][1..] == e[3..]; }
    assert RunAsWritten(f1, e[1..]) == f3 by { assert e[1..][1..] == e[2..]; }
    var g1 := ConfirmErrorsFresh(InitialMatchForm, e[0]);
    var g2 := ConfirmErrorsFresh(g1, e[1]);
    var g3 := ConfirmErrorsFresh(g2, e[2]);
    assert g3 == MatchForm("Abd", "Abd", NoErrors);
    assert RunFresh(g3, e[3..]) == g3 by { assert e[3..] == []; }
    assert RunFresh(g2, e[2..]) == g3 by { assert e[2..][1..] == e[3..]; }
    assert RunFresh(g1, e[1..]) == g3 by { assert e[1..][1..] == e[2..]; }
  }
}

=== FILE: seqs.dfy ===
/** Sequence operations the stores use: `Array.prototype.filter` with an
    inequality test, `Array.prototype.slice`, and the facts about them. */
module Seqs {

  /** No element occurs twice. */
  ghost predicate NoDuplicates<T>(s: seq<T>) {
    forall i, j :: 0 <= i < j < |s| ==> s[i] != s[j]
  }

  /** `a` is `b` with some elements dropped and the rest kept in order. */
  ghost predicate Subsequence<T>(a: seq<T>, b: seq<T>)
    decreases |b|
  {
    if a == [] then true
    else if b == [] then false
    else if a[0] == b[0] then Subsequence(a[1..], b[1..])
    else Subsequence(a, b[1..])
  }

  /** `s.filter(y => y !== x)` */
  function Without<T(==,!new)>(s: seq<T>, x: T): (r: seq<T>)
    ensures forall y :: y in r <==> y in s && y != x
    ensures multiset(r)[x] == 0
    ensures forall y :: y != x ==> multiset(r)[y] == multiset(s)[y]
    ensures x !in s ==> r == s
    ensures |r| <= |s|
  {
    if s == [] then []
    else
      assert s == [s[0]] + s[1..];
      if s[0] == x then Without(s[1..], x) else [s[0]] + Without(s[1..], x)
  }

  /** Filtering out `x` keeps every other element in its original order. */
  lemma {:induction false} WithoutIsSubsequence<T(!new)>(s: seq<T>, x: T)
    ensures Subsequence(Without(s, x), s)
  {
    if s != [] {
      WithoutIsSubsequence(s[1..], x);
      if s[0] != x {
        assert Without(s, x)[1..] == Without(s[1..], x);
      } else {
        SubsequenceDropHead(Without(s[1..], x), s);
      }
    }
  }

  /** Prepending an element to the longer sequence keeps a subsequence one. */
  lemma {:induction false} SubsequenceDropHead<T>(a: seq<T>, b: seq<T>)
    requires b != []
    requires Subsequence(a, b[1..])
    ensures Subsequence(a, b)
    decreases |b|, 0
  {
    if a != [] && a[0] == b[0] {
      SubsequenceTailAny(a, b[1..]);
    }
  }

  /** Dropping the head of a non-empty subsequence keeps it a subsequence. */
  lemma {:induction false} SubsequenceTailAny<T>(a: seq<T>, b: seq<T>)
    requires a != []
    requires Subsequence(a, b)
    ensures Subsequence(a[1..], b)
    decreases |b|, 1
  {
    if a[0] == b[0] {
      SubsequenceDropHead(a[1..], b);
    } else {
      SubsequenceTailAny(a, b[1..]);
      SubsequenceDropHead(a[1..], b);
    }
  }

  /** Filtering distributes over concatenation. */
  lemma {:induction false} WithoutAppend<T(!new)>(a: seq<T>, b: seq<T>, x: T)
    ensures Without(a + b, x) == Without(a, x) + Without(b, x)
  {
    if a == [] {
      assert a + b == b;
    } else {
      assert (a + b)[1..] == a[1..] + b;
      WithoutAppend(a[1..], b, x);
    }
  }

  /** Filtering out `x` keeps a duplicate-free sequence duplicate-free. */
  lemma {:induction false} WithoutNoDuplicates<T(!new)>(s: seq<T>, x: T)
    requires NoDuplicates(s)
    ensures NoDuplicates(Without(s, x))
  {
    if s != [] {
      assert NoDuplicates(s[1..]);
      WithoutNoDuplicates(s[1..], x);
      if s[0] != x {
        var r := Without(s, x);
        assert r == [s[0]] + Without(s[1..], x);
        forall i, j | 0 <= i < j < |r|
          ensures r[i] != r[j]
        {
          if i == 0 {
            assert r[j] in Without(s[1..], x);
            assert s[0] !in s[1..];
          }
        }
      }
    }
  }

  /** Appending an absent element keeps a sequence duplicate-free. */
  lemma AppendNoDuplicates<T>(s: seq<T>, x: T)
    requires NoDuplicates(s) && x !in s
    ensures NoDuplicates(s + [x])
  {
  }

  /** `Array.prototype.slice` normalisation of one index against length `len`. */
  function SliceIndex(i: int, len: nat): (r: nat)
    ensures r <= len
  {
    if i < 0 then (if len + i < 0 then 0 else len + i)
    else if i > len then len
    else i
  }

  /** `s.slice(start, end)` with JavaScript's negative and out-of-range handling. */
  function Slice<T>(s: seq<T>, start: int, end: int): (r: seq<T>)
    ensures |r| <= |s|
    ensures 0 <= start <= end ==> |r| <= end - start
    ensures 0 <= start <= |s| && start <= end ==>
              r == s[start..if end < |s| then end else |s|]
  {
    var a := SliceIndex(start, |s|);
    var b := SliceIndex(end, |s|);
    if a < b then s[a..b] else []
  }

  /** `s.slice(0, n)`: the first `min(n, |s|)` elements. */
  function Take<T>(s: seq<T>, n: nat): (r: seq<T>)
    ensures |r| == if |s| < n then |s| else n
    ensures r == s[..|r|]
    ensures |s| <= n ==> r == s
  {
    assert s[..|s|] == s;
    Slice(s, 0, n)
  }

  /** Truncating after truncating a suffix is truncating once. */
  lemma TakeAppendTake<T>(a: seq<T>, b: seq<T>, n: nat)
    ensures Take(a + Take(b, n), n) == Take(a + b, n)
  {
    var l := Take(a + Take(b, n), n);
    var r := Take(a + b, n);
    assert |l| == |r|;
    forall i | 0 <= i < |l|
      ensures l[i] == r[i]
    {
      if i >= |a| {
        assert l[i] == Take(b, n)[i - |a|];
      }
    }
  }

  function Reverse<T>(s: seq<T>): (r: seq<T>)
    ensures |r| == |s|
    ensures forall i :: 0 <= i < |s| ==> r[i] == s[|s| - 1 - i]
  {
    if s == [] then [] else Reverse(s[1..]) + [s[0]]
  }

  /** Reversing twice gives the sequence back. */
  lemma ReverseReverse<T>(s: seq<T>)
    ensures Reverse(Reverse(s)) == s
  {
  }
}

=== FILE: storage.dfy ===
/** Browser key/value storage holding JSON text. A stored entry is either text
    that `JSON.parse` turns into a value of the expected shape, or any other
    text (the empty string included), which every reader treats as absent. */
module Storage {
  import opened Wrappers

  datatype Stored<T> = Parsed(value: T) | Unparseable(text: string)

  type Store<T> = map<string, Stored<T>>

  /** `getItem(key)`, then `JSON.parse` inside a `try`, with falsy text and
      parse failures both giving `null`. */
  function Read<T>(m: Store<T>, key: string): Option<T> {
    if key in m && m[key].Parsed? then Some(m[key].value) else None
  }

  /** `setItem(key, JSON.stringify(v))` */
  function Write<T>(m: Store<T>, key: string, v: T): (r: Store<T>)
    ensures Read(r, key) == Some(v)
    ensures forall k :: k != key ==> Read(r, k) == Read(m, k)
  {
    m[key := Parsed(v)]
  }

  /** `removeItem(key)` */
  function Remove<T>(m: Store<T>, key: string): (r: Store<T>)
    ensures Read(r, key) == None
    ensures forall k :: k != key ==> Read(r, k) == Read(m, k)
  {
    m - {key}
  }
}

=== FILE: text.dfy ===
/** String helpers with JavaScript semantics. */
module Text {

  /** JavaScript truthiness of a string: only the empty string is falsy. */
  predicate Truthy(s: string) {
    s != ""
  }

  /** `s || fallback` on strings. */
  function OrElse(s: string, fallback: string): string {
    if Truthy(s) then s else fallback
  }

  /** `sub` occurs in `s` starting at index `i`. */
  predicate OccursAt(s: string, sub: string, i: int) {
    0 <= i && i + |sub| <= |s| && s[i..i + |sub|] == sub
  }

  /** `s.includes(sub)` */
  predicate Contains(s: string, sub: string) {
    exists i | 0 <= i <= |s| :: OccursAt(s, sub, i)
  }

  /** Every string includes itself and the empty string. */
  lemma ContainsSelfAndEmpty(s: string)
    ensures Contains(s, s)
    ensures Contains(s, "")
  {
    assert OccursAt(s, s, 0);
    assert OccursAt(s, "", 0);
  }

  /** A string includes nothing longer than itself. */
  lemma ContainsShorter(s: string, sub: string)
    requires Contains(s, sub)
    ensures |sub| <= |s|
  {
  }

  function DigitChar(d: nat): char
    requires d < 10
  {
    "0123456789"[d]
  }

  function NatToString(n: nat): (r: string)
    ensures |r| >= 1
    ensures forall i :: 0 <= i < |r| ==> '0' <= r[i] <= '9'
    decreases n
  {
    if n < 10 then [DigitChar(n)] else NatToString(n / 10) + [DigitChar(n % 10)]
  }

  /** `String(n)` for an integer-valued JavaScript number. */
  function IntToString(n: int): string {
    if n < 0 then "-" + NatToString(-n) else NatToString(n)
  }
}

=== FILE: ui_store.dfy ===
/** The UI store: theme, sidebar, the global loading indicator and the
    notification list. Theme and sidebar are kept in local storage as text;
    the system colour-scheme preference and notification ids are inputs, and
    an auto-dismiss timer is returned as the delay it would be set for. */
module UiStore {
  import opened Wrappers
  import opened Seqs

  const ThemeKey := "app_theme"
  const SidebarKey := "sidebar_collapsed"

  /** Local storage as text. */
  type LocalStorage = map<string, string>

  datatype Theme = Light | Dark {
    function Name(): string {
      match this
      case Light => "light"
      case Dark => "dark"
    }
  }

  datatype Kind = Success | Error | Warning | Info

  datatype Notification = Notification(
    id: string,
    kind: Kind,
    message: string,
    duration: Option<int>,
    dismissible: Option<bool>)

  /** The argument of `addNotification`: a notification without its id. */
  datatype NotificationInput = NotificationInput(
    kind: Kind,
    message: string,
    duration: Option<int>,
    dismissible: Option<bool>)

  datatype UiState = UiState(
    theme: Theme,
    sidebarCollapsed: bool,
    isLoading: bool,
    loadingMessage: Option<string>,
    notifications: seq<Notification>)

  const InitialUiState := UiState(Light, false, false, None, [])

  // ---- computed views ----

  /** `isDarkMode`: the stored theme name is "dark". */
  function IsDarkMode(st: UiState): (r: bool)
    ensures r <==> st.theme.Name() == "dark"
  {
    st.theme == Dark
  }

  /** `hasNotifications` */
  function HasNotifications(st: UiState): (r: bool)
    ensures r <==> st.notifications != []
  {
    |st.notifications| > 0
  }

  /** `latestNotification`: the first, hence newest, notification. */
  function LatestNotification(st: UiState): (r: Option<Notification>)
    ensures r.Some? <==> HasNotifications(st)
    ensures r.Some? ==> r.value == st.notifications[0]
  {
    if |st.notifications| > 0 then Some(st.notifications[0]) else None
  }

  // ---- local storage ----

  /** `loadTheme`: a stored "dark" or "light" wins; anything else defers to
      the system preference. */
  function LoadTheme(storage: LocalStorage, prefersDark: bool): (r: Theme)
    ensures ThemeKey in storage && storage[ThemeKey] == "dark" ==> r == Dark
    ensures ThemeKey in storage && storage[ThemeKey] == "light" ==> r == Light
    ensures !(ThemeKey in storage && storage[ThemeKey] in {"dark", "light"}) ==>
              r == (if prefersDark then Dark else Light)
  {
    if ThemeKey in storage && storage[ThemeKey] == "dark" then Dark
    else if ThemeKey in storage && storage[ThemeKey] == "light" then Light
    else if prefersDark then Dark
    else Light
  }

  /** `loadSidebarState`: collapsed only for the exact text "true". */
  function LoadSidebarState(storage: LocalStorage): (r: bool)
    ensures r <==> SidebarKey in storage && storage[SidebarKey] == BoolText(true)
    ensures SidebarKey !in storage ==> !r
  {
    SidebarKey in storage && storage[SidebarKey] == "true"
  }

  /** `boolean.toString()` */
  function BoolText(b: bool): string {
    if b then "true" else "false"
  }

  /** `initialize` */
  function Initialize(st: UiState, storage: LocalStorage, prefersDark: bool): (r: UiState)
    ensures r.theme == LoadTheme(storage, prefersDark) && r.sidebarCollapsed == LoadSidebarState(storage)
    ensures r.(theme := st.theme, sidebarCollapsed := st.sidebarCollapsed) == st
  {
    st.(theme := LoadTheme(storage, prefersDark), sidebarCollapsed := LoadSidebarState(storage))
  }

  datatype Step = Step(state: UiState, storage: LocalStorage)

  /** `setTheme`: what it writes is what `loadTheme` reads back, whatever the
      system preference. */
  function SetTheme(st: UiState, storage: LocalStorage, theme: Theme): (r: Step)
    ensures r.state == st.(theme := theme)
    ensures forall prefersDark :: LoadTheme(r.storage, prefersDark) == theme
    ensures r.storage == storage[ThemeKey := theme.Name()]
  {
    Step(st.(theme := theme), storage[ThemeKey := theme.Name()])
  }

  /** `toggleTheme`: light becomes dark and dark becomes light, and the new
      theme survives a reload. */
  function ToggleTheme(st: UiState, storage: LocalStorage): (r: Step)
    ensures r.state.theme != st.theme
    ensures r.state == st.(theme := r.state.theme)
    ensures forall prefersDark :: LoadTheme(r.storage, prefersDark) == r.state.theme
  {
    SetTheme(st, storage, if st.theme == Light then Dark else Light)
  }

  /** Toggling the theme twice restores it. */
  lemma ToggleThemeTwice(st: UiState, storage: LocalStorage)
    ensures var once := ToggleTheme(st, storage);
            ToggleTheme(once.state, once.storage).state == st
  {
  }

  /** `setSidebarCollapsed`: the written text reads back as the same flag. */
  function SetSidebarCollapsed(st: UiState, storage: LocalStorage, collapsed: bool): (r: Step)
    ensures r.state == st.(sidebarCollapsed := collapsed)
    ensures LoadSidebarState(r.storage) == collapsed
    ensures r.storage == storage[SidebarKey := BoolText(collapsed)]
  {
    Step(st.(sidebarCollapsed := collapsed), storage[SidebarKey := BoolText(collapsed)])
  }

  /** `toggleSidebar` */
  function ToggleSidebar(st: UiState, storage: LocalStorage): (r: Step)
    ensures r.state.sidebarCollapsed == !st.sidebarCollapsed
    ensures r.state == st.(sidebarCollapsed := r.state.sidebarCollapsed)
    ensures LoadSidebarState(r.storage) == r.state.sidebarCollapsed
  {
    SetSidebarCollapsed(st, storage, !st.sidebarCollapsed)
  }

  /** After toggling the sidebar or the theme, `initialize` reloads the same
      sidebar state and theme that the store holds. */
  lemma ReloadAfterWrite(st: UiState, storage: LocalStorage, prefersDark: bool)
    ensures var r := ToggleSidebar(st, storage);
            Initialize(r.state, r.storage, prefersDark).sidebarCollapsed == r.state.sidebarCollapsed
    ensures var r := ToggleTheme(st, storage);
            Initialize(r.state, r.storage, prefersDark).theme == r.state.theme
  {
  }

  // ---- loading indicator ----

  /** `showLoading(message?)`: no message shows no text. */
  function ShowLoading(st: UiState, message: Option<string>): (r: UiState)
    ensures r.isLoading && r.loadingMessage == message
    ensures r.(isLoading := st.isLoading, loadingMessage := st.loadingMessage) == st
  {
    st.(isLoading := true, loadingMessage := message)
  }

  /** `hideLoading` */
  function HideLoading(st: UiState): (r: UiState)
    ensures !r.isLoading && r.loadingMessage.None?
    ensures r.(isLoading := st.isLoading, loadingMessage := st.loadingMessage) == st
  {
    st.(isLoading := false, loadingMessage := None)
  }

  // ---- notifications ----

  /** `notifications.filter(n => n.id !== id)` */
  function RemoveById(ns: seq<Notification>, id: string): (r: seq<Notification>)
    ensures forall n :: n in r <==> n in ns && n.id != id
    ensures (forall i | 0 <= i < |ns| :: ns[i].id != id) ==> r == ns
    ensures forall n: Notification :: n.id != id ==> multiset(r)[n] == multiset(ns)[n]
    ensures |r| <= |ns|
  {
    if ns == [] then []
    else
      assert ns == [ns[0]] + ns[1..];
      if ns[0].id == id then RemoveById(ns[1..], id)
      else [ns[0]] + RemoveById(ns[1..], id)
  }

  /** Removing by id keeps the survivors in their order. */
  lemma {:induction false} RemoveByIdIsSubsequence(ns: seq<Notification>, id: string)
    ensures Subsequence(RemoveById(ns, id), ns)
  {
    if ns != [] {
      RemoveByIdIsSubsequence(ns[1..], id);
      if ns[0].id == id {
        SubsequenceDropHead(RemoveById(ns[1..], id), ns);
      } else {
        assert RemoveById(ns, id)[1..] == RemoveById(ns[1..], id);
      }
    }
  }

  /** The result of adding a notification: the new state, the id handed back,
      and the auto-dismiss delay if a timer is set. */
  datatype Added = Added(state: UiState, id: string, dismissAfter: Option<int>)

  /** `addNotification`: the notification, with duration 5000 and
      dismissible `true` by default, goes first; a timer is set exactly when
      the duration is positive. */
  function AddNotification(st: UiState, input: NotificationInput, id: string): (r: Added)
    ensures r.id == id
    ensures LatestNotification(r.state) ==
            Some(Notification(id, input.kind, input.message, Some(input.duration.GetOr(5000)),
                              Some(input.dismissible.GetOr(true))))
    ensures r.state.notifications[1..] == st.notifications
    ensures r.state == st.(notifications := r.state.notifications)
    ensures r.dismissAfter.Some? <==> input.duration.GetOr(5000) > 0
    ensures r.dismissAfter.Some? ==> r.dismissAfter.value == input.duration.GetOr(5000)
  {
    var n := Notification(id, input.kind, input.message, Some(input.duration.GetOr(5000)),
                          Some(input.dismissible.GetOr(true)));
    var duration := input.duration.GetOr(5000);
    Added(st.(notifications := [n] + st.notifications), id, if duration > 0 then Some(duration) else None)
  }

  /** `removeNotification(id)` */
  function RemoveNotification(st: UiState, id: string): (r: UiState)
    ensures forall n :: n in r.notifications <==> n in st.notifications && n.id != id
    ensures r == st.(notifications := r.notifications)
  {
    st.(notifications := RemoveById(st.notifications, id))
  }

  /** The dismissal scheduled for a notification whose id is fresh removes
      it and nothing else. */
  lemma DismissUndoesAdd(st: UiState, input: NotificationInput, id: string)
    requires forall i | 0 <= i < |st.notifications| :: st.notifications[i].id != id
    ensures RemoveNotification(AddNotification(st, input, id).state, id) == st
  {
    var added := AddNotification(st, input, id).state;
    assert added.notifications == [added.notifications[0]] + st.notifications;
  }

  /** `clearNotifications` */
  function ClearNotifications(st: UiState): (r: UiState)
    ensures !HasNotifications(r) && LatestNotification(r).None?
    ensures r == st.(notifications := [])
  {
    st.(notifications := [])
  }

  /** The default display time of each notification type. */
  function DefaultDuration(kind: Kind): (r: int)
    ensures r >= 5000
    ensures r == 8000 <==> kind == Kind.Error
  {
    match kind
    case Success => 5000
    case Error => 8000
    case Warning => 6000
    case Info => 5000
  }

  /** `showSuccess` / `showError` / `showWarning` / `showInfo`: an
      `addNotification` whose duration defaults per type and which is always
      dismissible. */
  function Show(st: UiState, kind: Kind, message: string, duration: Option<int>, id: string): (r: Added)
    ensures r == AddNotification(st, NotificationInput(kind, message, Some(duration.GetOr(DefaultDuration(kind))),
                                                       Some(true)), id)
    ensures LatestNotification(r.state).Some? && LatestNotification(r.state).value.dismissible == Some(true)
    ensures duration.None? ==> r.dismissAfter == Some(DefaultDuration(kind))
  {
    var n := Notification(id, kind, message, Some(duration.GetOr(DefaultDuration(kind))), Some(true));
    var d := duration.GetOr(DefaultDuration(kind));
    Added(st.(notifications := [n] + st.notifications), id, if d > 0 then Some(d) else None)
  }

  /** Errors stay longest by default, warnings next, successes and
      information shortest. */
  lemma DefaultDurationOrder()
    ensures DefaultDuration(Kind.Error) > DefaultDuration(Kind.Warning) > DefaultDuration(Kind.Success)
    ensures DefaultDuration(Kind.Success) == DefaultDuration(Kind.Info) == 5000
  {
  }
}

=== FILE: wrappers.dfy ===
/** Failure-compatible wrappers: JavaScript `null`/`undefined` become `None`,
    an observable that errors becomes `Failure`. */
module Wrappers {

  datatype Option<+T> = None | Some(value: T) {

    /** `x ?? fallback` */
    function GetOr(fallback: T): T {
      match this
      case Some(v) => v
      case None => fallback
    }
  }

  datatype Result<+R, +E> = Success(value: R) | Failure(error: E)
}
